=== FILE: README.md ===
# A Dafny model of the chess core of Empth/chess

This project models the rules-and-bookkeeping core of a small Python chess
engine. It is written as immutable datatypes and pure functions, and it proves what the core
promises. The parts it covers are:

- square arithmetic and algebraic notation;
- the per-piece pseudo-legal move checkers and the ray casting they rest on;
- the rook and bishop movement zones;
- the board grid with the players' `name -> piece` dictionaries;
- piece naming and the initial sixteen-piece collection;
- pawn promotion, the turn log, and the input and winner helpers of the game loop;
- the minimax search with its alpha-beta toggle, the material evaluation, and the constant value tables.

One module per source file:

| module | file | source |
|---|---|---|
| `Builtins` | builtins.dfy | Python's `None`, exceptions, `str(int)`, `int(ch)`, `str.upper` |
| `Constants` | constants.dfy | colours, ranks, castle sides, move kinds |
| `GeneralHelpers` | general_helpers.dfy | chess/helpers/general_helpers.py |
| `Pieces` | piece.dfy | chess/piece.py |
| `Board` | board.dfy | chess/board.py |
| `Player` | player.dfy | chess/player.py |
| `StateHelpers` | state_helpers.dfy | chess/helpers/state_helpers.py |
| `Turn` | turn.dfy | chess/turn.py |
| `GameHelpers` | game_helpers.dfy | chess/helpers/game_helpers.py |
| `LegalityHelpers` | legality_helpers.dfy | chess/helpers/legality_helpers.py |
| `MoveLegal` | move_legal.dfy | chess/move_legal.py |
| `MovementZone` | movement_zone.dfy | chess/movement_zone.py |
| `Tables` | tables.dfy | chess/misc/tables.py |
| `Minimax` | minimax.dfy | chess/minimax.py |

Conventions:

- A raised exception is a `Raise(error)` value of `Result`.
- A Python `assert` on the arguments becomes a `requires`.
- The board is a `State`, made of three parts:
  - an 8x8 grid of optional piece handles;
  - an arena mapping handles to `Piece` values;
  - the two players' dictionaries, as one map from (colour, name) to a handle.

  The owner of a piece is the player of its colour, which stands in for the back-reference `board.py` uses.
- The search is stated over an abstract game. The game is a record of four functions: truly legal moves, apply, in-check, and evaluation.

## Model

| member | source | states |
|---|---|---|
| GeneralHelpers.TaxicabDistIsMetric | chess/helpers/general_helpers.py:5-11 | the distance is symmetric, and it is 0 exactly when the squares are equal |
| GeneralHelpers.InBoundsMeansOneToEight | chess/helpers/general_helpers.py:13-17 | a square is on the board iff both coordinates are in 1..8 |
| GeneralHelpers.CardinalDirection | chess/helpers/general_helpers.py:19-36 | for distinct squares on a file or rank: N/S iff same file with dest above/below; E/W iff same rank with dest right/left |
| GeneralHelpers.CardinalDirectionOnRay | chess/helpers/general_helpers.py:19-36 | the direction returned reaches dest after exactly the taxicab distance in unit steps |
| GeneralHelpers.OrdinalDirection | chess/helpers/general_helpers.py:38-58 | for distinct squares on a diagonal, the first letter is N iff dest is higher and the second is E iff dest is further right |
| GeneralHelpers.OrdinalDirectionOnRay | chess/helpers/general_helpers.py:38-58 | the diagonal returned reaches dest after as many unit steps as the files differ |
| GeneralHelpers.FileTablesAreInverse | chess/helpers/general_helpers.py:72-74 | the file-to-letter and letter-to-file tables are inverse and follow the alphabet |
| GeneralHelpers.CoordToAlgebraic | chess/helpers/general_helpers.py:76-80 | a pair converts iff it has two elements and lies on the board; the result is the file letter then the rank digit |
| GeneralHelpers.AlgebraicToCoord | chess/helpers/general_helpers.py:81-87 | a string converts iff its first two characters are A..H and 1..8; the result is the file and the rank they name |
| GeneralHelpers.AlgebraicUniconverter | chess/helpers/general_helpers.py:67-88 | it raises exactly on off-board pairs and malformed strings, and it converts each kind of input into the other |
| GeneralHelpers.CoordsRoundTrip | chess/helpers/general_helpers.py:67-88 | every on-board pair survives coordinate -> string -> coordinate |
| GeneralHelpers.TextRoundTrip | chess/helpers/general_helpers.py:67-88 | every name A1..H8 survives string -> coordinate -> string |
| GeneralHelpers.ConvertLetterToRank | chess/helpers/general_helpers.py:90-95 | it succeeds iff the letter is one of P, R, N, B, K, Q; N gives the knight and K the king |
| GeneralHelpers.ConvertLetterToRankInjective | chess/helpers/general_helpers.py:90-95 | the six letters name six different ranks |
| GeneralHelpers.ConvertToMovementSet | chess/helpers/general_helpers.py:106-114 | the set holds exactly the squares of the list |
| GeneralHelpers.GetTilesFromOffsetPos | chess/helpers/general_helpers.py:116-131 | the tiles are exactly the on-board squares pos + offset, with at most one per offset |
| GeneralHelpers.TilesFollowOffsetOrder | chess/helpers/general_helpers.py:116-131 | one more offset appends its tile at the end, or nothing when the tile is off the board |
| Pieces.AlgebraicConverter | chess/piece.py:3-8 | it raises iff the file is outside 1..8, and otherwise yields at least two characters |
| Pieces.AlgebraicConverterAgrees | chess/piece.py:3-8 | on the board it is the coordinate-to-string half of `algebraic_uniconverter` |
| Pieces.RankLetterAsWritten | chess/piece.py:15 | as written the letter is always the first character of the rank string, so the 'N' branch never fires |
| Pieces.RankLetter | chess/piece.py:15-17 | the intended rank letter reads back as the rank under `convert_letter_to_rank` |
| Pieces.PieceNameReadsBack | chess/piece.py:15-16 | a name's letter gives the rank, and its last two characters convert to the start square |
| Pieces.PieceNameAsWrittenShape | chess/piece.py:15-16 | as written a name is the first character of the rank string, '-', then the algebraic start square |
| Pieces.NamingsAgreeOffKnights | chess/piece.py:15-16 | the as-written and the intended names differ exactly for knights |
| Pieces.NewPiece | chess/piece.py:11-16 | a missing square raises TypeError and an off-board file KeyError; otherwise colour, rank and square are stored and the name is the rank letter, '-', then the algebraic start square; under the as-written rule the letter is the rank string's first character, under the intended rule it reads back as the rank |
| Pieces.NewKnightOnB1 | chess/piece.py:15-16 | `Piece('WHITE', 'KNIGHT', (2, 1))` is named `K-B1` as written and `N-B1` under the intended rule |
| Pieces.PieceNameInjective | chess/piece.py:16 | distinct (rank, start square) pairs get distinct names |
| Pieces.PieceNameAsWrittenFixesSquare | chess/piece.py:15-16 | as written a name still fixes the start square |
| Pieces.KnightLetteredAsKing | chess/piece.py:15 | as written a knight is lettered 'K', which reads back as the king |
| Pieces.NameFixesSquare | chess/piece.py:15-16 | under either letter rule, equal names on the board mean equal start squares |
| Pieces.KnightAndKingNamesCollideAsWritten | chess/piece.py:15 | as written a knight and a king created on the same square get the same name, which the intended rule keeps apart |
| Board.ConvertCoordIsBijection | chess/board.py:4-9 | `convert_coord` maps the 64 squares one-to-one onto the 64 grid indices |
| Board.NewBoardIsEmpty | chess/board.py:13-14 | a fresh board is valid and every square on it is empty |
| Board.GetPiece | chess/board.py:50-56 | on the board it reads the square's occupant; off the board it succeeds exactly where Python's negative indices still land |
| Board.GetPieceWrapsAround | chess/board.py:50-56 | squares just past the top or left edge alias on-board squares |
| Board.AddOrReplacePiece | chess/board.py:28-47 | the new occupant is on pos and the old one is returned; no other square changes; it raises only if the replaced piece is missing from its dictionary |
| Board.AddOrReplaceUpdatesPieces | chess/board.py:38-47 | the added piece takes pos and its owner's entry; the replaced piece loses its square and entry; no other piece or entry changes |
| Board.AddOrReplacePreservesConsistency | chess/board.py:28-47 | from a consistent board and dictionaries it cannot raise, and it keeps them consistent |
| Board.RemovePiece | chess/board.py:17-25 | pos becomes empty, the former occupant is returned, and other squares are untouched |
| Board.RemoveThenRestore | chess/board.py:17-47 | lifting a placed piece and putting it back restores the state exactly |
| Board.MovePieceAsWrittenIsNoOp | chess/board.py:69-78 | as written it succeeds only when the piece already stands on pos, and then it changes nothing |
| Board.MovePieceAsWrittenRejectsAdvance | chess/board.py:72-75 | as written, moving the B2 pawn to B4 raises |
| Board.MovePieceAsWritten | chess/board.py:69-78 | a missing piece raises; on the board, success means the piece already stood on pos, stays there and captures nothing; any other piece raises |
| Board.MovePiece | chess/board.py:59-68 | a missing piece raises, and so does an unplaced one (TypeError); a success leaves the piece on pos, and it was lifted from its own square |
| Board.MovePieceMoves | chess/board.py:59-68 | the documented move: the piece lands on pos, its old square empties, the victim is returned off the board and out of every dictionary, other squares are untouched, and consistency holds |
| Player.StartPiecesAreNewPieces | chess/player.py:21-23 | each collected piece is what `Piece(color, rank, pos)` builds for its rank and square, under the same letter rule; with `AsWritten` that is the constructor as written |
| Player.StartNamesDistinct | chess/player.py:20-24 | under either letter rule, including the as-written one that letters knights 'K', no two starting pieces share a name |
| Player.StartRosterDistinct | chess/player.py:17-23 | the sixteen starting pieces of a colour carry sixteen different names under either rule |
| Player.InsertRoster | chess/player.py:20-24 | the loop stores every piece of a roster with distinct names under its own name, and the dictionary holds nothing else |
| Player.StartPiecesPlaced | chess/player.py:17-23 | every starting piece is on the board, and it is a pawn iff it stands on the pawn row |
| Player.CollectPieces | chess/player.py:12-24 | 16 entries: one pawn per file on rank 2/7 and the back row R,N,B,K,Q,B,N,R on rank 1/8, each of the player's colour and keyed by its own name; `CollectPieces(color, AsWritten)` is the method as written |
| Player.KnightKeys | chess/player.py:17-23 | as written the knights are keyed `K-B1`, `K-G1` (white) and `K-B8`, `K-G8` (black); under the intended rule the keys start with 'N' |
| StateHelpers.PawnPromotion | chess/helpers/state_helpers.py:7-14 | it turns a piece into a queen iff it is a pawn and dest is on the mover's end rank; colour, square and name never change |
| StateHelpers.PawnPromotionIdempotent | chess/helpers/state_helpers.py:11-13 | promoting twice is promoting once |
| StateHelpers.PromotionByColour | chess/helpers/state_helpers.py:11-13 | white pawns promote on rank 8 and black pawns on rank 1; non-pawns never change |
| Turn.NewTurn | chess/turn.py:8-23 | the defaulted attributes hold their defaults and the rest are unset |
| Turn.LogCastle | chess/turn.py:26-46 | it records CASTLE, the side, both codes, first move, no two-leap and not a pseudo-move; move attributes are untouched |
| Turn.CastleLeavesTwoLeapCodeUnset | chess/turn.py:43 | a castle logged on a fresh record leaves the two-leap code unset |
| Turn.LogMove | chess/turn.py:49-71 | it records MOVE with every argument verbatim; the two-leap code is the moved piece's name iff it two-leaped, and None otherwise |
| Turn.MoveAfterCastleKeepsCastleCodes | chess/turn.py:38-71 | a move logged over a castle record leaves the castle side and codes in place |
| Turn.CaptureWithoutSquareAccepted | chess/turn.py:57-58 | the pairing check lets a capture through without its square |
| GameHelpers.WellFormed | chess/helpers/game_helpers.py:6-15 | ok iff the input is a 2-character string whose upper-cased first character is A..H and whose second is 1..8; the message matches each failure |
| GameHelpers.WellFormedConverts | chess/helpers/game_helpers.py:31-36 | a well-formed input, upper-cased, always converts, and to an on-board square |
| GameHelpers.PosChecker | chess/helpers/game_helpers.py:26-43 | true iff the input is well formed and names a square holding a piece of the colour to move; every failure sets an error message and changes nothing else |
| GameHelpers.ConvertColorToPlayer | chess/helpers/game_helpers.py:64-68 | white maps to player 1 and black to player 2 |
| GameHelpers.ConvertColorToPlayerInverse | chess/helpers/game_helpers.py:64-73 | white is player 1 and black is player 2, one to one |
| GameHelpers.SetErrorMessage | chess/helpers/game_helpers.py:75-80 | it stores the message, switches the display on, and changes nothing else |
| GameHelpers.PlayerHasKing | chess/helpers/game_helpers.py:118-123 | the dictionary scan finds a king iff the player has one |
| GameHelpers.CheckWinnerKingCondition | chess/helpers/game_helpers.py:108-130 | needs some king; player 2 wins if player 1 has no king, else player 1 wins if player 2 has none; otherwise nothing changes and it returns false |
| GameHelpers.SetSpecialCommand | chess/helpers/game_helpers.py:90-95 | it stores the command, switches detection on, and changes nothing else |
| GameHelpers.GetSpecialCommandAsWritten | chess/helpers/game_helpers.py:97-105 | as written it returns the stored command, empties it, clears the error display and leaves the detection flag and everything else alone |
| GameHelpers.GetSpecialCommand | chess/helpers/game_helpers.py:97-105 | as documented it returns the stored command, empties it, switches detection off and changes nothing else |
| GameHelpers.GetSpecialCommandAsWrittenLeavesDetectionOn | chess/helpers/game_helpers.py:97-105 | as written, a command set and then read is still flagged as present, and the error display is cleared |
| GameHelpers.SpecialCommandRoundTrip | chess/helpers/game_helpers.py:97-105 | as documented, set then get returns the command and leaves no command pending |
| LegalityHelpers.PawnStarting | chess/helpers/legality_helpers.py:6-23 | it raises for non-pawns and unplaced pieces; it is true iff the pawn is on its colour's pawn row |
| LegalityHelpers.StartPawnsAreStarting | chess/helpers/legality_helpers.py:6-23 | every pawn of the initial collection counts as starting |
| LegalityHelpers.PawnMovingStraightForward | chess/helpers/legality_helpers.py:25-43 | true iff dest is on the same file, strictly in the colour's forward direction |
| LegalityHelpers.PawnMovingDiagonalForward | chess/helpers/legality_helpers.py:45-64 | true iff dest is on a diagonal, strictly forward for the colour; hence the file changes |
| LegalityHelpers.CardinalBetweenOnRay | chess/helpers/legality_helpers.py:66-90 | on a ray, dest is between iff it is no further than the blocker (sliders) or strictly between (pawns) |
| LegalityHelpers.OrdinalBetweenOnRay | chess/helpers/legality_helpers.py:144-166 | on a diagonal ray every assertion holds, and dest is between iff it is no further than the blocker |
| LegalityHelpers.BlockerDist | chess/helpers/legality_helpers.py:93-141 | the steps to the first off-board or occupied square; every square before it is on the board and empty |
| LegalityHelpers.FirstBlockerNoneMeansClearRay | chess/helpers/legality_helpers.py:93-141 | there is no collision iff every on-board square of the ray is empty |
| LegalityHelpers.ClearPathUpToBlocker | chess/helpers/legality_helpers.py:93-141 | the path to a square is clear iff the square is no further than the first blocker |
| LegalityHelpers.GetCardinalCollision | chess/helpers/legality_helpers.py:93-118 | the loop ends, and it returns the nearest occupied square along the file or rank, or None when the ray is empty |
| LegalityHelpers.GetOrdinalCollision | chess/helpers/legality_helpers.py:120-141 | the loop ends, and it returns the nearest occupied square along the diagonal, or None when the ray is empty |
| MoveLegal.Reject | chess/move_legal.py:54-55 | a rejection succeeds iff a piece stands on pos, since the message reads its rank |
| MoveLegal.PawnMoveLegal | chess/move_legal.py:10-55 | an empty pos raises AttributeError; with a piece on pos it succeeds iff the piece is a pawn; a legal pawn move changes square and covers at most two steps |
| MoveLegal.PawnStraightMeaning | chess/move_legal.py:23-40 | a straight advance is legal iff it is one square, or two from the pawn row, and every square up to dest is empty |
| MoveLegal.PawnDiagonalMeaning | chess/move_legal.py:42-53 | a diagonal move is legal iff it is one square forward onto an enemy piece; the distance assertion holds |
| MoveLegal.PawnMoveMeaning | chess/move_legal.py:10-55 | on a pawn it never raises and accepts exactly the quiet advances and the diagonal captures |
| MoveLegal.SliderVerdict | chess/move_legal.py:58-104 | a slide is allowed iff dest is no further than the first blocker and is not a friendly blocker |
| MoveLegal.RookMoveLegal | chess/move_legal.py:58-80 | it raises only AttributeError and only on an empty pos; a legal rook move stays on a file or a rank |
| MoveLegal.RookMoveMeaning | chess/move_legal.py:58-80 | along a line the rook's verdict is legal iff the slide is allowed; with a piece on pos it never raises |
| MoveLegal.RookRejectsOffLine | chess/move_legal.py:62-63 | a rook move off its lines is rejected |
| MoveLegal.RookAcceptsPastTheEdge | chess/move_legal.py:58-80 | a destination off the board along a line is accepted iff the on-board part of the ray is empty, since the checker never reads dest |
| MoveLegal.BishopMoveLegal | chess/move_legal.py:83-104 | it raises only AttributeError and only on an empty pos; a legal bishop move stays on a diagonal |
| MoveLegal.BishopMoveMeaning | chess/move_legal.py:83-104 | along a diagonal the bishop's verdict is legal iff the slide is allowed; with a piece on pos it never raises |
| MoveLegal.BishopRejectsOffDiagonal | chess/move_legal.py:83-104 | a bishop move off its diagonals is rejected |
| MoveLegal.BishopAcceptsPastTheEdge | chess/move_legal.py:83-104 | a destination off the board along a diagonal is accepted iff the on-board part of the ray is empty |
| MoveLegal.QueenMoveLegal | chess/move_legal.py:115-134 | it raises only AttributeError and only on an empty pos; a legal queen move is straight or diagonal |
| MoveLegal.QueenMoveMeaning | chess/move_legal.py:115-134 | legal iff it is an allowed rook slide or an allowed bishop slide; the two kinds exclude each other |
| MoveLegal.NonCollisionalPieceMoveLegal | chess/move_legal.py:145-162 | it raises only AttributeError and only on an empty pos; legal iff some offset reaches dest on the board and dest holds no piece of the mover's colour |
| MoveLegal.NonCollisionalMeaning | chess/move_legal.py:145-162 | legal iff dest is an on-board square some offset reaches and holds no friendly piece |
| MoveLegal.KnightMoveLegal | chess/move_legal.py:107-112 | it raises only on an empty pos; a legal knight move lands on an on-board square one of the knight offsets reaches |
| MoveLegal.KnightMoveMeaning | chess/move_legal.py:107-112 | legal iff dest is a (1,2) or (2,1) jump, on the board and not friendly |
| MoveLegal.KingMoveLegal | chess/move_legal.py:137-142 | it raises only on an empty pos; a legal king move lands on an on-board square one of the king offsets reaches |
| MoveLegal.KingMoveMeaning | chess/move_legal.py:137-142 | legal iff dest is a neighbouring on-board square that is not friendly |
| MoveLegal.KingOffsetsAreTheNeighbours | chess/move_legal.py:141 | the king's eight offsets are exactly the non-zero unit steps |
| MovementZone.TilesFrom | chess/movement_zone.py:1 | the walk yields the squares from a given step up to the first collider; the flag is set iff a collider was met on the board |
| MovementZone.TilesEndAtCollision | chess/movement_zone.py:1 | the walk `TilesTilCollider` agrees with the collision search: a collider is found iff there is a first blocker, and it is then the last tile; all other tiles are empty |
| MovementZone.DirZoneSpec | chess/movement_zone.py:43-51 | one direction's share holds exactly the squares the slider may move to along that direction, in order |
| MovementZone.DirZoneHit | chess/movement_zone.py:43-51 | a square n steps out is in the share iff the slide there is allowed |
| MovementZone.CardinalZoneMembers | chess/movement_zone.py:37-54 | a square is in the rook zone iff it shares a line with pos and the slide is allowed |
| MovementZone.OrdinalZoneMembers | chess/movement_zone.py:56-72 | a square is in the bishop zone iff it shares a diagonal with pos and the slide is allowed |
| MovementZone.CardinalZoneSafe | chess/movement_zone.py:48-51 | no rook zone square is off the board, the rook's own square, or friendly |
| MovementZone.OrdinalZoneSafe | chess/movement_zone.py:67-70 | no bishop zone square is off the board, the bishop's own square, or friendly |
| MovementZone.RookMovementZone | chess/movement_zone.py:37-54 | every square of the rook zone is on the board, is not the rook's own square and holds no piece of its colour |
| MovementZone.BishopMovementZone | chess/movement_zone.py:56-72 | every square of the bishop zone is on the board, is not the bishop's own square and holds no piece of its colour |
| MovementZone.RookZoneAgreesWithMoveLegal | chess/movement_zone.py:37-54 | an on-board dest is in the rook zone iff `rook_move_legal` accepts it |
| MovementZone.BishopZoneAgreesWithMoveLegal | chess/movement_zone.py:56-72 | an on-board dest is in the bishop zone iff `bishop_move_legal` accepts it |
| MovementZone.LoneRookZone | chess/tests_movement_zone.py:209-228 | a lone rook's zone is exactly the squares sharing its file or rank |
| MovementZone.LoneRookZoneSize | chess/tests_movement_zone.py:209-228 | a lone rook's zone has 14 squares |
| MovementZone.AloneCardinalLength | chess/tests_movement_zone.py:209-228 | alone on the board, each line of the rook runs to the edge |
| MovementZone.LoneBishopZone | chess/tests_movement_zone.py:284-304 | a lone bishop's zone is exactly the squares on its diagonals |
| MovementZone.GetMovementZone | chess/movement_zone.py:8-28 | whatever the rank, the zone holds only on-board squares, never the piece's own square, and no friendly piece |
| MovementZone.StubZonesEmpty | chess/movement_zone.py:30-35 | as written the pawn, knight, queen and king zones are empty |
| MovementZone.GetMovementZoneOf | chess/movement_zone.py:8-28 | called with no piece, as on a blank square, it raises AttributeError when it reads the rank, and only then; a piece gets a zone of on-board, non-origin, non-friendly squares |
| MovementZone.BlankSquareZoneRaises | chess/movement_zone.py:13 | the zone of a blank square's lookup is an AttributeError, not an empty zone |
| MovementZone.GetMovementZoneAgreesWithMoveLegal | chess/movement_zone.py:8-28 | for a rook or a bishop, the zone is exactly the set of on-board squares its checker accepts |
| Tables.RankValueMapIsOrder | chess/misc/tables.py:2 | the indices are 0..5 in the order pawn, knight, bishop, rook, queen, king, and they are one to one |
| Tables.ValueScales | chess/misc/tables.py:3-4 | the normal scale rates the king 0; the centipawn scale rates it 20000, and it grows strictly along the index order |
| Tables.PenaltyTablesAreSquare | chess/misc/tables.py:71-75 | PENALTY covers the five non-king ranks and the two king tables, and every table is 8 by 8 |
| Minimax.MinimaxLeaves | chess/minimax.py:59-71 | a position without moves scores -MAX/+MAX if in check and 0 otherwise, even with depth left; at depth 0 a position with moves is evaluated |
| Minimax.MaxMovesFloor | chess/minimax.py:76-92 | the maximising loop never returns less than the best score it started from, with or without pruning |
| Minimax.MinMovesCeiling | chess/minimax.py:94-110 | the minimising loop never returns more than the score it started from |
| Minimax.SearchRespectsStartValue | chess/minimax.py:73-110 | with moves and depth left the search scores at least -MAX for the maximiser and at most MAX for the minimiser |
| Minimax.Highest | chess/minimax.py:76-92 | the result is the largest of the start value and the list |
| Minimax.Lowest | chess/minimax.py:94-110 | the result is the smallest of the start value and the list |
| Minimax.NoPruningIsPlain | chess/minimax.py:75-110 | with pruning off, the search returns the plain minimax value over the children, whatever the window |
| Minimax.AlphaBetaFailSoft | chess/minimax.py:75-110 | with pruning on and a non-inverted window, a score below the window bounds the true value from above, one above it bounds it from below, and one inside it is exact |
| Minimax.PlainValueWithin | chess/minimax.py:59-110 | with evaluations in [-MAX, MAX], every plain minimax value is in [-MAX, MAX] |
| Minimax.FullWindowPruningIsExact | chess/minimax.py:44-110 | with the default window (-MAX, MAX) and evaluations in range, pruning changes nothing |
| Minimax.RankPointIsNormalValue | chess/minimax.py:126 | `rank_point` lists every rank but the king and agrees with `NORMAL_VALUE` on them |
| Minimax.MaterialBounds | chess/minimax.py:128-138 | material is between 0 and 9 per piece |
| Minimax.Value | chess/minimax.py:113-144 | it succeeds iff both sides have a king, and then returns the signed material balance; otherwise the assertion fails |
| Minimax.EvaluationIsZeroSum | chess/minimax.py:124 | the minimiser's value is the negation of the maximiser's, and swapping sides negates it too |
| Minimax.EvaluationBounded | chess/minimax.py:123-138 | the value is at most 9 per piece in absolute size |

## Left out

- Terminal I/O and rendering: `clear_terminal`, `get_error_message`, `Board.__str__` and the piece glyphs of `get_piece_visual`. They only print or draw. Promotion therefore changes the rank and not the glyph.
- chess/game.py, chess/main.py, chess/performance.py and chess/debug.py. They only launch, seed or time the program.
- `dest_checker`: the `Player.move_legal` it calls is not part of this model.
- `Player.set_pieces_on_board`: the `board.add_piece` it calls does not exist in chess/board.py.
- `evaluate_minimax_of_move` and `get_cloned_game_state_based_on_generalized_move`. They rely on game cloning, move application and check detection that are not part of this model. The abstract game record takes their place.
- The messages of the move checkers: each is replaced by a `Reason` tag naming the branch it comes from.
- The mutation order of exceptions: a raised call returns only the exception, not a partly updated board.
- `Builtins.Upper`: it upper-cases ASCII letters only.
- Builtins.ParseDigit: it parses only the ASCII digits '0'..'9'. Python's `int` also accepts the other Unicode decimal digits, so `algebraic_uniconverter('A３')` returns `[1, 3]` where the model raises ValueError. On the game path `well_formed` (chess/helpers/game_helpers.py:6-15) admits only '1'..'8' before any conversion.
- GeneralHelpers.AlgebraicToCoord: it inherits the ASCII-only digit parse of `Builtins.ParseDigit`; its success condition is stated for ASCII digits.
- AlgebraicUniconverter (GeneralHelpers.AlgebraicUniconverter): its string branch inherits the ASCII-only digit parse of `Builtins.ParseDigit`; the coordinate branch is complete.
- `piece_exists`, which `pos_checker` calls, is not part of this model. It is read as "the cell holds a piece".
- misc/constants.py is not part of this model. `MAX` is a parameter of the search, and the colour and rank strings are enumerations.
- `swap_colors`, which minimax.py imports, is not defined in chess/helpers/general_helpers.py. The opponent of a colour is `Constants.Opponent`.
- The `fuzz` randomness and the float result of `value`: the model uses integers with `fuzz = 0`.
- The global `num_evaluated_nodes` counter: it does not influence any result.
- `player_is_locked` and `get_all_truly_legal_player_moves` are not defined in the modelled files (chess/minimax.py:59 and :73 call them). Both become the `moves` function of `Minimax.Search`, and a player counts as locked when it has no truly legal move, as the comment on lines 59-60 describes.
- `get_all_cardinal_tiles_til_collider` and `get_all_ordinal_tiles_til_collider` are imported by chess/movement_zone.py but missing from chess/helpers/legality_helpers.py. `MovementZone.TilesTilCollider` specifies them: the tiles up to and including the first occupied square, plus a found flag.
- LegalityHelpers.GetCardinalCollision: it requires an on-board start square. The source's loop bounds only the coordinate that moves, so from an off-board square it would keep probing off-board cells. Every caller passes the square of a piece that `pos_checker` (chess/helpers/game_helpers.py:26-43) has found on the board.
- LegalityHelpers.GetOrdinalCollision: it requires an on-board start square, for the same reason as the cardinal walk.
- MoveLegal.PawnMoveLegal: it requires the board cell and the piece's own square attribute to agree. It also requires both squares on the board. The source's straight branch never reads the grid at dest, so a white pawn on (1, 8) moving to (1, 9) is accepted there. The game reaches the checkers only through `dest_checker`, which runs `well_formed(dest)` first (chess/helpers/game_helpers.py:46-58), and `pos_checker` has already placed pos on the board.
- MoveLegal.RookMoveLegal: it requires `pos != dest`, which `cardinal_direction` asserts, and an on-board pos, which `pos_checker` guarantees. BishopMoveLegal and QueenMoveLegal require the same. Dest may lie off the board, as in the source; the meaning lemmas and the zone agreement are stated for an on-board dest, and `MoveLegal.RookAcceptsPastTheEdge` and `MoveLegal.BishopAcceptsPastTheEdge` cover the rest.
- MovementZone.GetMovementZone: it requires a rook or bishop to stand on the board, because the walks start from its square. Every rank is one of the six, so the final `raise` cannot be reached. It takes a piece; the `None` that `board.get_piece` returns for a blank square is handled by `MovementZone.GetMovementZoneOf`, which raises AttributeError as line 13 does. The test `test_cannot_move_blank_space_zone` (chess/tests_movement_zone.py:96-119) expects an empty set there instead; the model follows the code.
- Minimax.AlphaBetaFailSoft: it requires `alpha <= beta`. This holds for the default window and for every window the search passes down from it.
- Minimax.FullWindowPruningIsExact: it assumes the evaluation lies in [-MAX, MAX]. `Minimax.EvaluationBounded` shows this holds for the material evaluation whenever MAX is at least 9 per piece.

## Findings

| source | as written | input that shows it | evidently intended | confidence | as-written member | corrected member |
|---|---|---|---|---|---|---|
| chess/board.py:72-75 | `move_piece` removes the piece on the destination `pos` and raises unless that was the moving piece | moving the white pawn on B2 (name `P-B2`) to B4 on an otherwise empty board raises `Exception` | lift the piece from its own square, put it on `pos`, and return the captured piece, as lines 61-67 describe | high, not executed | Board.MovePieceAsWrittenRejectsAdvance | Board.MovePieceMoves |
| chess/piece.py:15 | `rank[0] != 'KNIGHT'` compares one character with a six-letter string, so it is always true and knights get the letter 'K' | a white knight created on B1 is named `K-B1`, and a king created on B1 gets the same name | knights are lettered 'N', as the comment on line 17 says, so names are unique per rank and square | high, not executed | Pieces.KnightAndKingNamesCollideAsWritten | Pieces.PieceNameInjective |
| chess/helpers/game_helpers.py:104 | `get_special_command` sets `show_error = False` and leaves `exists_command` on | after `set_special_command(game, c)` then `get_special_command(game)`, `exists_command` is still true and a pending error display is lost | switch command detection off, as lines 99-100 describe | medium, not executed | GameHelpers.GetSpecialCommandAsWrittenLeavesDetectionOn | GameHelpers.SpecialCommandRoundTrip |

=== FILE: board.dfy ===
/** The 8x8 grid together with the players' piece dictionaries it keeps in
    step: placing, replacing, removing and moving pieces (chess/board.py).
    Piece objects live in an arena keyed by a handle; grid cells and
    dictionary entries hold handles. A piece's owner is the player of its
    colour, so the two `pieces` dictionaries are one map keyed by
    (colour, name). */
module Board {
  import opened Builtins
  import opened Constants
  import opened GeneralHelpers
  import opened Pieces

  /** The handle of a piece object. */
  type PieceId = nat

  /** A grid cell: a piece handle or `None`. */
  type Cell = Option<PieceId>

  /** The key of a piece in its owner's dictionary: `str(piece)`, under the
      owner's colour. */
  function Key(p: Piece): (Color, string)
  {
    (p.color, p.name)
  }

  /** The board grid, both players' `pieces` dictionaries, and the piece
      objects they refer to. */
  datatype State = State(grid: seq<seq<Cell>>, arena: map<PieceId, Piece>,
                         entries: map<(Color, string), PieceId>)

  /** An 8x8 grid whose handles, and the dictionaries' handles, all exist. */
  predicate Valid(st: State)
  {
    && |st.grid| == 8
    && (forall r :: 0 <= r < 8 ==> |st.grid[r]| == 8)
    && (forall r, c :: 0 <= r < 8 && 0 <= c < 8 && st.grid[r][c].Some? ==> st.grid[r][c].value in st.arena)
    && st.entries.Values <= st.arena.Keys
  }

  /** `convert_coord`: a square's (row, column) in `game_board`; row 0 holds rank 8. */
  function ConvertCoord(pos: Square): (int, int)
  {
    (8 - pos.y, pos.x - 1)
  }

  /** The square shown at a grid index. */
  function IndexToSquare(row: int, col: int): Square
  {
    Square(col + 1, 8 - row)
  }

  /** `convert_coord` maps the 64 squares one-to-one onto the 64 indices. */
  lemma ConvertCoordIsBijection(pos: Square, row: int, col: int)
    ensures InBounds(pos) ==>
      var (i, j) := ConvertCoord(pos);
      0 <= i < 8 && 0 <= j < 8 && IndexToSquare(i, j) == pos
    ensures 0 <= row < 8 && 0 <= col < 8 ==>
      InBounds(IndexToSquare(row, col)) && ConvertCoord(IndexToSquare(row, col)) == (row, col)
  {
  }

  /** The occupant of an on-board square. */
  function At(st: State, pos: Square): Cell
    requires Valid(st) && InBounds(pos)
  {
    st.grid[8 - pos.y][pos.x - 1]
  }

  /** The piece object on an on-board square. */
  function PieceAt(st: State, pos: Square): (r: Option<Piece>)
    requires Valid(st) && InBounds(pos)
    ensures r.Some? <==> At(st, pos).Some?
  {
    match At(st, pos)
    case None => None
    case Some(p) => Some(st.arena[p])
  }

  /** `Board.__init__`: a grid of 8 rows of 8 empty cells. */
  function NewBoard(): (grid: seq<seq<Cell>>)
    ensures |grid| == 8 && forall r :: 0 <= r < 8 ==> |grid[r]| == 8
  {
    seq(8, _ => seq(8, _ => None))
  }

  /** A fresh board has no piece on any square. */
  lemma NewBoardIsEmpty(st: State)
    requires st.grid == NewBoard() && st.entries.Values <= st.arena.Keys
    ensures Valid(st)
    ensures forall pos :: InBounds(pos) ==> At(st, pos) == None
  {
  }

  /** Python list indexing on a list of 8: negative indices count from the
      end, anything else outside the list raises. */
  function PyIndex(i: int): Option<int>
  {
    if 0 <= i < 8 then Some(i) else if -8 <= i < 0 then Some(i + 8) else None
  }

  /** The list indices `add_or_replace_piece` and `get_piece` reach for
      `pos`: `convert_coord`, then Python indexing on each axis. */
  function GridIndex(pos: Square): (r: Option<(int, int)>)
    ensures r.Some? ==> 0 <= r.value.0 < 8 && 0 <= r.value.1 < 8
    ensures r.Some? <==> -8 <= 8 - pos.y < 8 && -8 <= pos.x - 1 < 8
    ensures InBounds(pos) ==> r == Some(ConvertCoord(pos))
  {
    var (row, col) := ConvertCoord(pos);
    var (i, j) := (PyIndex(row), PyIndex(col));
    if i.None? || j.None? then None else Some((i.value, j.value))
  }

  /** `get_piece`: the cell at `convert_coord(pos)`, indexed the Python way. */
  function GetPiece(st: State, pos: Square): (r: Result<Cell>)
    requires Valid(st)
    ensures InBounds(pos) ==> r == Ok(At(st, pos))
    ensures r.Ok? <==> -8 <= 8 - pos.y < 8 && -8 <= pos.x - 1 < 8
  {
    match GridIndex(pos)
    case None => Raise(IndexError)
    case Some((i, j)) => Ok(st.grid[i][j])
  }

  /** Off-board squares just past the top or the left edge alias on-board
      ones, because of Python's negative indices. */
  lemma GetPieceWrapsAround(st: State, pos: Square)
    requires Valid(st) && InBounds(pos)
    ensures GetPiece(st, Square(pos.x, pos.y + 8)) == Ok(At(st, pos))
    ensures GetPiece(st, Square(pos.x - 8, pos.y)) == Ok(At(st, pos))
  {
  }

  /** `name` is an entry of the dictionary of colour `c` and refers to `id`. */
  predicate Owns(st: State, c: Color, name: string, id: PieceId)
  {
    (c, name) in st.entries && st.entries[(c, name)] == id
  }

  /** The colour, rank and name of a piece object: everything but its square. */
  predicate SameIdentity(a: Piece, b: Piece)
  {
    a.color == b.color && a.rank == b.rank && a.name == b.name
  }

  /** `st` with grid cell (i, j) holding `cell`. */
  function SetCell(st: State, i: int, j: int, cell: Cell): (st': State)
    requires Valid(st) && 0 <= i < 8 && 0 <= j < 8 && (cell.Some? ==> cell.value in st.arena)
    ensures Valid(st') && st'.arena == st.arena && st'.entries == st.entries
    ensures st'.grid[i][j] == cell
    ensures forall r, c :: 0 <= r < 8 && 0 <= c < 8 && (r != i || c != j) ==> st'.grid[r][c] == st.grid[r][c]
  {
    st.(grid := st.grid[i := st.grid[i][j := cell]])
  }

  /** The `replaced` branch of `add_or_replace_piece`: the piece loses its
      square and its owner's entry; a missing entry raises `KeyError`. */
  function Detach(st: State, q: PieceId): (r: Result<State>)
    requires Valid(st) && q in st.arena
    ensures r.Ok? <==> Key(st.arena[q]) in st.entries
    ensures r.Ok? ==> Valid(r.value) && r.value.grid == st.grid
  {
    var pq := st.arena[q];
    if Key(pq) !in st.entries then Raise(KeyError)
    else Ok(st.(arena := st.arena[q := pq.(pos := None)], entries := st.entries - {Key(pq)}))
  }

  /** The `piece` branch of `add_or_replace_piece`: the piece is entered in
      its owner's dictionary under its name and takes the square. */
  function Attach(st: State, p: PieceId, pos: Square): (st': State)
    requires Valid(st) && p in st.arena
    ensures Valid(st') && st'.grid == st.grid
  {
    var pp := st.arena[p];
    st.(arena := st.arena[p := pp.(pos := Some(pos))], entries := st.entries[Key(pp) := p])
  }

  /** The body of `add_or_replace_piece` once the cell (i, j) is known. */
  function ReplaceAt(st: State, i: int, j: int, pos: Square, piece: Cell): (r: Result<(State, Cell)>)
    requires Valid(st) && 0 <= i < 8 && 0 <= j < 8
    requires piece.Some? ==> piece.value in st.arena
    ensures r.Ok? <==> (st.grid[i][j].None? || Key(st.arena[st.grid[i][j].value]) in st.entries)
    ensures r.Ok? ==> Valid(r.value.0) && r.value.0.arena.Keys == st.arena.Keys
    ensures r.Ok? ==> r.value.1 == st.grid[i][j] && r.value.0.grid[i][j] == piece
    ensures r.Ok? ==> forall a, b :: 0 <= a < 8 && 0 <= b < 8 && (a != i || b != j) ==> r.value.0.grid[a][b] == st.grid[a][b]
  {
    var replaced := st.grid[i][j];
    var st1 := SetCell(st, i, j, piece);
    var detached := if replaced.Some? then Detach(st1, replaced.value) else Ok(st1);
    if detached.Raise? then Raise(detached.error)
    else
      var st2 := detached.value;
      var st3 := if piece.Some? then Attach(st2, piece.value, pos) else st2;
      Ok((st3, replaced))
  }

  /** `add_or_replace_piece`: puts `piece` (or nothing) on `pos` and returns
      the previous occupant. Off-grid indices raise `IndexError`; a replaced
      piece missing from its owner's dictionary raises `KeyError`. */
  function AddOrReplacePiece(st: State, pos: Square, piece: Cell): (r: Result<(State, Cell)>)
    requires Valid(st)
    requires piece.Some? ==> piece.value in st.arena
    ensures r.Ok? ==> Valid(r.value.0) && r.value.0.arena.Keys == st.arena.Keys
    ensures r.Ok? && r.value.1.Some? ==> r.value.1.value in st.arena
    ensures InBounds(pos) ==>
      (r.Ok? <==> (At(st, pos).None? || Key(st.arena[At(st, pos).value]) in st.entries))
    ensures InBounds(pos) && r.Ok? ==> r.value.1 == At(st, pos) && At(r.value.0, pos) == piece
    ensures InBounds(pos) && r.Ok? ==>
      forall sq :: InBounds(sq) && sq != pos ==> At(r.value.0, sq) == At(st, sq)
  {
    match GridIndex(pos)
    case None => Raise(IndexError)
    case Some((i, j)) => ReplaceAt(st, i, j, pos, piece)
  }

  /** What `add_or_replace_piece` does to the piece objects and the two
      dictionaries: the added piece takes `pos` and is its owner's entry
      under its name; the replaced piece leaves the board and loses its
      entry unless the added piece took that entry over; no other piece or
      entry changes, and no piece changes colour, rank or name. */
  lemma AddOrReplaceUpdatesPieces(st: State, pos: Square, piece: Cell)
    requires Valid(st)
    requires piece.Some? ==> piece.value in st.arena
    requires AddOrReplacePiece(st, pos, piece).Ok?
    ensures var (st', q) := AddOrReplacePiece(st, pos, piece).value;
      && (forall id :: id in st.arena ==> SameIdentity(st'.arena[id], st.arena[id]))
      && (piece.Some? ==> st'.arena[piece.value].pos == Some(pos))
      && (q.Some? && q != piece ==> st'.arena[q.value].pos == None)
      && (forall id :: id in st.arena && Some(id) != piece && Some(id) != q ==> st'.arena[id] == st.arena[id])
      && (piece.Some? ==> Key(st.arena[piece.value]) in st'.entries && st'.entries[Key(st.arena[piece.value])] == piece.value)
      && (forall k :: k in st'.entries ==>
            || (k in st.entries && st'.entries[k] == st.entries[k])
            || (piece.Some? && k == Key(st.arena[piece.value])))
      && (forall k :: k in st.entries && k !in st'.entries ==> q.Some? && k == Key(st.arena[q.value]))
      && (q.Some? && (piece.None? || Key(st.arena[piece.value]) != Key(st.arena[q.value])) ==>
            Key(st.arena[q.value]) !in st'.entries)
  {
    var (i, j) := GridIndex(pos).value;
    var q := st.grid[i][j];
    var st1 := SetCell(st, i, j, piece);
    var st2 := if q.Some? then Detach(st1, q.value).value else st1;
    assert q.Some? ==> st2.entries == st.entries - {Key(st.arena[q.value])};
  }

  /** `remove_piece`: empties `pos` and returns its former occupant. */
  function RemovePiece(st: State, pos: Square): (r: Result<(State, Cell)>)
    requires Valid(st)
    ensures r.Ok? ==> Valid(r.value.0) && r.value.0.arena.Keys == st.arena.Keys
    ensures r.Ok? && r.value.1.Some? ==> r.value.1.value in st.arena
    ensures InBounds(pos) && r.Ok? ==> At(r.value.0, pos) == None && r.value.1 == At(st, pos)
    ensures InBounds(pos) && r.Ok? ==>
      forall sq :: InBounds(sq) && sq != pos ==> At(r.value.0, sq) == At(st, sq)
  {
    AddOrReplacePiece(st, pos, None)
  }

  // ---------------------------------------------------------------------
  // The board/dictionary invariant

  /** Piece `id` stands on `sq` and is its owner's entry under its name. */
  predicate Placed(st: State, id: PieceId, sq: Square)
  {
    id in st.arena && st.arena[id].pos == Some(sq)
    && Key(st.arena[id]) in st.entries && st.entries[Key(st.arena[id])] == id
  }

  /** The entry under key `k` is a piece with that colour and name standing
      on the board where its square says. */
  predicate Registered(st: State, k: (Color, string))
    requires Valid(st) && k in st.entries
  {
    var id := st.entries[k];
    id in st.arena && Key(st.arena[id]) == k
    && st.arena[id].pos.Some? && InBounds(st.arena[id].pos.value)
    && At(st, st.arena[id].pos.value) == Some(id)
  }

  /** A cell holds a piece iff that piece's square is the cell and the piece
      is its owner's entry; captured pieces are in no dictionary. */
  ghost predicate Consistent(st: State)
  {
    && Valid(st)
    && (forall sq :: InBounds(sq) && At(st, sq).Some? ==> Placed(st, At(st, sq).value, sq))
    && (forall k :: k in st.entries ==> Registered(st, k))
  }

  /** Piece `p` may be put on `pos`: it is off the board (or already there),
      and its key is free in its owner's dictionary or belongs to the piece
      it replaces. */
  predicate Insertable(st: State, pos: Square, p: PieceId)
    requires Valid(st) && InBounds(pos)
  {
    p in st.arena
    && (st.arena[p].pos.None? || At(st, pos) == Some(p))
    && (Key(st.arena[p]) !in st.entries || Some(st.entries[Key(st.arena[p])]) == At(st, pos))
  }

  /** `add_or_replace_piece` keeps board and dictionaries in step: from a
      consistent state it cannot raise, and the result is consistent. */
  lemma AddOrReplacePreservesConsistency(st: State, pos: Square, piece: Cell)
    requires Consistent(st) && InBounds(pos)
    requires piece.Some? ==> Insertable(st, pos, piece.value)
    ensures AddOrReplacePiece(st, pos, piece).Ok?
    ensures Consistent(AddOrReplacePiece(st, pos, piece).value.0)
  {
    var q := At(st, pos);
    if q.Some? {
      assert Placed(st, q.value, pos);
    }
    var st' := AddOrReplacePiece(st, pos, piece).value.0;
    AddOrReplaceUpdatesPieces(st, pos, piece);
    forall sq | InBounds(sq) && At(st', sq).Some?
      ensures Placed(st', At(st', sq).value, sq)
    {
      if sq != pos {
        var o := At(st, sq).value;
        assert Placed(st, o, sq);
        assert Some(o) != q;
        assert Some(o) != piece;
      }
    }
    forall k | k in st'.entries
      ensures Registered(st', k)
    {
      if piece.Some? && k == Key(st.arena[piece.value]) {
      } else {
        assert Registered(st, k);
        var o := st.entries[k];
        assert Some(o) != q;
      }
    }
  }

  // ---------------------------------------------------------------------
  // move_piece

  /** `move_piece` exactly as written: it removes whatever stands on the
      destination `pos` (not the piece's own square) and raises unless that
      was `piece` itself, in which case it puts it straight back. */
  function MovePieceAsWritten(st: State, pos: Square, piece: Cell): (r: Result<(State, Cell)>)
    requires Valid(st)
    requires piece.Some? ==> piece.value in st.arena
    ensures piece.None? ==> r == Raise(Exception)
    ensures r.Ok? ==> Valid(r.value.0)
    ensures InBounds(pos) && r.Ok? ==> At(st, pos) == piece && At(r.value.0, pos) == piece && r.value.1 == None
    ensures InBounds(pos) && piece.Some? && At(st, pos) != piece ==> r.Raise?
  {
    if piece.None? then Raise(Exception)
    else
      match RemovePiece(st, pos)
      case Raise(e) => Raise(e)
      case Ok((st1, taken)) =>
        if taken != piece then Raise(Exception)
        else AddOrReplacePiece(st1, pos, taken)
  }

  /** As written, `move_piece` succeeds only when the piece already stands
      on `pos`, and then it changes nothing and captures nothing. */
  lemma MovePieceAsWrittenIsNoOp(st: State, pos: Square, piece: Cell)
    requires Consistent(st) && InBounds(pos)
    requires piece.Some? ==> piece.value in st.arena
    requires MovePieceAsWritten(st, pos, piece).Ok?
    ensures piece.Some? && At(st, pos) == piece
    ensures MovePieceAsWritten(st, pos, piece).value == (st, None)
  {
    var (st1, taken) := RemovePiece(st, pos).value;
    assert taken == At(st, pos) == piece;
    assert Placed(st, piece.value, pos);
    RemoveThenRestore(st, pos, piece.value);
  }

  /** Lifting a placed piece off its square and putting it back restores
      the state exactly. */
  lemma RemoveThenRestore(st: State, pos: Square, p: PieceId)
    requires Valid(st) && InBounds(pos) && At(st, pos) == Some(p) && Placed(st, p, pos)
    ensures RemovePiece(st, pos).Ok?
    ensures AddOrReplacePiece(RemovePiece(st, pos).value.0, pos, Some(p)) == Ok((st, None))
  {
    var (i, j) := GridIndex(pos).value;
    var st2 := SetCell(st, i, j, None);
    var st3 := Detach(st2, p).value;
    assert RemovePiece(st, pos) == Ok((st3, Some(p)));
    var st4 := SetCell(st3, i, j, Some(p));
    var st5 := Attach(st4, p, pos);
    assert AddOrReplacePiece(st3, pos, Some(p)) == Ok((st5, None));
    assert st5.arena == st.arena;
    assert st5.entries == st.entries;
    assert st5.grid[i] == st.grid[i];
    assert st5.grid == st.grid;
  }

  /** The test scenario "move the pawn on B2 to B4" raises as written. */
  lemma MovePieceAsWrittenRejectsAdvance()
    ensures var st := State(NewBoard()[6 := NewBoard()[6][1 := Some(0)]],
                            map[0 := Piece(White, Pawn, Some(Square(2, 2)), "P-B2")],
                            map[(White, "P-B2") := 0]);
            Valid(st) && At(st, Square(2, 2)) == Some(0)
            && MovePieceAsWritten(st, Square(2, 4), Some(0)) == Raise(Exception)
  {
    var st := State(NewBoard()[6 := NewBoard()[6][1 := Some(0)]],
                    map[0 := Piece(White, Pawn, Some(Square(2, 2)), "P-B2")],
                    map[(White, "P-B2") := 0]);
    assert Valid(st);
    assert At(st, Square(2, 4)) == None;
  }

  /** `move_piece` as its documentation describes it: the piece is lifted
      from its own square (`remove_piece(piece.pos)`), then put on `pos`,
      and whatever stood there is returned as the capture. */
  function MovePiece(st: State, pos: Square, piece: Cell): (r: Result<(State, Cell)>)
    requires Valid(st)
    requires piece.Some? ==> piece.value in st.arena
    ensures piece.None? ==> r == Raise(Exception)
    ensures piece.Some? && st.arena[piece.value].pos.None? ==> r == Raise(TypeError)
    ensures r.Ok? ==> Valid(r.value.0)
    ensures InBounds(pos) && r.Ok? ==> At(r.value.0, pos) == piece
    ensures r.Ok? ==> var from := st.arena[piece.value].pos.value;
      InBounds(from) ==> At(st, from) == piece
  {
    if piece.None? then Raise(Exception)
    else
      var from := st.arena[piece.value].pos;
      if from.None? then Raise(TypeError)
      else
        match RemovePiece(st, from.value)
        case Raise(e) => Raise(e)
        case Ok((st1, taken)) =>
          if taken != piece then Raise(Exception)
          else AddOrReplacePiece(st1, pos, taken)
  }

  /** The intended `move_piece` relocates an on-board piece: it lands on
      `pos`, its old square empties, the previous occupant of `pos` is
      returned off the board and out of every dictionary, every other
      square is untouched and board and dictionaries stay consistent. */
  lemma MovePieceMoves(st: State, from: Square, pos: Square, p: PieceId)
    requires Consistent(st) && InBounds(from) && InBounds(pos) && from != pos
    requires At(st, from) == Some(p)
    ensures MovePiece(st, pos, Some(p)).Ok?
    ensures var (st', killed) := MovePiece(st, pos, Some(p)).value;
      && Consistent(st')
      && At(st', pos) == Some(p) && At(st', from) == None
      && st'.arena[p].pos == Some(pos)
      && killed == At(st, pos)
      && (killed.Some? ==> st'.arena[killed.value].pos == None && killed.value !in st'.entries.Values)
      && (forall sq :: InBounds(sq) && sq != pos && sq != from ==> At(st', sq) == At(st, sq))
  {
    assert Placed(st, p, from);
    AddOrReplacePreservesConsistency(st, from, None);
    AddOrReplaceUpdatesPieces(st, from, None);
    var (st1, taken) := RemovePiece(st, from).value;
    assert taken == Some(p);
    assert Insertable(st1, pos, p);
    AddOrReplacePreservesConsistency(st1, pos, Some(p));
    AddOrReplaceUpdatesPieces(st1, pos, Some(p));
    var (st', killed) := MovePiece(st, pos, Some(p)).value;
    if killed.Some? {
      var k := killed.value;
      assert k != p;
      forall key | key in st'.entries
        ensures st'.entries[key] != k
      {
        assert Registered(st', key);
      }
    }
  }
}

=== FILE: builtins.dfy ===
/** The few Python built-ins the chess core relies on: optional values,
    raised exceptions, `str(int)`, `int(ch)` on one character, and
    `str.upper()` on one character. */
module Builtins {

  /** A value or Python's `None`. */
  datatype Option<+T> = None | Some(value: T)

  /** The Python exception classes the core can raise. */
  datatype Error = AssertionError | AttributeError | KeyError | IndexError | TypeError | ValueError | Exception

  /** Either a returned value or a raised exception. */
  datatype Result<+T> = Ok(value: T) | Raise(error: Error)

  /** The decimal digit character for `d`. */
  function DigitChar(d: int): (ch: char)
    requires 0 <= d <= 9
    ensures '0' <= ch <= '9'
  {
    ('0' as int + d) as char
  }

  /** `str(n)` for a natural number: its decimal digits, most significant first. */
  function NatToString(n: nat): (s: string)
    ensures |s| >= 1
    ensures forall i :: 0 <= i < |s| ==> '0' <= s[i] <= '9'
    ensures n < 10 ==> |s| == 1
  {
    if n < 10 then [DigitChar(n)] else NatToString(n / 10) + [DigitChar(n % 10)]
  }

  /** `str(n)` for any integer. */
  function IntToString(n: int): string
  {
    if n < 0 then "-" + NatToString(-n) else NatToString(n)
  }

  /** `int(ch)` for a one-character string, restricted to ASCII: the
      digits '0'..'9' parse and every other character raises `ValueError`.
      Python also parses the other Unicode decimal digits (such as '３'),
      which this model treats as errors. */
  function ParseDigit(ch: char): (r: Result<int>)
    ensures r.Ok? <==> '0' <= ch <= '9'
    ensures r.Ok? ==> 0 <= r.value <= 9 && DigitChar(r.value) == ch
  {
    if '0' <= ch <= '9' then Ok(ch as int - '0' as int) else Raise(ValueError)
  }

  /** `ch.upper()` for ASCII letters; other characters are left as they are. */
  function Upper(ch: char): (u: char)
    ensures 'a' <= ch <= 'z' ==> 'A' <= u <= 'Z' && u as int == ch as int - 32
    ensures !('a' <= ch <= 'z') ==> u == ch
  {
    if 'a' <= ch <= 'z' then (ch as int - 32) as char else ch
  }
}

=== FILE: constants.dfy ===
/** The enumerations the chess core spells as strings: colours, piece
    ranks, castle sides and log-entry kinds (misc/constants.py is not part
    of this model; the string values below are the ones the core compares
    against). */
module Constants {

  /** 'WHITE' or 'BLACK'. */
  datatype Color = White | Black

  /** 'PAWN', 'KNIGHT', 'BISHOP', 'ROOK', 'QUEEN' or 'KING'. */
  datatype Rank = Pawn | Knight | Bishop | Rook | Queen | King

  /** 'KING' or 'QUEEN' as a castle side. */
  datatype CastleSide = KingSide | QueenSide

  /** 'MOVE' or 'CASTLE' as the kind of a logged turn. */
  datatype MoveType = MoveEntry | CastleEntry

  /** The other colour (`swap_colors`). */
  function Opponent(c: Color): (o: Color)
    ensures o != c
  {
    if c == White then Black else White
  }

  /** The rank as the upper-case string the source stores in `Piece.rank`. */
  function RankName(r: Rank): (s: string)
    ensures |s| >= 4
  {
    match r
    case Pawn => "PAWN"
    case Knight => "KNIGHT"
    case Bishop => "BISHOP"
    case Rook => "ROOK"
    case Queen => "QUEEN"
    case King => "KING"
  }

  /** The colour as the string the source stores. */
  function ColorName(c: Color): string
  {
    if c == White then "WHITE" else "BLACK"
  }
}

=== FILE: game_helpers.dfy ===
/** Input validation, turn-owner checks, error and special-command flags and
    king-missing win detection on the game record
    (chess/helpers/game_helpers.py). Player 1 is the white player and
    player 2 the black one; a player's pieces are the dictionary entries of
    its colour. */
module GameHelpers {
  import opened Builtins
  import opened Constants
  import opened GeneralHelpers
  import opened Pieces
  import opened Board

  /** The two players of a game. */
  datatype PlayerSlot = P1 | P2

  /** The attributes of a `Game` these helpers read and write. */
  datatype Game = Game(board: State, turn: Color, errorMessage: string, showError: bool,
                       specialCommand: string, existsCommand: bool, winner: Option<PlayerSlot>)

  /** A raw user input: a string or any other Python value. */
  datatype Input = Str(s: string) | NotAString

  const WellFormedMessage := "Input needs to be well-formed!"
  const FormatMessage := "Input needs to be correctly formatted (e.g. D2)"

  /** `well_formed`: a two-character string whose first character,
      upper-cased, is a file letter and whose second is a rank digit. */
  function WellFormed(input: Input): (r: (bool, string))
    ensures r.0 <==> input.Str? && |input.s| == 2
                     && input.s[0] in "ABCDEFGHabcdefgh" && input.s[1] in "12345678"
    ensures r.0 <==> r.1 == ""
    ensures input.NotAString? ==> r.1 == WellFormedMessage
    ensures input.Str? && !r.0 ==> r.1 == FormatMessage
  {
    match input
    case NotAString => (false, WellFormedMessage)
    case Str(s) =>
      if |s| != 2 then (false, FormatMessage)
      else if Upper(s[0]) !in {'A', 'B', 'C', 'D', 'E', 'F', 'G', 'H'}
           || s[1] !in {'1', '2', '3', '4', '5', '6', '7', '8'} then (false, FormatMessage)
      else (true, "")
  }

  /** The square name `pos_checker` goes on with: the first character
      upper-cased. */
  function Normalise(s: string): string
    requires |s| == 2
  {
    [Upper(s[0]), s[1]]
  }

  /** A well-formed input always converts, to an on-board square. */
  lemma WellFormedConverts(s: string)
    requires WellFormed(Str(s)).0
    ensures AlgebraicUniconverter(Text(Normalise(s))).Ok?
    ensures var sq := SquareOfInput(s);
      InBounds(sq) && AlgebraicUniconverter(Text(Normalise(s))) == Ok(Coords([sq.x, sq.y]))
  {
  }

  /** The square a well-formed input names. */
  function SquareOfInput(s: string): Square
    requires |s| == 2
  {
    Square(Upper(s[0]) as int - 'A' as int + 1, s[1] as int - '0' as int)
  }

  /** `set_error_message`: stores the message and switches its display on. */
  function SetErrorMessage(game: Game, message: string): (g: Game)
    ensures g.errorMessage == message && g.showError
    ensures g.(errorMessage := game.errorMessage, showError := game.showError) == game
  {
    game.(errorMessage := message, showError := true)
  }

  /** `pos_checker`'s verdict on its own: the input names an on-board
      square holding a piece of the colour to move. */
  predicate OwnPieceAt(game: Game, input: Input)
    requires Valid(game.board)
  {
    WellFormed(input).0
    && InBounds(SquareOfInput(input.s))
    && At(game.board, SquareOfInput(input.s)).Some?
    && game.board.arena[At(game.board, SquareOfInput(input.s)).value].color == game.turn
  }

  /** `pos_checker`: accepts a well-formed square that holds a piece of the
      colour to move; on each failure it sets the matching message and
      changes nothing else. The occupancy test `piece_exists` is
      not part of this model; it is read as "the cell holds a piece". */
  function PosChecker(game: Game, input: Input): (r: (bool, Game))
    requires Valid(game.board)
    ensures r.0 <==> OwnPieceAt(game, input)
    ensures r.0 ==> r.1 == game
    ensures !r.0 ==> r.1.showError && |r.1.errorMessage| > 0
    ensures !r.0 ==> r.1 == SetErrorMessage(game, r.1.errorMessage)
    ensures !WellFormed(input).0 ==> r.1.errorMessage == WellFormed(input).1
  {
    var (ok, message) := WellFormed(input);
    if !ok then (false, SetErrorMessage(game, message))
    else
      var pos := Normalise(input.s);
      WellFormedConverts(input.s);
      var sq := SquareOfInput(input.s);
      match At(game.board, sq)
      case None =>
        (false, SetErrorMessage(game, "Piece needs to exist at position " + pos + "!"))
      case Some(id) =>
        var p := game.board.arena[id];
        if p.color != game.turn then
          (false, SetErrorMessage(game, "The " + RankName(p.rank) + " at position " + pos
                                        + " is not your own color of " + ColorName(game.turn) + "!"))
        else (true, game)
  }

  /** `convert_color_to_player`: white plays as player 1, black as player 2. */
  function ConvertColorToPlayer(c: Color): (p: PlayerSlot)
    ensures p == P1 <==> c == White
  {
    if c == White then P1 else P2
  }

  /** The colour each player plays. */
  function PlayerColor(p: PlayerSlot): Color
  {
    if p == P1 then White else Black
  }

  /** Colours and players correspond one to one. */
  lemma ConvertColorToPlayerInverse(c: Color, p: PlayerSlot)
    ensures PlayerColor(ConvertColorToPlayer(c)) == c
    ensures ConvertColorToPlayer(PlayerColor(p)) == p
  {
  }

  /** The player of colour `c` still has a king among its pieces. */
  predicate HasKing(st: State, c: Color)
    requires Valid(st)
  {
    exists k :: k in st.entries && k.0 == c && st.arena[st.entries[k]].rank == King
  }

  /** One of the two loops of `check_winner_king_condition`: scans the
      player's dictionary for a king. */
  method PlayerHasKing(st: State, c: Color) returns (has: bool)
    requires Valid(st)
    ensures has <==> HasKing(st, c)
  {
    has := false;
    var keys := st.entries.Keys;
    while keys != {}
      invariant keys <= st.entries.Keys
      invariant has <==> exists k :: k in st.entries - keys && k.0 == c && st.arena[st.entries[k]].rank == King
      decreases |keys|
    {
      var k :| k in keys;
      if k.0 == c && st.arena[st.entries[k]].rank == King {
        has := true;
      }
      keys := keys - {k};
    }
  }

  /** `check_winner_king_condition`: requires some king on the board. A
      player without a king loses: player 2 wins if player 1 lacks one,
      otherwise player 1 wins if player 2 lacks one; with both kings present
      nothing changes. */
  method CheckWinnerKingCondition(game: Game) returns (found: bool, g: Game)
    requires Valid(game.board)
    requires HasKing(game.board, White) || HasKing(game.board, Black)
    ensures found <==> !HasKing(game.board, White) || !HasKing(game.board, Black)
    ensures !HasKing(game.board, White) ==> g == game.(winner := Some(P2))
    ensures HasKing(game.board, White) && !HasKing(game.board, Black) ==> g == game.(winner := Some(P1))
    ensures !found ==> g == game
  {
    var p1HasKing := PlayerHasKing(game.board, White);
    var p2HasKing := PlayerHasKing(game.board, Black);
    if !p1HasKing {
      return true, game.(winner := Some(P2));
    }
    if !p2HasKing {
      return true, game.(winner := Some(P1));
    }
    return false, game;
  }

  /** `set_special_command`: stores the command and switches detection on. */
  function SetSpecialCommand(game: Game, command: string): (g: Game)
    ensures g.specialCommand == command && g.existsCommand
    ensures g.(specialCommand := game.specialCommand, existsCommand := game.existsCommand) == game
  {
    game.(specialCommand := command, existsCommand := true)
  }

  /** `get_special_command` as written: returns the command and clears it,
      but resets `show_error` where its documentation says detection is
      switched off. */
  function GetSpecialCommandAsWritten(game: Game): (r: (string, Game))
    ensures r.0 == game.specialCommand
    ensures r.1.specialCommand == "" && r.1.existsCommand == game.existsCommand && !r.1.showError
    ensures r.1.(specialCommand := game.specialCommand, showError := game.showError) == game
  {
    (game.specialCommand, game.(specialCommand := "", showError := false))
  }

  /** As written, a command that was set and read is still reported as
      present, and a pending error display is lost. */
  lemma GetSpecialCommandAsWrittenLeavesDetectionOn(game: Game, command: string)
    ensures var (c, g) := GetSpecialCommandAsWritten(SetSpecialCommand(game, command));
      c == command && g.existsCommand && g.specialCommand == "" && !g.showError
  {
  }

  /** `get_special_command` as documented: returns the command, clears it
      and switches detection off. */
  function GetSpecialCommand(game: Game): (r: (string, Game))
    ensures r.0 == game.specialCommand
    ensures r.1.specialCommand == "" && !r.1.existsCommand
    ensures r.1.(specialCommand := game.specialCommand, existsCommand := game.existsCommand) == game
  {
    (game.specialCommand, game.(specialCommand := "", existsCommand := false))
  }

  /** Setting then getting a command returns it and restores the game to
      "no command pending", leaving the error display alone. */
  lemma SpecialCommandRoundTrip(game: Game, command: string)
    ensures var (c, g) := GetSpecialCommand(SetSpecialCommand(game, command));
      c == command && g == game.(specialCommand := "", existsCommand := false)
  {
  }
}

=== FILE: general_helpers.dfy ===
/** Positional arithmetic that needs no player state: taxicab distance,
    bounds, compass directions, algebraic notation, rank letters and the
    tiles reached by a list of offsets (chess/helpers/general_helpers.py). */
module GeneralHelpers {
  import opened Builtins
  import opened Constants

  /** A square as (file, rank). On-board squares have both coordinates in
      1..8, but the arithmetic below is defined for any integers, because
      offsets and rays step off the board. */
  datatype Square = Square(x: int, y: int)

  /** A displacement (dx, dy): a leaper offset or a unit ray direction. */
  datatype Vec = Vec(dx: int, dy: int)

  function Abs(n: int): nat
  {
    if n < 0 then -n else n
  }

  /** `taxicab_dist`: the Manhattan distance between two squares. */
  function TaxicabDist(start: Square, dest: Square): nat
  {
    Abs(start.x - dest.x) + Abs(start.y - dest.y)
  }

  /** The distance is symmetric and vanishes exactly on equal squares. */
  lemma TaxicabDistIsMetric(a: Square, b: Square)
    ensures TaxicabDist(a, b) == TaxicabDist(b, a)
    ensures TaxicabDist(a, b) == 0 <==> a == b
  {
  }

  /** `check_in_bounds`: both `coord - 1` lie in `range(8)`. */
  predicate InBounds(coord: Square)
  {
    0 <= coord.x - 1 < 8 && 0 <= coord.y - 1 < 8
  }

  /** The on-board squares are exactly those with both coordinates in 1..8. */
  lemma InBoundsMeansOneToEight(coord: Square)
    ensures InBounds(coord) <==> 1 <= coord.x <= 8 && 1 <= coord.y <= 8
  {
  }

  // ---------------------------------------------------------------------
  // Directions and rays

  /** The four compass directions 'N', 'E', 'S', 'W'. */
  datatype Cardinal = N | E | S | W

  /** The four diagonal directions 'NE', 'SE', 'SW', 'NW'. */
  datatype Ordinal = NE | SE | SW | NW

  /** An ordinal direction whose first letter is 'N'. */
  predicate Northward(o: Ordinal)
  {
    o == NE || o == NW
  }

  /** An ordinal direction whose second letter is 'E'. */
  predicate Eastward(o: Ordinal)
  {
    o == NE || o == SE
  }

  /** `cardinal_direction`: which way `dest` lies from `pos` along a file
      or a rank. The two assertions of the source are the preconditions. */
  function CardinalDirection(pos: Square, dest: Square): (c: Cardinal)
    requires pos != dest
    requires pos.x == dest.x || pos.y == dest.y
    ensures c == N <==> pos.x == dest.x && dest.y > pos.y
    ensures c == S <==> pos.x == dest.x && dest.y < pos.y
    ensures c == E <==> pos.y == dest.y && dest.x > pos.x
    ensures c == W <==> pos.y == dest.y && dest.x < pos.x
  {
    if pos.x == dest.x then
      if pos.y < dest.y then N else S
    else
      if pos.x < dest.x then E else W
  }

  /** `ordinal_direction`: the diagonal along which `dest` lies from `pos`;
      the first letter is chosen by the rank, the second by the file. */
  function OrdinalDirection(pos: Square, dest: Square): (o: Ordinal)
    requires pos != dest
    requires Abs(pos.x - dest.x) == Abs(pos.y - dest.y)
    ensures Northward(o) <==> dest.y > pos.y
    ensures Eastward(o) <==> dest.x > pos.x
  {
    var north := dest.y > pos.y;
    var east := dest.x > pos.x;
    if north && east then NE
    else if north then NW
    else if east then SE
    else SW
  }

  /** The unit step of a compass direction (the `{'N': ['y', 1], ...}` table). */
  function CardinalVec(c: Cardinal): Vec
  {
    match c
    case N => Vec(0, 1)
    case E => Vec(1, 0)
    case S => Vec(0, -1)
    case W => Vec(-1, 0)
  }

  /** The unit step of a diagonal direction (the `{'NE': [1, 1], ...}` table). */
  function OrdinalVec(o: Ordinal): Vec
  {
    match o
    case NE => Vec(1, 1)
    case SE => Vec(1, -1)
    case SW => Vec(-1, -1)
    case NW => Vec(-1, 1)
  }

  /** A direction of one of the eight rays. */
  predicate IsUnit(v: Vec)
  {
    -1 <= v.dx <= 1 && -1 <= v.dy <= 1 && v != Vec(0, 0)
  }

  /** `k` times a unit component, written without multiplication. */
  function Scale(k: int, s: int): int
  {
    if s == 1 then k else if s == -1 then -k else 0
  }

  /** The square `k` steps from `pos` along `v`. */
  function Step(pos: Square, v: Vec, k: int): Square
  {
    Square(pos.x + Scale(k, v.dx), pos.y + Scale(k, v.dy))
  }

  /** The square one offset away from `pos`. */
  function Shift(pos: Square, v: Vec): Square
  {
    Square(pos.x + v.dx, pos.y + v.dy)
  }

  /** The compass direction really points at `dest`: `dest` is reached
      from `pos` after exactly the taxicab distance in unit steps. */
  lemma CardinalDirectionOnRay(pos: Square, dest: Square)
    requires pos != dest
    requires pos.x == dest.x || pos.y == dest.y
    ensures IsUnit(CardinalVec(CardinalDirection(pos, dest)))
    ensures Step(pos, CardinalVec(CardinalDirection(pos, dest)), TaxicabDist(pos, dest)) == dest
  {
  }

  /** The diagonal direction really points at `dest`, which is reached
      after as many unit steps as the files differ. */
  lemma OrdinalDirectionOnRay(pos: Square, dest: Square)
    requires pos != dest
    requires Abs(pos.x - dest.x) == Abs(pos.y - dest.y)
    ensures IsUnit(OrdinalVec(OrdinalDirection(pos, dest)))
    ensures Step(pos, OrdinalVec(OrdinalDirection(pos, dest)), Abs(pos.x - dest.x)) == dest
  {
  }

  /** Once a ray from an on-board square leaves the board it never comes back. */
  lemma RayStaysOffBoard(pos: Square, v: Vec, k: int, j: int)
    requires InBounds(pos) && IsUnit(v)
    requires 0 <= k <= j
    requires !InBounds(Step(pos, v, k))
    ensures !InBounds(Step(pos, v, j))
  {
  }

  /** A ray from an on-board square stays on the board for at most 7 steps. */
  lemma RayIsShort(pos: Square, v: Vec, k: int)
    requires InBounds(pos) && IsUnit(v)
    requires 0 <= k && InBounds(Step(pos, v, k))
    ensures k <= 7
  {
  }

  // ---------------------------------------------------------------------
  // Algebraic notation

  /** `c_to_a_map` of `algebraic_uniconverter`. */
  const CToA: map<int, char> := map[1 := 'A', 2 := 'B', 3 := 'C', 4 := 'D', 5 := 'E', 6 := 'F', 7 := 'G', 8 := 'H']

  /** `a_to_c_map` of `algebraic_uniconverter`. */
  const AToC: map<char, int> := map['A' := 1, 'B' := 2, 'C' := 3, 'D' := 4, 'E' := 5, 'F' := 6, 'G' := 7, 'H' := 8]

  /** The two tables are mutually inverse and follow the alphabet. */
  lemma FileTablesAreInverse()
    ensures forall f :: f in CToA <==> 1 <= f <= 8
    ensures forall f :: f in CToA ==> CToA[f] as int == 'A' as int + f - 1
    ensures forall ch :: 'A' <= ch <= 'H' <==> ch in AToC
    ensures forall ch :: ch in AToC ==> AToC[ch] == ch as int - 'A' as int + 1
  {
    assert CToA.Keys == {1, 2, 3, 4, 5, 6, 7, 8};
  }

  /** The coordinate half of `algebraic_uniconverter`: `[f, r]` becomes the
      file letter followed by `str(r)`; anything but a pair on the board
      raises. */
  function CoordToAlgebraic(value: seq<int>): (r: Result<string>)
    ensures r.Ok? <==> |value| == 2 && InBounds(Square(value[0], value[1]))
    ensures r.Ok? ==> |r.value| == 2
    ensures r.Ok? ==> r.value[0] as int == 'A' as int + value[0] - 1
    ensures r.Ok? ==> r.value[1] == DigitChar(value[1])
  {
    if |value| != 2 then Raise(Exception)
    else if !(0 <= value[0] - 1 < 8) || !(0 <= value[1] - 1 < 8) then Raise(Exception)
    else
      FileTablesAreInverse();
      Ok([CToA[value[0]]] + IntToString(value[1]))
  }

  /** The string half of `algebraic_uniconverter`: a letter A..H and an
      ASCII digit 1..8 become `[file, rank]`; only the first two characters
      are read, so longer strings convert too. */
  function AlgebraicToCoord(value: string): (r: Result<seq<int>>)
    ensures r.Ok? <==> |value| >= 2 && 'A' <= value[0] <= 'H' && '1' <= value[1] <= '8'
    ensures r.Ok? ==> r.value == [value[0] as int - 'A' as int + 1, value[1] as int - '0' as int]
  {
    FileTablesAreInverse();
    if |value| == 0 then Raise(IndexError)
    else if value[0] !in AToC then Raise(Exception)
    else if |value| < 2 then Raise(IndexError)
    else
      match ParseDigit(value[1])
      case Raise(e) => Raise(e)
      case Ok(d) => if !(0 <= d - 1 < 8) then Raise(Exception) else Ok([AToC[value[0]], d])
  }

  /** The argument of `algebraic_uniconverter`: a coordinate list or a string. */
  datatype Notation = Coords(coords: seq<int>) | Text(text: string)

  /** `algebraic_uniconverter`: converts either way, raising when the input
      is ill posed. */
  function AlgebraicUniconverter(value: Notation): (r: Result<Notation>)
    ensures value.Coords? ==>
      (r.Ok? <==> |value.coords| == 2 && InBounds(Square(value.coords[0], value.coords[1])))
    ensures value.Text? ==>
      (r.Ok? <==> |value.text| >= 2 && 'A' <= value.text[0] <= 'H' && '1' <= value.text[1] <= '8')
    ensures r.Ok? ==> (r.value.Coords? <==> value.Text?)
  {
    match value
    case Text(s) =>
      (match AlgebraicToCoord(s)
       case Ok(c) => Ok(Coords(c))
       case Raise(e) => Raise(e))
    case Coords(c) =>
      (match CoordToAlgebraic(c)
       case Ok(s) => Ok(Text(s))
       case Raise(e) => Raise(e))
  }

  /** Every on-board coordinate pair survives coordinate -> string -> coordinate. */
  lemma CoordsRoundTrip(f: int, rk: int)
    requires InBounds(Square(f, rk))
    ensures AlgebraicUniconverter(Coords([f, rk])).Ok?
    ensures AlgebraicUniconverter(AlgebraicUniconverter(Coords([f, rk])).value) == Ok(Coords([f, rk]))
  {
    var t := AlgebraicUniconverter(Coords([f, rk])).value.text;
    assert t[0] as int - 'A' as int + 1 == f;
    assert t[1] as int - '0' as int == rk;
  }

  /** Every two-character square name A1..H8 survives string -> coordinate -> string. */
  lemma TextRoundTrip(s: string)
    requires |s| == 2 && 'A' <= s[0] <= 'H' && '1' <= s[1] <= '8'
    ensures AlgebraicUniconverter(Text(s)).Ok?
    ensures AlgebraicUniconverter(AlgebraicUniconverter(Text(s)).value) == Ok(Text(s))
  {
    var c := AlgebraicUniconverter(Text(s)).value.coords;
    var back := AlgebraicUniconverter(Coords(c)).value.text;
    assert back[0] == s[0];
    assert back[1] == s[1];
    assert back == s;
  }

  // ---------------------------------------------------------------------
  // Rank letters, movement sets and offset tiles

  /** The `converter` table of `convert_letter_to_rank`. */
  const LetterRanks: map<char, Rank> := map['P' := Pawn, 'R' := Rook, 'N' := Knight, 'B' := Bishop, 'K' := King, 'Q' := Queen]

  /** `convert_letter_to_rank`: a table lookup that raises `KeyError` for
      any letter outside P, R, N, B, K, Q. */
  function ConvertLetterToRank(letter: char): (r: Result<Rank>)
    ensures r.Ok? <==> letter in "PRNBKQ"
    ensures r == Ok(Knight) <==> letter == 'N'
    ensures r == Ok(King) <==> letter == 'K'
  {
    if letter in LetterRanks then Ok(LetterRanks[letter]) else Raise(KeyError)
  }

  /** The six letters name six different ranks. */
  lemma ConvertLetterToRankInjective(a: char, b: char)
    requires ConvertLetterToRank(a).Ok? && ConvertLetterToRank(b).Ok?
    requires ConvertLetterToRank(a) == ConvertLetterToRank(b)
    ensures a == b
  {
  }

  /** `convert_to_movement_set`: the set of the squares in a list. */
  method ConvertToMovementSet(arr: seq<Square>) returns (output: set<Square>)
    ensures forall t :: t in output <==> t in arr
    ensures |output| <= |arr|
  {
    output := {};
    var i := 0;
    while i < |arr|
      invariant 0 <= i <= |arr|
      invariant forall t :: t in output <==> t in arr[..i]
      invariant |output| <= i
    {
      output := output + {arr[i]};
      i := i + 1;
    }
    assert arr[..i] == arr;
  }

  /** `get_tiles_from_offset_pos`: the on-board squares `pos + offset`, in
      offset order, at most one per offset. Friendly occupants are not
      filtered here; that is the caller's job. */
  function GetTilesFromOffsetPos(pos: Square, offsets: seq<Vec>): (tiles: seq<Square>)
    ensures |tiles| <= |offsets|
    ensures forall t :: t in tiles ==> InBounds(t)
    ensures forall t :: t in tiles <==> exists o :: o in offsets && t == Shift(pos, o) && InBounds(t)
  {
    if |offsets| == 0 then []
    else
      var t := Shift(pos, offsets[0]);
      var rest := GetTilesFromOffsetPos(pos, offsets[1..]);
      assert forall o :: o in offsets <==> o == offsets[0] || o in offsets[1..];
      if InBounds(t) then [t] + rest else rest
  }

  /** The loop appends in offset order: one more offset contributes its
      tile at the end, or nothing when that tile is off the board. */
  lemma {:induction false} TilesFollowOffsetOrder(pos: Square, offsets: seq<Vec>, o: Vec)
    ensures GetTilesFromOffsetPos(pos, offsets + [o])
         == GetTilesFromOffsetPos(pos, offsets) + (if InBounds(Shift(pos, o)) then [Shift(pos, o)] else [])
  {
    if |offsets| == 0 {
      assert offsets + [o] == [o];
      assert [o][1..] == [];
    } else {
      assert (offsets + [o])[0] == offsets[0];
      assert (offsets + [o])[1..] == offsets[1..] + [o];
      TilesFollowOffsetOrder(pos, offsets[1..], o);
    }
  }
}

=== FILE: legality_helpers.dfy ===
/** Building blocks of the move checkers (chess/helpers/legality_helpers.py):
    the pawn direction and starting-rank tests, the walk along a ray to the
    first occupied square, and the "destination lies between the mover and
    the blocker" tests. Occupancy (`piece_exists` on the board) is read as
    "the cell holds a piece". */
module LegalityHelpers {
  import opened Builtins
  import opened Constants
  import opened GeneralHelpers
  import opened Pieces
  import opened Board
  import opened Player

  // ---------------------------------------------------------------------
  // Pawn tests
  // ---------------------------------------------------------------------

  /** The compass direction a pawn of colour `c` advances in. */
  function Ahead(c: Color): Cardinal
  {
    if c == White then N else S
  }

  /** `pawn_starting`: raises for anything but a pawn and for a piece
      without a square; otherwise tells whether the pawn still stands on
      its colour's pawn row. */
  function PawnStarting(piece: Piece): (r: Result<bool>)
    ensures r.Ok? <==> piece.rank == Pawn && piece.pos.Some?
    ensures r == Ok(true) <==> piece.rank == Pawn && piece.pos.Some? && piece.pos.value.y == PawnRowPos(piece.color)
  {
    if piece.rank != Pawn then Raise(Exception)
    else match piece.pos
      case None => Raise(TypeError)
      case Some(p) => if piece.color == White then Ok(p.y == 2) else Ok(p.y == 7)
  }

  /** Every pawn `collect_pieces` creates counts as starting. */
  lemma StartPawnsAreStarting(c: Color, f: int, n: Naming)
    requires 1 <= f <= 8
    ensures PawnStarting(StartPawn(c, f, n)) == Ok(true)
  {
  }

  /** `pawn_moving_straight_forward`: the pawn keeps its file and its rank
      moves the way its colour advances, that is, `dest` lies from the
      pawn's square in the pawn's forward direction. */
  function PawnMovingStraightForward(piece: Piece, dest: Square): (r: Result<bool>)
    ensures r.Ok? <==> piece.rank == Pawn && piece.pos.Some?
    ensures r == Ok(true) <==>
      && r.Ok? && piece.pos.value != dest && piece.pos.value.x == dest.x
      && CardinalDirection(piece.pos.value, dest) == Ahead(piece.color)
  {
    if piece.rank != Pawn then Raise(Exception)
    else match piece.pos
      case None => Raise(TypeError)
      case Some(p) =>
        if piece.color == White then Ok(p.x == dest.x && p.y < dest.y)
        else Ok(p.x == dest.x && p.y > dest.y)
  }

  /** `pawn_moving_diagonal_forward`: `dest` lies on a diagonal through the
      pawn's square, on the side its colour advances to; the file therefore
      changes too. */
  function PawnMovingDiagonalForward(piece: Piece, dest: Square): (r: Result<bool>)
    ensures r.Ok? <==> piece.rank == Pawn && piece.pos.Some?
    ensures r == Ok(true) <==>
      && r.Ok? && piece.pos.value != dest && Abs(piece.pos.value.x - dest.x) == Abs(piece.pos.value.y - dest.y)
      && (Northward(OrdinalDirection(piece.pos.value, dest)) <==> piece.color == White)
    ensures r == Ok(true) ==> piece.pos.value.x != dest.x
  {
    if piece.rank != Pawn then Raise(Exception)
    else match piece.pos
      case None => Raise(TypeError)
      case Some(p) =>
        var diagonal := Abs(p.x - dest.x) == Abs(p.y - dest.y);
        if piece.color == White then Ok(p.y < dest.y && diagonal)
        else Ok(p.y > dest.y && diagonal)
  }

  // ---------------------------------------------------------------------
  // Betweenness tests
  // ---------------------------------------------------------------------

  /** `cardinal_dest_between_collider`: `dest` lies between the mover and
      the blocker along `cardinal`, both ends included for sliders and both
      excluded for pawns. The pawn branch asserts a vertical direction. */
  function CardinalDestBetweenCollider(init: Square, collider: Square, dest: Square,
                                       cardinal: Cardinal, isPawn: bool): bool
    requires isPawn ==> cardinal == N || cardinal == S
  {
    if !isPawn then
      match cardinal
      case N => init.y <= dest.y <= collider.y
      case S => collider.y <= dest.y <= init.y
      case E => init.x <= dest.x <= collider.x
      case W => collider.x <= dest.x <= init.x
    else if cardinal == N then init.y < dest.y < collider.y
    else collider.y < dest.y < init.y
  }

  /** On a ray, the test compares step counts: with the destination `n`
      steps and the blocker `m` steps out, a slider's destination is between
      iff `n <= m` and a pawn's iff `0 < n < m`. */
  lemma CardinalBetweenOnRay(init: Square, cardinal: Cardinal, n: int, m: int, isPawn: bool)
    requires 0 <= n && 0 <= m
    requires isPawn ==> cardinal == N || cardinal == S
    ensures var v := CardinalVec(cardinal);
      CardinalDestBetweenCollider(init, Step(init, v, m), Step(init, v, n), cardinal, isPawn)
      <==> if isPawn then 0 < n < m else n <= m
  {
  }

  /** The four assertions of `ordinal_dest_between_collider`: the file test
      and the rank test agree. */
  predicate OrdinalAssertsHold(init: Square, collider: Square, dest: Square, ordinal: Ordinal)
  {
    match ordinal
    case NE => (init.x <= dest.x <= collider.x) == (init.y <= dest.y <= collider.y)
    case SE => (init.x <= dest.x <= collider.x) == (collider.y <= dest.y <= init.y)
    case SW => (collider.x <= dest.x <= init.x) == (collider.y <= dest.y <= init.y)
    case NW => (collider.x <= dest.x <= init.x) == (init.y <= dest.y <= collider.y)
  }

  /** `ordinal_dest_between_collider`: `dest` lies between the mover and
      the blocker along `ordinal`, both ends included; the files decide. */
  function OrdinalDestBetweenCollider(init: Square, collider: Square, dest: Square, ordinal: Ordinal): bool
    requires OrdinalAssertsHold(init, collider, dest, ordinal)
  {
    match ordinal
    case NE => init.x <= dest.x <= collider.x
    case SE => init.x <= dest.x <= collider.x
    case SW => collider.x <= dest.x <= init.x
    case NW => collider.x <= dest.x <= init.x
  }

  /** When the destination and the blocker lie on the same diagonal ray
      from `init`, every assertion holds and the test compares step counts. */
  lemma OrdinalBetweenOnRay(init: Square, ordinal: Ordinal, n: int, m: int)
    requires 0 <= n && 0 <= m
    ensures var v := OrdinalVec(ordinal);
      && OrdinalAssertsHold(init, Step(init, v, m), Step(init, v, n), ordinal)
      && (OrdinalDestBetweenCollider(init, Step(init, v, m), Step(init, v, n), ordinal) <==> n <= m)
  {
  }

  // ---------------------------------------------------------------------
  // Rays and blockers
  // ---------------------------------------------------------------------

  /** The square `sq` holds a piece of colour `me`. */
  predicate Friendly(st: State, sq: Square, me: Color)
    requires Valid(st) && InBounds(sq)
  {
    At(st, sq).Some? && st.arena[At(st, sq).value].color == me
  }

  /** The first `n - 1` squares along `v` from `pos` are on the board and
      empty. */
  predicate ClearPath(st: State, pos: Square, v: Vec, n: int)
    requires Valid(st)
  {
    forall j :: 1 <= j < n ==> InBounds(Step(pos, v, j)) && At(st, Step(pos, v, j)).None?
  }

  /** A slider on `pos` of colour `me` may stop `n` steps along `v`: the
      square is on the board, nothing stands in the way, and it does not
      hold a piece of the mover's own colour. */
  predicate SlideOk(st: State, me: Color, pos: Square, v: Vec, n: int)
    requires Valid(st)
  {
    1 <= n && InBounds(Step(pos, v, n)) && ClearPath(st, pos, v, n) && !Friendly(st, Step(pos, v, n), me)
  }

  /** The squares of a ray from an on-board square that lie before an
      on-board one are on the board. */
  lemma RayPrefixOnBoard(pos: Square, v: Vec, k: int, j: int)
    requires InBounds(pos) && IsUnit(v)
    requires 0 <= k <= j && InBounds(Step(pos, v, j))
    ensures InBounds(Step(pos, v, k))
  {
    if !InBounds(Step(pos, v, k)) {
      RayStaysOffBoard(pos, v, k, j);
    }
  }

  /** Different step counts along a direction reach different squares. */
  lemma StepInjective(pos: Square, v: Vec, k: int, j: int)
    requires IsUnit(v) && Step(pos, v, k) == Step(pos, v, j)
    ensures k == j
  {
  }

  /** The number of steps from `pos` along `v`, starting the count at `k`,
      to the first square that is off the board or occupied; every square
      before it is on the board and empty. */
  function BlockerDist(st: State, pos: Square, v: Vec, k: int): (d: int)
    requires Valid(st) && InBounds(pos) && IsUnit(v) && 1 <= k
    ensures k <= d
    ensures forall j :: k <= j < d ==> InBounds(Step(pos, v, j)) && At(st, Step(pos, v, j)).None?
    ensures !InBounds(Step(pos, v, d)) || At(st, Step(pos, v, d)).Some?
    decreases 8 - k
  {
    var sq := Step(pos, v, k);
    if !InBounds(sq) || At(st, sq).Some? then k
    else
      RayIsShort(pos, v, k);
      BlockerDist(st, pos, v, k + 1)
  }

  /** The collision `get_cardinal_collision` and `get_ordinal_collision`
      look for: the nearest occupied square along `v`, or `None` when the
      ray runs off the board first. */
  function FirstBlocker(st: State, pos: Square, v: Vec): (r: Option<Square>)
    requires Valid(st) && InBounds(pos) && IsUnit(v)
    ensures r.Some? ==> var d := BlockerDist(st, pos, v, 1);
      && r.value == Step(pos, v, d) && InBounds(r.value) && At(st, r.value).Some?
      && ClearPath(st, pos, v, d)
  {
    var d := BlockerDist(st, pos, v, 1);
    if InBounds(Step(pos, v, d)) then Some(Step(pos, v, d)) else None
  }

  /** No blocker means every on-board square of the ray is empty, and the
      other way round. */
  lemma FirstBlockerNoneMeansClearRay(st: State, pos: Square, v: Vec)
    requires Valid(st) && InBounds(pos) && IsUnit(v)
    ensures FirstBlocker(st, pos, v).None? <==>
      forall k :: 1 <= k && InBounds(Step(pos, v, k)) ==> At(st, Step(pos, v, k)).None?
  {
    var d := BlockerDist(st, pos, v, 1);
    if FirstBlocker(st, pos, v).None? {
      forall k | 1 <= k && InBounds(Step(pos, v, k))
        ensures At(st, Step(pos, v, k)).None?
      {
        if d <= k {
          RayStaysOffBoard(pos, v, d, k);
        }
      }
    }
  }

  /** A path is clear up to a square (the one before `n` on the board)
      exactly when the square is no further than the first blocker. */
  lemma ClearPathUpToBlocker(st: State, pos: Square, v: Vec, n: int)
    requires Valid(st) && InBounds(pos) && IsUnit(v)
    requires 1 <= n && InBounds(Step(pos, v, n - 1))
    ensures ClearPath(st, pos, v, n) <==> n <= BlockerDist(st, pos, v, 1)
  {
    var d := BlockerDist(st, pos, v, 1);
    if d < n {
      RayPrefixOnBoard(pos, v, d, n - 1);
      assert At(st, Step(pos, v, d)).Some?;
    }
  }

  /** `get_cardinal_collision`: steps one square at a time along the file
      or rank until it leaves the board or meets a piece. */
  method GetCardinalCollision(st: State, pos: Square, cardinal: Cardinal) returns (r: Option<Square>)
    requires Valid(st) && InBounds(pos)
    ensures r == FirstBlocker(st, pos, CardinalVec(cardinal))
  {
    var v := CardinalVec(cardinal);
    var alongX := v.dx != 0;
    var sign := if alongX then v.dx else v.dy;
    var i := if alongX then pos.x else pos.y;
    ghost var k := 0;
    while true
      invariant 0 <= k <= 7 && 1 <= i <= 8
      invariant i == (if alongX then pos.x else pos.y) + Scale(k, sign)
      invariant InBounds(Step(pos, v, k))
      invariant BlockerDist(st, pos, v, 1) == BlockerDist(st, pos, v, k + 1)
      decreases 8 - k
    {
      i := i + sign;
      if !(0 <= i - 1 < 8) {
        break;
      }
      var sq := if alongX then Square(i, pos.y) else Square(pos.x, i);
      assert sq == Step(pos, v, k + 1);
      if At(st, sq).Some? {
        return Some(sq);
      }
      RayIsShort(pos, v, k + 1);
      k := k + 1;
    }
    return None;
  }

  /** `get_ordinal_collision`: steps one square at a time along the
      diagonal until it leaves the board or meets a piece. */
  method GetOrdinalCollision(st: State, pos: Square, ordinal: Ordinal) returns (r: Option<Square>)
    requires Valid(st) && InBounds(pos)
    ensures r == FirstBlocker(st, pos, OrdinalVec(ordinal))
  {
    var v := OrdinalVec(ordinal);
    var x, y := pos.x, pos.y;
    ghost var k := 0;
    while true
      invariant 0 <= k <= 7
      invariant Square(x, y) == Step(pos, v, k) && InBounds(Square(x, y))
      invariant BlockerDist(st, pos, v, 1) == BlockerDist(st, pos, v, k + 1)
      decreases 8 - k
    {
      x := x + v.dx;
      y := y + v.dy;
      if !(0 <= x - 1 < 8) || !(0 <= y - 1 < 8) {
        break;
      }
      assert Square(x, y) == Step(pos, v, k + 1);
      if At(st, Square(x, y)).Some? {
        return Some(Square(x, y));
      }
      RayIsShort(pos, v, k + 1);
      k := k + 1;
    }
    return None;
  }
}

=== FILE: minimax.dfy ===
/** The search of the engine (chess/minimax.py): depth-limited minimax with
    optional alpha-beta pruning, and the material evaluation it uses at
    the horizon.

    The search is stated over an abstract game: the truly legal moves of
    the player to move, the position after a move (with the opponent to
    move), whether the player to move is in check, and the horizon
    evaluation. `MAX` is the bound `misc/constants.py` defines; that file
    is not part of this model, so it is a parameter. */
module Minimax {
  import opened Builtins
  import opened Constants
  import opened Pieces
  import opened Tables

  /** What the search needs of a game. A position includes the player to
      move; `apply` hands the move to the opponent. */
  datatype Search<!S, !M> = Search(
    moves: S -> seq<M>,
    apply: (S, M) -> S,
    inCheck: S -> bool,
    value: (S, bool) -> int)

  function Max(a: int, b: int): int { if a < b then b else a }
  function Min(a: int, b: int): int { if a < b then a else b }

  /** The score of a position where the player to move has no move:
      checkmate costs the maximising player `MAX` and gives the minimising
      one `MAX`; stalemate is even. */
  function TerminalScore<S, M>(g: Search<S, M>, s: S, isMax: bool, max: int): int
  {
    if g.inCheck(s) then (if isMax then -max else max) else 0
  }

  // ---------------------------------------------------------------------
  // The search as written

  /** `minimax`: the terminal test comes first, then the horizon; otherwise
      the maximising player scans the moves raising `value_num` from
      `-MAX`, the minimising one lowering it from `MAX`. */
  function Minimax<S, M>(g: Search<S, M>, s: S, depth: nat, isMax: bool,
                         alpha: int, beta: int, alphaBetaMode: bool, max: int): (r: int)
    decreases depth, 1, 0
  {
    var ms := g.moves(s);
    if |ms| == 0 then TerminalScore(g, s, isMax, max)
    else if depth == 0 then g.value(s, isMax)
    else if isMax then MaxMoves(g, s, ms, 0, depth - 1, -max, alpha, beta, alphaBetaMode, max)
    else MinMoves(g, s, ms, 0, depth - 1, max, alpha, beta, alphaBetaMode, max)
  }

  /** The maximising loop from move `i` on, with `valueNum` the best score
      so far: stop once it exceeds `beta` (when pruning), otherwise raise
      `alpha` to it. */
  function MaxMoves<S, M>(g: Search<S, M>, s: S, ms: seq<M>, i: nat, d: nat, valueNum: int,
                          alpha: int, beta: int, alphaBetaMode: bool, max: int): (r: int)
    requires i <= |ms|
    decreases d, 2, |ms| - i
  {
    if i == |ms| then valueNum
    else
      var v := Max(valueNum, Minimax(g, g.apply(s, ms[i]), d, false, alpha, beta, alphaBetaMode, max));
      if v > beta && alphaBetaMode then v
      else MaxMoves(g, s, ms, i + 1, d, v, Max(alpha, v), beta, alphaBetaMode, max)
  }

  /** The minimising loop from move `i` on: stop once `valueNum` falls
      below `alpha` (when pruning), otherwise lower `beta` to it. */
  function MinMoves<S, M>(g: Search<S, M>, s: S, ms: seq<M>, i: nat, d: nat, valueNum: int,
                          alpha: int, beta: int, alphaBetaMode: bool, max: int): (r: int)
    requires i <= |ms|
    decreases d, 2, |ms| - i
  {
    if i == |ms| then valueNum
    else
      var v := Min(valueNum, Minimax(g, g.apply(s, ms[i]), d, true, alpha, beta, alphaBetaMode, max));
      if v < alpha && alphaBetaMode then v
      else MinMoves(g, s, ms, i + 1, d, v, alpha, Min(beta, v), alphaBetaMode, max)
  }

  /** The leaves of the search, whatever the window and the mode: a
      position without moves scores as checkmate or stalemate even with
      depth left, and only a position with moves is evaluated at depth 0. */
  lemma MinimaxLeaves<S, M>(g: Search<S, M>, s: S, depth: nat, isMax: bool,
                            alpha: int, beta: int, alphaBetaMode: bool, max: int)
    ensures |g.moves(s)| == 0 && g.inCheck(s) ==>
      Minimax(g, s, depth, isMax, alpha, beta, alphaBetaMode, max) == (if isMax then -max else max)
    ensures |g.moves(s)| == 0 && !g.inCheck(s) ==> Minimax(g, s, depth, isMax, alpha, beta, alphaBetaMode, max) == 0
    ensures |g.moves(s)| > 0 && depth == 0 ==>
      Minimax(g, s, depth, isMax, alpha, beta, alphaBetaMode, max) == g.value(s, isMax)
  {
  }

  // ---------------------------------------------------------------------
  // The reference: the plain minimax value

  /** The larger of `lo` and every element of `vs`. */
  function Highest(lo: int, vs: seq<int>): (r: int)
    ensures lo <= r && forall k :: 0 <= k < |vs| ==> vs[k] <= r
    ensures r == lo || exists k :: 0 <= k < |vs| && r == vs[k]
    decreases |vs|
  {
    if |vs| == 0 then lo else Highest(Max(lo, vs[0]), vs[1..])
  }

  /** The smaller of `hi` and every element of `vs`. */
  function Lowest(hi: int, vs: seq<int>): (r: int)
    ensures r <= hi && forall k :: 0 <= k < |vs| ==> r <= vs[k]
    ensures r == hi || exists k :: 0 <= k < |vs| && r == vs[k]
    decreases |vs|
  {
    if |vs| == 0 then hi else Lowest(Min(hi, vs[0]), vs[1..])
  }

  /** The plain minimax values of the positions after moves `i..` of `ms`,
      searched `d` levels deep with `isMax` to move. */
  function ChildValues<S, M>(g: Search<S, M>, s: S, ms: seq<M>, i: nat, d: nat, isMax: bool, max: int): (vs: seq<int>)
    requires i <= |ms|
    ensures |vs| == |ms| - i
    decreases d, 2, |ms| - i
  {
    if i == |ms| then []
    else [PlainValue(g, g.apply(s, ms[i]), d, isMax, max)] + ChildValues(g, s, ms, i + 1, d, isMax, max)
  }

  /** The minimax value of a position, with scores bounded below by
      `-MAX` for the maximiser and above by `MAX` for the minimiser, as the
      starting `value_num` bounds them. */
  function PlainValue<S, M>(g: Search<S, M>, s: S, depth: nat, isMax: bool, max: int): int
    decreases depth, 1, 0
  {
    var ms := g.moves(s);
    if |ms| == 0 then TerminalScore(g, s, isMax, max)
    else if depth == 0 then g.value(s, isMax)
    else if isMax then Highest(-max, ChildValues(g, s, ms, 0, depth - 1, false, max))
    else Lowest(max, ChildValues(g, s, ms, 0, depth - 1, true, max))
  }

  /** The horizon evaluation stays within `[-MAX, MAX]`. */
  ghost predicate ValuesWithin<S(!new), M>(g: Search<S, M>, max: int)
  {
    forall s: S, b: bool :: -max <= g.value(s, b) <= max
  }

  /** The maximising loop never returns less than the best score it
      started from, whatever the window and pruning mode. */
  lemma {:induction false} MaxMovesFloor<S, M>(g: Search<S, M>, s: S, ms: seq<M>, i: nat, d: nat,
                                               valueNum: int, alpha: int, beta: int, alphaBetaMode: bool, max: int)
    requires i <= |ms|
    ensures valueNum <= MaxMoves(g, s, ms, i, d, valueNum, alpha, beta, alphaBetaMode, max)
    decreases |ms| - i
  {
    if i < |ms| {
      var v := Max(valueNum, Minimax(g, g.apply(s, ms[i]), d, false, alpha, beta, alphaBetaMode, max));
      if !(v > beta && alphaBetaMode) {
        MaxMovesFloor(g, s, ms, i + 1, d, v, Max(alpha, v), beta, alphaBetaMode, max);
      }
    }
  }

  /** The minimising loop never returns more than the score it started
      from. */
  lemma {:induction false} MinMovesCeiling<S, M>(g: Search<S, M>, s: S, ms: seq<M>, i: nat, d: nat,
                                                 valueNum: int, alpha: int, beta: int, alphaBetaMode: bool, max: int)
    requires i <= |ms|
    ensures MinMoves(g, s, ms, i, d, valueNum, alpha, beta, alphaBetaMode, max) <= valueNum
    decreases |ms| - i
  {
    if i < |ms| {
      var v := Min(valueNum, Minimax(g, g.apply(s, ms[i]), d, true, alpha, beta, alphaBetaMode, max));
      if !(v < alpha && alphaBetaMode) {
        MinMovesCeiling(g, s, ms, i + 1, d, v, alpha, Min(beta, v), alphaBetaMode, max);
      }
    }
  }

  /** With moves and depth left, the search scores at least `-MAX` for the
      maximiser and at most `MAX` for the minimiser: the start value of
      `value_num` bounds it. */
  lemma SearchRespectsStartValue<S, M>(g: Search<S, M>, s: S, depth: nat, isMax: bool,
                                       alpha: int, beta: int, alphaBetaMode: bool, max: int)
    requires |g.moves(s)| > 0 && depth > 0
    ensures isMax ==> -max <= Minimax(g, s, depth, isMax, alpha, beta, alphaBetaMode, max)
    ensures !isMax ==> Minimax(g, s, depth, isMax, alpha, beta, alphaBetaMode, max) <= max
  {
    var ms := g.moves(s);
    if isMax {
      MaxMovesFloor(g, s, ms, 0, depth - 1, -max, alpha, beta, alphaBetaMode, max);
    } else {
      MinMovesCeiling(g, s, ms, 0, depth - 1, max, alpha, beta, alphaBetaMode, max);
    }
  }

  // ---------------------------------------------------------------------
  // Without pruning the search is the plain minimax

  lemma {:induction false} NoPruningIsPlain<S, M>(g: Search<S, M>, s: S, depth: nat, isMax: bool,
                                                  alpha: int, beta: int, max: int)
    ensures Minimax(g, s, depth, isMax, alpha, beta, false, max) == PlainValue(g, s, depth, isMax, max)
    decreases depth, 1, 0
  {
    var ms := g.moves(s);
    if |ms| > 0 && depth > 0 {
      if isMax {
        MaxMovesNoPruning(g, s, ms, 0, depth - 1, -max, alpha, beta, max);
      } else {
        MinMovesNoPruning(g, s, ms, 0, depth - 1, max, alpha, beta, max);
      }
    }
  }

  lemma {:induction false} MaxMovesNoPruning<S, M>(g: Search<S, M>, s: S, ms: seq<M>, i: nat, d: nat,
                                                   valueNum: int, alpha: int, beta: int, max: int)
    requires i <= |ms|
    ensures MaxMoves(g, s, ms, i, d, valueNum, alpha, beta, false, max)
            == Highest(valueNum, ChildValues(g, s, ms, i, d, false, max))
    decreases d, 2, |ms| - i
  {
    if i < |ms| {
      var c := Minimax(g, g.apply(s, ms[i]), d, false, alpha, beta, false, max);
      NoPruningIsPlain(g, g.apply(s, ms[i]), d, false, alpha, beta, max);
      var v := Max(valueNum, c);
      MaxMovesNoPruning(g, s, ms, i + 1, d, v, Max(alpha, v), beta, max);
      var vs := ChildValues(g, s, ms, i, d, false, max);
      assert vs[1..] == ChildValues(g, s, ms, i + 1, d, false, max);
    }
  }

  lemma {:induction false} MinMovesNoPruning<S, M>(g: Search<S, M>, s: S, ms: seq<M>, i: nat, d: nat,
                                                   valueNum: int, alpha: int, beta: int, max: int)
    requires i <= |ms|
    ensures MinMoves(g, s, ms, i, d, valueNum, alpha, beta, false, max)
            == Lowest(valueNum, ChildValues(g, s, ms, i, d, true, max))
    decreases d, 2, |ms| - i
  {
    if i < |ms| {
      var c := Minimax(g, g.apply(s, ms[i]), d, true, alpha, beta, false, max);
      NoPruningIsPlain(g, g.apply(s, ms[i]), d, true, alpha, beta, max);
      var v := Min(valueNum, c);
      MinMovesNoPruning(g, s, ms, i + 1, d, v, alpha, Min(beta, v), max);
      var vs := ChildValues(g, s, ms, i, d, true, max);
      assert vs[1..] == ChildValues(g, s, ms, i + 1, d, true, max);
    }
  }

  // ---------------------------------------------------------------------
  // With pruning the search is fail-soft alpha-beta

  /** What a pruned score `r` searched in the window `(alpha, beta)` says
      about the plain value `v`: a score below the window bounds `v` from
      above, one above it bounds `v` from below, and one inside it is `v`. */
  predicate FailSoft(r: int, v: int, alpha: int, beta: int)
  {
    (r < alpha ==> v <= r) && (r > beta ==> r <= v) && (alpha <= r <= beta ==> v == r)
  }

  lemma {:induction false} AlphaBetaFailSoft<S, M>(g: Search<S, M>, s: S, depth: nat, isMax: bool,
                                                   alpha: int, beta: int, max: int)
    requires alpha <= beta
    ensures FailSoft(Minimax(g, s, depth, isMax, alpha, beta, true, max),
                     PlainValue(g, s, depth, isMax, max), alpha, beta)
    decreases depth, 1, 0
  {
    var ms := g.moves(s);
    if |ms| > 0 && depth > 0 {
      if isMax {
        MaxMovesFailSoft(g, s, ms, 0, depth - 1, -max, alpha, alpha, beta, -max, max);
      } else {
        MinMovesFailSoft(g, s, ms, 0, depth - 1, max, beta, alpha, beta, max, max);
      }
    }
  }

  /** The maximising loop, part way through: `t` is the plain best so far,
      `valueNum` the pruned one and `a` the current `alpha`, which has only
      grown from `alpha0` and never past the best so far. */
  lemma {:induction false} MaxMovesFailSoft<S, M>(g: Search<S, M>, s: S, ms: seq<M>, i: nat, d: nat,
                                                  valueNum: int, a: int, alpha0: int, beta: int, t: int, max: int)
    requires i <= |ms|
    requires alpha0 <= a <= Max(alpha0, valueNum) && a <= beta
    requires -max <= t <= valueNum
    requires alpha0 <= valueNum ==> t == valueNum
    requires valueNum <= beta || valueNum == -max
    ensures FailSoft(MaxMoves(g, s, ms, i, d, valueNum, a, beta, true, max),
                     Highest(t, ChildValues(g, s, ms, i, d, false, max)), alpha0, beta)
    decreases d, 2, |ms| - i
  {
    if i < |ms| {
      var child := g.apply(s, ms[i]);
      var c := Minimax(g, child, d, false, a, beta, true, max);
      var v := PlainValue(g, child, d, false, max);
      AlphaBetaFailSoft(g, child, d, false, a, beta, max);
      var m' := Max(valueNum, c);
      var t' := Max(t, v);
      var vs := ChildValues(g, s, ms, i, d, false, max);
      assert vs[0] == v;
      assert vs[1..] == ChildValues(g, s, ms, i + 1, d, false, max);
      assert Highest(t, vs) == Highest(t', vs[1..]);
      if m' > beta {
        assert t' <= Highest(t', vs[1..]);
      } else {
        MaxMovesFailSoft(g, s, ms, i + 1, d, m', Max(a, m'), alpha0, beta, t', max);
      }
    }
  }

  /** The minimising loop, part way through; the mirror image. */
  lemma {:induction false} MinMovesFailSoft<S, M>(g: Search<S, M>, s: S, ms: seq<M>, i: nat, d: nat,
                                                  valueNum: int, b: int, alpha: int, beta0: int, t: int, max: int)
    requires i <= |ms|
    requires Min(beta0, valueNum) <= b <= beta0 && alpha <= b
    requires valueNum <= t <= max
    requires valueNum <= beta0 ==> t == valueNum
    requires alpha <= valueNum || valueNum == max
    ensures FailSoft(MinMoves(g, s, ms, i, d, valueNum, alpha, b, true, max),
                     Lowest(t, ChildValues(g, s, ms, i, d, true, max)), alpha, beta0)
    decreases d, 2, |ms| - i
  {
    if i < |ms| {
      var child := g.apply(s, ms[i]);
      var c := Minimax(g, child, d, true, alpha, b, true, max);
      var v := PlainValue(g, child, d, true, max);
      AlphaBetaFailSoft(g, child, d, true, alpha, b, max);
      var m' := Min(valueNum, c);
      var t' := Min(t, v);
      var vs := ChildValues(g, s, ms, i, d, true, max);
      assert vs[0] == v;
      assert vs[1..] == ChildValues(g, s, ms, i + 1, d, true, max);
      assert Lowest(t, vs) == Lowest(t', vs[1..]);
      if m' < alpha {
        assert Lowest(t', vs[1..]) <= t';
      } else {
        MinMovesFailSoft(g, s, ms, i + 1, d, m', Min(b, m'), alpha, beta0, t', max);
      }
    }
  }

  /** With `MAX` non-negative and the evaluation inside `[-MAX, MAX]`,
      every plain value is inside `[-MAX, MAX]` too. */
  lemma {:induction false} PlainValueWithin<S(!new), M>(g: Search<S, M>, s: S, depth: nat, isMax: bool, max: int)
    requires 0 <= max && ValuesWithin(g, max)
    ensures -max <= PlainValue(g, s, depth, isMax, max) <= max
    decreases depth, 1, 0
  {
    var ms := g.moves(s);
    if |ms| > 0 && depth > 0 {
      ChildValuesWithin(g, s, ms, 0, depth - 1, !isMax, max);
    }
  }

  lemma {:induction false} ChildValuesWithin<S(!new), M>(g: Search<S, M>, s: S, ms: seq<M>, i: nat, d: nat,
                                                   isMax: bool, max: int)
    requires i <= |ms|
    requires 0 <= max && ValuesWithin(g, max)
    ensures forall k :: 0 <= k < |ms| - i ==> -max <= ChildValues(g, s, ms, i, d, isMax, max)[k] <= max
    decreases d, 2, |ms| - i
  {
    if i < |ms| {
      PlainValueWithin(g, g.apply(s, ms[i]), d, isMax, max);
      ChildValuesWithin(g, s, ms, i + 1, d, isMax, max);
    }
  }

  /** Searched with the default window `(-MAX, MAX)`, pruning never changes
      the result: alpha-beta returns the plain minimax value. */
  lemma FullWindowPruningIsExact<S(!new), M>(g: Search<S, M>, s: S, depth: nat, isMax: bool, max: int)
    requires 0 <= max && ValuesWithin(g, max)
    ensures Minimax(g, s, depth, isMax, -max, max, true, max) == PlainValue(g, s, depth, isMax, max)
    ensures Minimax(g, s, depth, isMax, -max, max, true, max)
            == Minimax(g, s, depth, isMax, -max, max, false, max)
  {
    AlphaBetaFailSoft(g, s, depth, isMax, -max, max, max);
    PlainValueWithin(g, s, depth, isMax, max);
    NoPruningIsPlain(g, s, depth, isMax, -max, max, max);
  }

  // ---------------------------------------------------------------------
  // The horizon evaluation

  /** `rank_point`: the material worth of every rank but the king. */
  const RankPoint: map<Rank, int> := map[Pawn := 1, Knight := 3, Bishop := 3, Rook := 5, Queen := 9]

  /** `rank_point` agrees with `NORMAL_VALUE` on every rank it lists, and
      lists every rank but the king, which `NORMAL_VALUE` rates 0. */
  lemma RankPointIsNormalValue(r: Rank)
    ensures r in RankPoint <==> r != King
    ensures r != King ==> RankPoint[r] == NormalValue[r]
    ensures r == King ==> NormalValue[r] == 0
  {
    match r
    case Pawn => case Knight => case Bishop => case Rook => case Queen => case King =>
  }

  /** The material of a list of pieces on the `NORMAL_VALUE` scale. */
  function Material(ps: seq<Piece>): int
    decreases |ps|
  {
    if |ps| == 0 then 0
    else
      RankPointIsNormalValue(ps[|ps| - 1].rank);
      Material(ps[..|ps| - 1]) + NormalValue[ps[|ps| - 1].rank]
  }

  /** Material is never negative and at most 9 per piece. */
  lemma {:induction false} MaterialBounds(ps: seq<Piece>)
    ensures 0 <= Material(ps) <= 9 * |ps|
    decreases |ps|
  {
    if |ps| > 0 {
      MaterialBounds(ps[..|ps| - 1]);
      var r := ps[|ps| - 1].rank;
      match r
      case Pawn => case Knight => case Bishop => case Rook => case Queen => case King =>
    }
  }

  predicate HasKingPiece(ps: seq<Piece>)
  {
    exists k :: 0 <= k < |ps| && ps[k].rank == King
  }

  /** Extending a prefix by one piece adds its material and finds its
      king. */
  lemma PrefixStep(ps: seq<Piece>, i: int)
    requires 0 <= i < |ps|
    ensures ps[i].rank in NormalValue
    ensures Material(ps[..i + 1]) == Material(ps[..i]) + NormalValue[ps[i].rank]
    ensures HasKingPiece(ps[..i + 1]) <==> HasKingPiece(ps[..i]) || ps[i].rank == King
  {
    assert ps[..i + 1][..i] == ps[..i];
    RankPointIsNormalValue(ps[i].rank);
    if ps[i].rank == King { assert ps[..i + 1][i] == ps[i]; }
    if HasKingPiece(ps[..i + 1]) {
      var k :| 0 <= k < i + 1 && ps[..i + 1][k].rank == King;
      if k < i { assert ps[..i][k] == ps[..i + 1][k]; }
    }
  }

  /** The intended evaluation: the material balance seen from the player to
      move, signed for the maximiser and negated for the minimiser. */
  function Evaluation(mine: seq<Piece>, theirs: seq<Piece>, isMax: bool): int
  {
    (if isMax then 1 else -1) * (Material(mine) - Material(theirs))
  }

  /** `value` with no fuzz, over the pieces of the player to move and those
      of the opponent in dictionary order: the signed material balance when
      both kings are present, and the assertion failure otherwise. */
  method Value(mine: seq<Piece>, theirs: seq<Piece>, isMax: bool) returns (r: Result<int>)
    ensures r.Ok? <==> HasKingPiece(mine) && HasKingPiece(theirs)
    ensures r.Ok? ==> r.value == Evaluation(mine, theirs, isMax)
    ensures r.Raise? ==> r.error == AssertionError
  {
    var value := 0;
    var offset := if isMax then 1 else -1;
    var myKing, theirKing := false, false;
    var i := 0;
    while i < |mine|
      invariant 0 <= i <= |mine|
      invariant value == offset * Material(mine[..i])
      invariant myKing <==> HasKingPiece(mine[..i])
    {
      RankPointIsNormalValue(mine[i].rank);
      if mine[i].rank == King {
        myKing := true;
      } else {
        value := value + offset * RankPoint[mine[i].rank];
      }
      PrefixStep(mine, i);
      i := i + 1;
    }
    assert mine[..|mine|] == mine;
    var j := 0;
    while j < |theirs|
      invariant 0 <= j <= |theirs|
      invariant value == offset * (Material(mine) - Material(theirs[..j]))
      invariant theirKing <==> HasKingPiece(theirs[..j])
    {
      RankPointIsNormalValue(theirs[j].rank);
      if theirs[j].rank == King {
        theirKing := true;
      } else {
        value := value - offset * RankPoint[theirs[j].rank];
      }
      PrefixStep(theirs, j);
      j := j + 1;
    }
    assert theirs[..|theirs|] == theirs;
    if !(myKing && theirKing) {
      return Raise(AssertionError);
    }
    return Ok(value);
  }

  /** The evaluation is zero-sum: the minimiser's score is the negation of
      the maximiser's, and exchanging the two sides negates it too. */
  lemma EvaluationIsZeroSum(mine: seq<Piece>, theirs: seq<Piece>, isMax: bool)
    ensures Evaluation(mine, theirs, false) == -Evaluation(mine, theirs, true)
    ensures Evaluation(theirs, mine, isMax) == -Evaluation(mine, theirs, isMax)
  {
  }

  /** The evaluation is bounded by 9 per piece on the board, so a `MAX` at
      least that large keeps the horizon scores inside the search window. */
  lemma EvaluationBounded(mine: seq<Piece>, theirs: seq<Piece>, isMax: bool)
    ensures -9 * (|mine| + |theirs|) <= Evaluation(mine, theirs, isMax) <= 9 * (|mine| + |theirs|)
  {
    MaterialBounds(mine);
    MaterialBounds(theirs);
  }
}

=== FILE: move_legal.dfy ===
/** The pseudo-legal move checkers for the six ranks (chess/move_legal.py).
    A checker answers for the player of colour `me` whether the piece on
    `pos` may go to `dest`; checks, castling and en passant are not part of
    them. The source returns a flag and a message; a rejection is modelled
    by its reason. The messages name the rank of the piece on `pos`, so a
    rejection with no piece there raises `AttributeError`. */
module MoveLegal {
  import opened Builtins
  import opened Constants
  import opened GeneralHelpers
  import opened Pieces
  import opened Board
  import opened Player
  import opened LegalityHelpers

  /** Why a move is rejected, one per message of the source. */
  datatype Reason =
    | TooFarStraight | NonstartingDouble | BlockedForward
    | TooFarDiagonal | DiagonalNeedsCapture | IllegalPawnMove
    | NotStraight | NotDiagonal | NotStraightOrDiagonal
    | AllyLocation | Blocked | NotValidMove

  /** A checker's answer. */
  datatype Verdict = Legal | Illegal(reason: Reason)

  /** A rejection whose message reads the rank of the piece on `pos`. */
  function Reject(st: State, pos: Square, reason: Reason): (r: Result<Verdict>)
    requires Valid(st) && InBounds(pos)
    ensures r.Ok? <==> At(st, pos).Some?
    ensures r.Ok? ==> r.value == Illegal(reason)
  {
    if At(st, pos).None? then Raise(AttributeError) else Ok(Illegal(reason))
  }

  // ---------------------------------------------------------------------
  // Pawn
  // ---------------------------------------------------------------------

  /** `pawn_move_legal`: a straight advance of one square, or of two from
      the pawn row, with every square up to the destination empty; or a
      capture one square diagonally forward. The piece's own square
      attribute is what the direction tests read, so the board must agree
      with it. */
  function PawnMoveLegal(st: State, pos: Square, dest: Square): (r: Result<Verdict>)
    requires Valid(st) && InBounds(pos) && InBounds(dest)
    requires At(st, pos).Some? ==> st.arena[At(st, pos).value].pos == Some(pos)
    ensures At(st, pos).None? ==> r == Raise(AttributeError)
    ensures At(st, pos).Some? ==> (r.Ok? <==> st.arena[At(st, pos).value].rank == Pawn)
    ensures r == Ok(Legal) ==> pos != dest && TaxicabDist(pos, dest) <= 2
  {
    match At(st, pos)
    case None => Raise(AttributeError)
    case Some(id) =>
      var piece := st.arena[id];
      var dist := TaxicabDist(pos, dest);
      match PawnMovingStraightForward(piece, dest)
      case Raise(e) => Raise(e)
      case Ok(true) =>
        if dist > 2 then Ok(Illegal(TooFarStraight))
        else if dist == 2 && PawnStarting(piece) != Ok(true) then Ok(Illegal(NonstartingDouble))
        else
          var cardinal := CardinalDirection(pos, dest);
          (match FirstBlocker(st, pos, CardinalVec(cardinal))
           case None => Ok(Legal)
           case Some(collider) =>
             if CardinalDestBetweenCollider(pos, collider, dest, cardinal, true) then Ok(Legal)
             else Ok(Illegal(BlockedForward)))
      case Ok(false) =>
        match PawnMovingDiagonalForward(piece, dest)
        case Raise(e) => Raise(e)
        case Ok(true) =>
          if dist >= 4 then Ok(Illegal(TooFarDiagonal))
          else
            assert dist == 2;
            (match At(st, dest)
             case None => Ok(Illegal(DiagonalNeedsCapture))
             case Some(q) =>
               if st.arena[q].color == piece.color then Ok(Illegal(AllyLocation))
               else Ok(Legal))
        case Ok(false) => Ok(Illegal(IllegalPawnMove))
  }

  /** The square `k` steps ahead of `pos` for a pawn of colour `c`. */
  function AheadBy(pos: Square, c: Color, k: int): Square
  {
    Step(pos, CardinalVec(Ahead(c)), k)
  }

  /** A quiet pawn advance of colour `c`: one empty square ahead, or two
      from the pawn row with both squares empty. */
  predicate PawnAdvance(st: State, c: Color, pos: Square, dest: Square)
    requires Valid(st) && InBounds(pos) && InBounds(dest)
  {
    || (dest == AheadBy(pos, c, 1) && At(st, dest).None?)
    || (pos.y == PawnRowPos(c) && dest == AheadBy(pos, c, 2)
        && At(st, AheadBy(pos, c, 1)).None? && At(st, dest).None?)
  }

  /** A pawn capture of colour `c`: one square diagonally forward onto a
      piece of the other colour. */
  predicate PawnCapture(st: State, c: Color, pos: Square, dest: Square)
    requires Valid(st) && InBounds(dest)
  {
    && dest.y == AheadBy(pos, c, 1).y && Abs(dest.x - pos.x) == 1
    && At(st, dest).Some? && st.arena[At(st, dest).value].color != c
  }

  /** A pawn stands on `pos` and its square attribute agrees. */
  predicate PawnAt(st: State, pos: Square)
    requires Valid(st) && InBounds(pos)
  {
    At(st, pos).Some? && st.arena[At(st, pos).value].rank == Pawn
    && st.arena[At(st, pos).value].pos == Some(pos)
  }

  /** The straight branch: a pawn may advance iff the advance is one square,
      or two from the pawn row, and every square up to and including the
      destination is empty. */
  lemma PawnStraightMeaning(st: State, pos: Square, dest: Square)
    requires Valid(st) && InBounds(pos) && InBounds(dest) && PawnAt(st, pos)
    requires pos.x == dest.x && pos != dest
    requires CardinalDirection(pos, dest) == Ahead(st.arena[At(st, pos).value].color)
    ensures PawnMoveLegal(st, pos, dest).Ok?
    ensures PawnMoveLegal(st, pos, dest) == Ok(Legal) <==> PawnAdvance(st, st.arena[At(st, pos).value].color, pos, dest)
  {
    var piece := st.arena[At(st, pos).value];
    var c := piece.color;
    var v := CardinalVec(Ahead(c));
    var n := TaxicabDist(pos, dest);
    CardinalDirectionOnRay(pos, dest);
    assert dest == Step(pos, v, n) == AheadBy(pos, c, n);
    assert PawnMovingStraightForward(piece, dest) == Ok(true);
    if n <= 2 && (n == 1 || PawnStarting(piece) == Ok(true)) {
      var d := BlockerDist(st, pos, v, 1);
      RayPrefixOnBoard(pos, v, 1, n);
      assert AheadBy(pos, c, 1) == Step(pos, v, 1);
      if InBounds(Step(pos, v, d)) {
        CardinalBetweenOnRay(pos, Ahead(c), n, d, true);
        if n < d {
          assert At(st, Step(pos, v, 1)).None?;
        }
      } else if d <= n {
        RayStaysOffBoard(pos, v, d, n);
      }
    }
  }

  /** The diagonal branch: a pawn may move diagonally forward iff it is one
      square onto an enemy piece; the assertion that the distance is 2
      always holds. */
  lemma PawnDiagonalMeaning(st: State, pos: Square, dest: Square)
    requires Valid(st) && InBounds(pos) && InBounds(dest) && PawnAt(st, pos)
    requires pos != dest && Abs(pos.x - dest.x) == Abs(pos.y - dest.y)
    requires Northward(OrdinalDirection(pos, dest)) <==> st.arena[At(st, pos).value].color == White
    ensures PawnMoveLegal(st, pos, dest).Ok?
    ensures PawnMoveLegal(st, pos, dest) == Ok(Legal) <==> PawnCapture(st, st.arena[At(st, pos).value].color, pos, dest)
  {
  }

  /** `pawn_move_legal` on a pawn: never raises, and accepts exactly the
      quiet advances and the diagonal captures; sideways, backward and
      other moves are rejected. */
  lemma PawnMoveMeaning(st: State, pos: Square, dest: Square)
    requires Valid(st) && InBounds(pos) && InBounds(dest) && PawnAt(st, pos)
    ensures PawnMoveLegal(st, pos, dest).Ok?
    ensures var c := st.arena[At(st, pos).value].color;
      PawnMoveLegal(st, pos, dest) == Ok(Legal) <==> PawnAdvance(st, c, pos, dest) || PawnCapture(st, c, pos, dest)
  {
    var piece := st.arena[At(st, pos).value];
    var c := piece.color;
    if PawnMovingStraightForward(piece, dest) == Ok(true) {
      PawnStraightMeaning(st, pos, dest);
      assert !PawnCapture(st, c, pos, dest);
    } else if PawnMovingDiagonalForward(piece, dest) == Ok(true) {
      PawnDiagonalMeaning(st, pos, dest);
      assert !PawnAdvance(st, c, pos, dest);
    } else {
      assert !PawnAdvance(st, c, pos, dest);
      assert !PawnCapture(st, c, pos, dest);
    }
  }

  // ---------------------------------------------------------------------
  // Sliders
  // ---------------------------------------------------------------------

  /** `rook_move_legal`: along a file or rank, legal when no piece is met,
      or when `dest` is no further than the first piece met and is not that
      piece in the player's colour. The direction helper asserts
      `pos != dest`. */
  function RookMoveLegal(st: State, me: Color, pos: Square, dest: Square): (r: Result<Verdict>)
    requires Valid(st) && InBounds(pos) && pos != dest
    ensures r.Raise? ==> r.error == AttributeError && At(st, pos).None?
    ensures At(st, pos).Some? ==> r.Ok?
    ensures r == Ok(Legal) ==> dest.x == pos.x || dest.y == pos.y
  {
    if dest.x != pos.x && dest.y != pos.y then Reject(st, pos, NotStraight)
    else
      var cardinal := CardinalDirection(pos, dest);
      match FirstBlocker(st, pos, CardinalVec(cardinal))
      case None => Ok(Legal)
      case Some(collider) =>
        var teamKill := dest == collider && st.arena[At(st, collider).value].color == me;
        if CardinalDestBetweenCollider(pos, collider, dest, cardinal, false) && !teamKill then Ok(Legal)
        else if teamKill then Reject(st, pos, AllyLocation)
        else Reject(st, pos, Blocked)
  }

  /** `bishop_move_legal`: the same rule along a diagonal. */
  function BishopMoveLegal(st: State, me: Color, pos: Square, dest: Square): (r: Result<Verdict>)
    requires Valid(st) && InBounds(pos) && pos != dest
    ensures r.Raise? ==> r.error == AttributeError && At(st, pos).None?
    ensures At(st, pos).Some? ==> r.Ok?
    ensures r == Ok(Legal) ==> Abs(pos.x - dest.x) == Abs(pos.y - dest.y)
  {
    if Abs(pos.x - dest.x) != Abs(pos.y - dest.y) then Reject(st, pos, NotDiagonal)
    else
      var ordinal := OrdinalDirection(pos, dest);
      var v := OrdinalVec(ordinal);
      match FirstBlocker(st, pos, v)
      case None => Ok(Legal)
      case Some(collider) =>
        OrdinalDirectionOnRay(pos, dest);
        OrdinalBetweenOnRay(pos, ordinal, Abs(pos.x - dest.x), BlockerDist(st, pos, v, 1));
        var teamKill := dest == collider && st.arena[At(st, collider).value].color == me;
        if OrdinalDestBetweenCollider(pos, collider, dest, ordinal) && !teamKill then Ok(Legal)
        else if teamKill then Reject(st, pos, AllyLocation)
        else Reject(st, pos, Blocked)
  }

  /** What a slider's verdict means once its direction `v` and step count
      `n` to `dest` are known: legal iff the slide is allowed. */
  lemma SliderVerdict(st: State, me: Color, pos: Square, dest: Square, v: Vec, n: int)
    requires Valid(st) && InBounds(pos) && InBounds(dest) && IsUnit(v)
    requires 1 <= n && dest == Step(pos, v, n)
    ensures var d := BlockerDist(st, pos, v, 1);
      && (ClearPath(st, pos, v, n) <==> n <= d)
      && (!InBounds(Step(pos, v, d)) ==> SlideOk(st, me, pos, v, n))
      && (InBounds(Step(pos, v, d)) ==>
            (SlideOk(st, me, pos, v, n) <==>
               n <= d && !(dest == Step(pos, v, d) && st.arena[At(st, Step(pos, v, d)).value].color == me)))
  {
    var d := BlockerDist(st, pos, v, 1);
    RayPrefixOnBoard(pos, v, n - 1, n);
    ClearPathUpToBlocker(st, pos, v, n);
    if !InBounds(Step(pos, v, d)) && d <= n {
      RayStaysOffBoard(pos, v, d, n);
    }
    if dest == Step(pos, v, d) {
      StepInjective(pos, v, n, d);
    }
  }

  /** A rook move along a line is legal iff the rook may slide to `dest`:
      the squares before it are empty and it holds no piece of the
      player's colour. With a piece on `pos` the checker never raises. */
  lemma RookMoveMeaning(st: State, me: Color, pos: Square, dest: Square)
    requires Valid(st) && InBounds(pos) && InBounds(dest) && pos != dest
    requires pos.x == dest.x || pos.y == dest.y
    ensures RookMoveLegal(st, me, pos, dest) == Ok(Legal) <==>
      SlideOk(st, me, pos, CardinalVec(CardinalDirection(pos, dest)), TaxicabDist(pos, dest))
    ensures At(st, pos).Some? ==> RookMoveLegal(st, me, pos, dest).Ok?
  {
    var cardinal := CardinalDirection(pos, dest);
    var v := CardinalVec(cardinal);
    var n := TaxicabDist(pos, dest);
    CardinalDirectionOnRay(pos, dest);
    SliderVerdict(st, me, pos, dest, v, n);
    var d := BlockerDist(st, pos, v, 1);
    if InBounds(Step(pos, v, d)) {
      CardinalBetweenOnRay(pos, cardinal, n, d, false);
    }
  }

  /** A rook never moves off its file and rank. */
  lemma RookRejectsOffLine(st: State, me: Color, pos: Square, dest: Square)
    requires Valid(st) && InBounds(pos) && InBounds(dest) && pos != dest
    requires pos.x != dest.x && pos.y != dest.y
    ensures RookMoveLegal(st, me, pos, dest) != Ok(Legal)
    ensures At(st, pos).Some? ==> RookMoveLegal(st, me, pos, dest) == Ok(Illegal(NotStraight))
  {
  }

  /** A bishop move along a diagonal is legal iff the bishop may slide to
      `dest`. With a piece on `pos` the checker never raises. */
  lemma BishopMoveMeaning(st: State, me: Color, pos: Square, dest: Square)
    requires Valid(st) && InBounds(pos) && InBounds(dest) && pos != dest
    requires Abs(pos.x - dest.x) == Abs(pos.y - dest.y)
    ensures BishopMoveLegal(st, me, pos, dest) == Ok(Legal) <==>
      SlideOk(st, me, pos, OrdinalVec(OrdinalDirection(pos, dest)), Abs(pos.x - dest.x))
    ensures At(st, pos).Some? ==> BishopMoveLegal(st, me, pos, dest).Ok?
  {
    var ordinal := OrdinalDirection(pos, dest);
    var v := OrdinalVec(ordinal);
    var n := Abs(pos.x - dest.x);
    OrdinalDirectionOnRay(pos, dest);
    SliderVerdict(st, me, pos, dest, v, n);
    var d := BlockerDist(st, pos, v, 1);
    OrdinalBetweenOnRay(pos, ordinal, n, d);
  }

  /** A bishop never moves off its diagonals. */
  lemma BishopRejectsOffDiagonal(st: State, me: Color, pos: Square, dest: Square)
    requires Valid(st) && InBounds(pos) && InBounds(dest) && pos != dest
    requires Abs(pos.x - dest.x) != Abs(pos.y - dest.y)
    ensures BishopMoveLegal(st, me, pos, dest) != Ok(Legal)
    ensures At(st, pos).Some? ==> BishopMoveLegal(st, me, pos, dest) == Ok(Illegal(NotDiagonal))
  {
  }

  /** Past the edge of the board a rook slide is accepted exactly when
      nothing stands on the on-board part of its ray: the checker never
      looks at `dest` itself, so a destination off the board is legal on a
      clear line and blocked otherwise. */
  lemma RookAcceptsPastTheEdge(st: State, me: Color, pos: Square, dest: Square)
    requires Valid(st) && InBounds(pos) && !InBounds(dest)
    requires pos.x == dest.x || pos.y == dest.y
    ensures var v := CardinalVec(CardinalDirection(pos, dest));
      RookMoveLegal(st, me, pos, dest) == Ok(Legal) <==>
        forall k :: 1 <= k && InBounds(Step(pos, v, k)) ==> At(st, Step(pos, v, k)).None?
  {
    var cardinal := CardinalDirection(pos, dest);
    var v := CardinalVec(cardinal);
    var n := TaxicabDist(pos, dest);
    CardinalDirectionOnRay(pos, dest);
    FirstBlockerNoneMeansClearRay(st, pos, v);
    if FirstBlocker(st, pos, v).Some? {
      var d := BlockerDist(st, pos, v, 1);
      if n <= d {
        RayPrefixOnBoard(pos, v, n, d);
      }
      CardinalBetweenOnRay(pos, cardinal, n, d, false);
    }
  }

  /** The same for a bishop along a diagonal. */
  lemma BishopAcceptsPastTheEdge(st: State, me: Color, pos: Square, dest: Square)
    requires Valid(st) && InBounds(pos) && !InBounds(dest)
    requires Abs(pos.x - dest.x) == Abs(pos.y - dest.y)
    ensures var v := OrdinalVec(OrdinalDirection(pos, dest));
      BishopMoveLegal(st, me, pos, dest) == Ok(Legal) <==>
        forall k :: 1 <= k && InBounds(Step(pos, v, k)) ==> At(st, Step(pos, v, k)).None?
  {
    var ordinal := OrdinalDirection(pos, dest);
    var v := OrdinalVec(ordinal);
    var n := Abs(pos.x - dest.x);
    OrdinalDirectionOnRay(pos, dest);
    FirstBlockerNoneMeansClearRay(st, pos, v);
    if FirstBlocker(st, pos, v).Some? {
      var d := BlockerDist(st, pos, v, 1);
      if n <= d {
        RayPrefixOnBoard(pos, v, n, d);
      }
      OrdinalBetweenOnRay(pos, ordinal, n, d);
    }
  }

  /** `queen_move_legal`: a rook move along a line, a bishop move along a
      diagonal, and anything else rejected. Both kinds at once would mean
      `pos == dest`, which the assertion excludes. */
  function QueenMoveLegal(st: State, me: Color, pos: Square, dest: Square): (r: Result<Verdict>)
    requires Valid(st) && InBounds(pos) && pos != dest
    ensures r.Raise? ==> r.error == AttributeError && At(st, pos).None?
    ensures At(st, pos).Some? ==> r.Ok?
    ensures r == Ok(Legal) ==> dest.x == pos.x || dest.y == pos.y || Abs(pos.x - dest.x) == Abs(pos.y - dest.y)
  {
    var cardinal := dest.x == pos.x || dest.y == pos.y;
    var ordinal := Abs(pos.x - dest.x) == Abs(pos.y - dest.y);
    if !cardinal && !ordinal then Ok(Illegal(NotStraightOrDiagonal))
    else
      assert cardinal != ordinal;
      if cardinal then RookMoveLegal(st, me, pos, dest) else BishopMoveLegal(st, me, pos, dest)
  }

  /** A queen move is legal iff it is a legal rook slide along a line or a
      legal bishop slide along a diagonal. */
  lemma QueenMoveMeaning(st: State, me: Color, pos: Square, dest: Square)
    requires Valid(st) && InBounds(pos) && InBounds(dest) && pos != dest
    ensures QueenMoveLegal(st, me, pos, dest) == Ok(Legal) <==>
      || ((pos.x == dest.x || pos.y == dest.y)
          && SlideOk(st, me, pos, CardinalVec(CardinalDirection(pos, dest)), TaxicabDist(pos, dest)))
      || (Abs(pos.x - dest.x) == Abs(pos.y - dest.y)
          && SlideOk(st, me, pos, OrdinalVec(OrdinalDirection(pos, dest)), Abs(pos.x - dest.x)))
    ensures At(st, pos).Some? ==> QueenMoveLegal(st, me, pos, dest).Ok?
    ensures !((pos.x == dest.x || pos.y == dest.y) && Abs(pos.x - dest.x) == Abs(pos.y - dest.y))
  {
    if pos.x == dest.x || pos.y == dest.y {
      RookMoveMeaning(st, me, pos, dest);
    } else if Abs(pos.x - dest.x) == Abs(pos.y - dest.y) {
      BishopMoveMeaning(st, me, pos, dest);
    }
  }

  // ---------------------------------------------------------------------
  // Knight and king
  // ---------------------------------------------------------------------

  /** The knight's eight jumps, in the order of the source. */
  const KnightOffsets: seq<Vec> :=
    [Vec(1, 2), Vec(2, 1), Vec(-1, 2), Vec(2, -1), Vec(1, -2), Vec(-2, 1), Vec(-1, -2), Vec(-2, -1)]

  /** The king's eight steps, in the order of the source. */
  const KingOffsets: seq<Vec> :=
    [Vec(1, 1), Vec(1, -1), Vec(-1, 1), Vec(-1, -1), Vec(1, 0), Vec(-1, 0), Vec(0, 1), Vec(0, -1)]

  /** `non_collisional_piece_move_legal`: `dest` must be one of the
      on-board squares the offsets reach from `pos` (compared as a set);
      then an empty square or an enemy piece is legal and a piece of the
      player's colour is not. */
  function NonCollisionalPieceMoveLegal(st: State, me: Color, pos: Square, dest: Square, offsets: seq<Vec>): (r: Result<Verdict>)
    requires Valid(st) && InBounds(pos)
    ensures r.Raise? ==> r.error == AttributeError && At(st, pos).None?
    ensures At(st, pos).Some? ==> r.Ok?
    ensures r == Ok(Legal) <==>
      (exists o :: o in offsets && dest == Shift(pos, o) && InBounds(dest))
      && (At(st, dest).None? || st.arena[At(st, dest).value].color != me)
  {
    if dest in GetTilesFromOffsetPos(pos, offsets) then
      match At(st, dest)
      case None => Ok(Legal)
      case Some(q) => if st.arena[q].color == me then Reject(st, pos, AllyLocation) else Ok(Legal)
    else Reject(st, pos, NotValidMove)
  }

  /** A jumper's move is legal iff `dest` is an on-board square one of the
      offsets reaches and does not hold a piece of the player's colour. */
  lemma NonCollisionalMeaning(st: State, me: Color, pos: Square, dest: Square, offsets: seq<Vec>)
    requires Valid(st) && InBounds(pos)
    ensures NonCollisionalPieceMoveLegal(st, me, pos, dest, offsets) == Ok(Legal) <==>
      && (exists o :: o in offsets && dest == Shift(pos, o))
      && InBounds(dest) && !Friendly(st, dest, me)
    ensures At(st, pos).Some? ==> NonCollisionalPieceMoveLegal(st, me, pos, dest, offsets).Ok?
  {
  }

  /** `knight_move_legal`. */
  function KnightMoveLegal(st: State, me: Color, pos: Square, dest: Square): (r: Result<Verdict>)
    requires Valid(st) && InBounds(pos)
    ensures r.Raise? ==> r.error == AttributeError && At(st, pos).None?
    ensures At(st, pos).Some? ==> r.Ok?
    ensures r == Ok(Legal) ==> exists o :: o in KnightOffsets && dest == Shift(pos, o) && InBounds(dest)
  {
    NonCollisionalPieceMoveLegal(st, me, pos, dest, KnightOffsets)
  }

  /** `king_move_legal`. */
  function KingMoveLegal(st: State, me: Color, pos: Square, dest: Square): (r: Result<Verdict>)
    requires Valid(st) && InBounds(pos)
    ensures r.Raise? ==> r.error == AttributeError && At(st, pos).None?
    ensures At(st, pos).Some? ==> r.Ok?
    ensures r == Ok(Legal) ==> exists o :: o in KingOffsets && dest == Shift(pos, o) && InBounds(dest)
  {
    NonCollisionalPieceMoveLegal(st, me, pos, dest, KingOffsets)
  }

  /** A knight move is legal iff it goes two squares one way and one the
      other, stays on the board, and does not land on the player's own
      piece. */
  lemma KnightMoveMeaning(st: State, me: Color, pos: Square, dest: Square)
    requires Valid(st) && InBounds(pos)
    ensures KnightMoveLegal(st, me, pos, dest) == Ok(Legal) <==>
      && ((Abs(dest.x - pos.x) == 1 && Abs(dest.y - pos.y) == 2) || (Abs(dest.x - pos.x) == 2 && Abs(dest.y - pos.y) == 1))
      && InBounds(dest) && !Friendly(st, dest, me)
  {
    NonCollisionalMeaning(st, me, pos, dest, KnightOffsets);
    var o := Vec(dest.x - pos.x, dest.y - pos.y);
    assert dest == Shift(pos, o);
    if (Abs(o.dx) == 1 && Abs(o.dy) == 2) || (Abs(o.dx) == 2 && Abs(o.dy) == 1) {
      assert o in KnightOffsets;
    }
  }

  /** A king move is legal iff it goes to a neighbouring on-board square
      that does not hold the player's own piece. */
  lemma KingMoveMeaning(st: State, me: Color, pos: Square, dest: Square)
    requires Valid(st) && InBounds(pos)
    ensures KingMoveLegal(st, me, pos, dest) == Ok(Legal) <==>
      && dest != pos && Abs(dest.x - pos.x) <= 1 && Abs(dest.y - pos.y) <= 1
      && InBounds(dest) && !Friendly(st, dest, me)
  {
    NonCollisionalMeaning(st, me, pos, dest, KingOffsets);
    var o := Vec(dest.x - pos.x, dest.y - pos.y);
    assert dest == Shift(pos, o);
    KingOffsetsAreTheNeighbours(o);
  }

  /** The king's offsets are exactly the eight non-zero unit steps. */
  lemma KingOffsetsAreTheNeighbours(o: Vec)
    ensures o in KingOffsets <==> IsUnit(o)
  {
    if IsUnit(o) {
      if o.dx == 1 {
        assert o == KingOffsets[0] || o == KingOffsets[1] || o == KingOffsets[4];
      } else if o.dx == -1 {
        assert o == KingOffsets[2] || o == KingOffsets[3] || o == KingOffsets[5];
      } else {
        assert o == KingOffsets[6] || o == KingOffsets[7];
      }
    }
  }
}

=== FILE: movement_zone.dfy ===
/** The squares a piece may move to (chess/movement_zone.py). Rooks and
    bishops collect, per direction, the tiles up to the first piece met and
    drop that last tile when it holds a piece of their own colour; the
    other four ranks have empty zones as written. The per-direction walks
    `get_all_cardinal_tiles_til_collider` and
    `get_all_ordinal_tiles_til_collider` are imported from
    chess/helpers/legality_helpers.py but not defined there; they are
    specified here as the walk that `get_cardinal_collision` and
    `get_ordinal_collision` perform, returning the tiles it passes. */
module MovementZone {
  import opened Builtins
  import opened Constants
  import opened GeneralHelpers
  import opened Pieces
  import opened Board
  import opened LegalityHelpers
  import opened MoveLegal

  // ---------------------------------------------------------------------
  // Walks to the first collider
  // ---------------------------------------------------------------------

  /** The tiles from step `k` outward along `v` up to and including the
      first occupied square, and whether one was met before the edge. */
  function TilesFrom(st: State, pos: Square, v: Vec, k: int): (r: (seq<Square>, bool))
    requires Valid(st) && InBounds(pos) && IsUnit(v) && 1 <= k
    ensures var d := BlockerDist(st, pos, v, k);
      && (r.1 <==> InBounds(Step(pos, v, d)))
      && |r.0| == (if r.1 then d - k + 1 else d - k)
      && forall i :: 0 <= i < |r.0| ==> r.0[i] == Step(pos, v, k + i)
    decreases 8 - k
  {
    var sq := Step(pos, v, k);
    if !InBounds(sq) then ([], false)
    else if At(st, sq).Some? then ([sq], true)
    else
      RayIsShort(pos, v, k);
      var rest := TilesFrom(st, pos, v, k + 1);
      ([sq] + rest.0, rest.1)
  }

  /** The walk of one direction: all tiles up to the first collider. */
  function TilesTilCollider(st: State, pos: Square, v: Vec): (r: (seq<Square>, bool))
    requires Valid(st) && InBounds(pos) && IsUnit(v)
  {
    TilesFrom(st, pos, v, 1)
  }

  /** `get_all_cardinal_tiles_til_collider`. */
  function GetAllCardinalTilesTilCollider(st: State, pos: Square, cardinal: Cardinal): (r: (seq<Square>, bool))
    requires Valid(st) && InBounds(pos)
  {
    TilesTilCollider(st, pos, CardinalVec(cardinal))
  }

  /** `get_all_ordinal_tiles_til_collider`. */
  function GetAllOrdinalTilesTilCollider(st: State, pos: Square, ordinal: Ordinal): (r: (seq<Square>, bool))
    requires Valid(st) && InBounds(pos)
  {
    TilesTilCollider(st, pos, OrdinalVec(ordinal))
  }

  /** The walk agrees with the collision search: a collider is found iff
      there is a first blocker, and then it is the last tile; all other
      tiles are empty. */
  lemma TilesEndAtCollision(st: State, pos: Square, v: Vec)
    requires Valid(st) && InBounds(pos) && IsUnit(v)
    ensures var (tiles, found) := TilesTilCollider(st, pos, v);
      && (found <==> FirstBlocker(st, pos, v).Some?)
      && (found ==> |tiles| >= 1 && tiles[|tiles| - 1] == FirstBlocker(st, pos, v).value)
      && forall i :: 0 <= i < |tiles| - (if found then 1 else 0) ==> InBounds(tiles[i]) && At(st, tiles[i]).None?
  {
  }

  // ---------------------------------------------------------------------
  // Rook and bishop zones
  // ---------------------------------------------------------------------

  /** One direction's share of a slider's zone: the walk, without its last
      tile when that holds a piece of the slider's colour. */
  function DirZone(st: State, pos: Square, v: Vec, color: Color): seq<Square>
    requires Valid(st) && InBounds(pos) && IsUnit(v)
  {
    var (tiles, found) := TilesTilCollider(st, pos, v);
    if found && Friendly(st, tiles[|tiles| - 1], color) then tiles[..|tiles| - 1] else tiles
  }

  /** One direction's share is exactly the squares 1, 2, ... steps out to
      which the slider may move: each is a legal slide, and every legal
      slide along `v` is among them. */
  lemma DirZoneSpec(st: State, pos: Square, v: Vec, color: Color)
    requires Valid(st) && InBounds(pos) && IsUnit(v)
    ensures var z := DirZone(st, pos, v, color);
      forall i :: 0 <= i < |z| ==> z[i] == Step(pos, v, i + 1) && SlideOk(st, color, pos, v, i + 1)
    ensures forall n :: SlideOk(st, color, pos, v, n) ==> n <= |DirZone(st, pos, v, color)|
  {
    var z := DirZone(st, pos, v, color);
    var (tiles, found) := TilesTilCollider(st, pos, v);
    var d := BlockerDist(st, pos, v, 1);
    forall i | 0 <= i < |z|
      ensures z[i] == Step(pos, v, i + 1) && SlideOk(st, color, pos, v, i + 1)
    {
      assert z[i] == tiles[i];
    }
    forall n | SlideOk(st, color, pos, v, n)
      ensures n <= |z|
    {
      RayPrefixOnBoard(pos, v, n - 1, n);
      ClearPathUpToBlocker(st, pos, v, n);
      if n == d {
        assert tiles[|tiles| - 1] == Step(pos, v, n);
      }
    }
  }

  /** A square `n` steps out is in the direction's share iff the slider may
      move there. */
  lemma DirZoneHit(st: State, pos: Square, v: Vec, color: Color, n: int)
    requires Valid(st) && InBounds(pos) && IsUnit(v) && 1 <= n
    ensures Step(pos, v, n) in DirZone(st, pos, v, color) <==> SlideOk(st, color, pos, v, n)
  {
    var z := DirZone(st, pos, v, color);
    DirZoneSpec(st, pos, v, color);
    if Step(pos, v, n) in z {
      var i :| 0 <= i < |z| && z[i] == Step(pos, v, n);
      StepInjective(pos, v, i + 1, n);
    }
    if SlideOk(st, color, pos, v, n) {
      assert z[n - 1] == Step(pos, v, n);
    }
  }

  /** Every tile of a direction's share is some number of steps out and is
      a legal slide. */
  lemma DirZoneIndex(st: State, pos: Square, v: Vec, color: Color, t: Square) returns (k: int)
    requires Valid(st) && InBounds(pos) && IsUnit(v) && t in DirZone(st, pos, v, color)
    ensures 1 <= k && t == Step(pos, v, k) && SlideOk(st, color, pos, v, k)
  {
    var z := DirZone(st, pos, v, color);
    DirZoneSpec(st, pos, v, color);
    var i :| 0 <= i < |z| && z[i] == t;
    k := i + 1;
  }

  /** The square `k >= 1` steps along a compass direction lies that way. */
  lemma CardinalStepDirection(pos: Square, c: Cardinal, k: int)
    requires 1 <= k
    ensures var t := Step(pos, CardinalVec(c), k);
      && t != pos && (pos.x == t.x || pos.y == t.y)
      && CardinalDirection(pos, t) == c && TaxicabDist(pos, t) == k
  {
  }

  /** The square `k >= 1` steps along a diagonal lies that way. */
  lemma OrdinalStepDirection(pos: Square, o: Ordinal, k: int)
    requires 1 <= k
    ensures var t := Step(pos, OrdinalVec(o), k);
      && t != pos && Abs(pos.x - t.x) == Abs(pos.y - t.y)
      && OrdinalDirection(pos, t) == o && Abs(pos.x - t.x) == k
  {
  }

  /** A rook-like piece: it stands on the board. */
  predicate OnBoard(piece: Piece)
  {
    piece.pos.Some? && InBounds(piece.pos.value)
  }

  /** The union of the four compass shares, in the order N, E, S, W. */
  function CardinalZone(st: State, pos: Square, color: Color): seq<Square>
    requires Valid(st) && InBounds(pos)
  {
    DirZone(st, pos, CardinalVec(N), color) + DirZone(st, pos, CardinalVec(E), color)
    + DirZone(st, pos, CardinalVec(S), color) + DirZone(st, pos, CardinalVec(W), color)
  }

  /** The union of the four diagonal shares, in the order NE, SE, SW, NW. */
  function OrdinalZone(st: State, pos: Square, color: Color): seq<Square>
    requires Valid(st) && InBounds(pos)
  {
    DirZone(st, pos, OrdinalVec(NE), color) + DirZone(st, pos, OrdinalVec(SE), color)
    + DirZone(st, pos, OrdinalVec(SW), color) + DirZone(st, pos, OrdinalVec(NW), color)
  }

  /** `rook_movement_zone`. The walks start from the piece's own square
      attribute. */
  function RookMovementZone(st: State, piece: Piece): (zone: seq<Square>)
    requires Valid(st) && piece.rank == Rook && OnBoard(piece)
    ensures forall t :: t in zone ==> InBounds(t) && t != piece.pos.value && !Friendly(st, t, piece.color)
  {
    CardinalZoneSafe(st, piece.pos.value, piece.color);
    CardinalZone(st, piece.pos.value, piece.color)
  }

  /** `bishop_movement_zone`. */
  function BishopMovementZone(st: State, piece: Piece): (zone: seq<Square>)
    requires Valid(st) && piece.rank == Bishop && OnBoard(piece)
    ensures forall t :: t in zone ==> InBounds(t) && t != piece.pos.value && !Friendly(st, t, piece.color)
  {
    OrdinalZoneSafe(st, piece.pos.value, piece.color);
    OrdinalZone(st, piece.pos.value, piece.color)
  }

  /** A square is in the compass zone iff it shares a file or rank with
      `pos` and a slide there is allowed. */
  lemma CardinalZoneMembers(st: State, pos: Square, color: Color, dest: Square)
    requires Valid(st) && InBounds(pos) && InBounds(dest) && pos != dest
    ensures dest in CardinalZone(st, pos, color) <==>
      && (pos.x == dest.x || pos.y == dest.y)
      && SlideOk(st, color, pos, CardinalVec(CardinalDirection(pos, dest)), TaxicabDist(pos, dest))
  {
    var dirs := [N, E, S, W];
    forall c | c in dirs && dest in DirZone(st, pos, CardinalVec(c), color)
      ensures (pos.x == dest.x || pos.y == dest.y) && CardinalDirection(pos, dest) == c
      ensures SlideOk(st, color, pos, CardinalVec(c), TaxicabDist(pos, dest))
    {
      var k := DirZoneIndex(st, pos, CardinalVec(c), color, dest);
      CardinalStepDirection(pos, c, k);
    }
    assert N in dirs && E in dirs && S in dirs && W in dirs;
    if pos.x == dest.x || pos.y == dest.y {
      var c := CardinalDirection(pos, dest);
      CardinalDirectionOnRay(pos, dest);
      DirZoneHit(st, pos, CardinalVec(c), color, TaxicabDist(pos, dest));
    }
  }

  /** A square is in the diagonal zone iff it shares a diagonal with `pos`
      and a slide there is allowed. */
  lemma OrdinalZoneMembers(st: State, pos: Square, color: Color, dest: Square)
    requires Valid(st) && InBounds(pos) && InBounds(dest) && pos != dest
    ensures dest in OrdinalZone(st, pos, color) <==>
      && Abs(pos.x - dest.x) == Abs(pos.y - dest.y)
      && SlideOk(st, color, pos, OrdinalVec(OrdinalDirection(pos, dest)), Abs(pos.x - dest.x))
  {
    var dirs := [NE, SE, SW, NW];
    forall o | o in dirs && dest in DirZone(st, pos, OrdinalVec(o), color)
      ensures Abs(pos.x - dest.x) == Abs(pos.y - dest.y) && OrdinalDirection(pos, dest) == o
      ensures SlideOk(st, color, pos, OrdinalVec(o), Abs(pos.x - dest.x))
    {
      var k := DirZoneIndex(st, pos, OrdinalVec(o), color, dest);
      OrdinalStepDirection(pos, o, k);
    }
    assert NE in dirs && SE in dirs && SW in dirs && NW in dirs;
    if Abs(pos.x - dest.x) == Abs(pos.y - dest.y) {
      var o := OrdinalDirection(pos, dest);
      OrdinalDirectionOnRay(pos, dest);
      DirZoneHit(st, pos, OrdinalVec(o), color, Abs(pos.x - dest.x));
    }
  }

  /** Every tile of one direction's share is an on-board square other than
      `pos` that holds no piece of the slider's colour. */
  lemma DirZoneSafe(st: State, pos: Square, v: Vec, color: Color, t: Square)
    requires Valid(st) && InBounds(pos) && IsUnit(v) && t in DirZone(st, pos, v, color)
    ensures InBounds(t) && t != pos && !Friendly(st, t, color)
  {
    var k := DirZoneIndex(st, pos, v, color, t);
  }

  /** Every tile of the compass zone is an on-board square other than
      `pos` that holds no piece of the slider's colour. */
  lemma CardinalZoneSafe(st: State, pos: Square, color: Color)
    requires Valid(st) && InBounds(pos)
    ensures forall t :: t in CardinalZone(st, pos, color) ==> InBounds(t) && t != pos && !Friendly(st, t, color)
  {
    var zn, ze := DirZone(st, pos, CardinalVec(N), color), DirZone(st, pos, CardinalVec(E), color);
    var zs, zw := DirZone(st, pos, CardinalVec(S), color), DirZone(st, pos, CardinalVec(W), color);
    assert CardinalZone(st, pos, color) == zn + ze + zs + zw;
    forall t | t in zn + ze + zs + zw
      ensures InBounds(t) && t != pos && !Friendly(st, t, color)
    {
      if t in zn { DirZoneSafe(st, pos, CardinalVec(N), color, t); }
      else if t in ze { DirZoneSafe(st, pos, CardinalVec(E), color, t); }
      else if t in zs { DirZoneSafe(st, pos, CardinalVec(S), color, t); }
      else { DirZoneSafe(st, pos, CardinalVec(W), color, t); }
    }
  }

  /** Every tile of the diagonal zone is an on-board square other than
      `pos` that holds no piece of the slider's colour. */
  lemma OrdinalZoneSafe(st: State, pos: Square, color: Color)
    requires Valid(st) && InBounds(pos)
    ensures forall t :: t in OrdinalZone(st, pos, color) ==> InBounds(t) && t != pos && !Friendly(st, t, color)
  {
    var zne, zse := DirZone(st, pos, OrdinalVec(NE), color), DirZone(st, pos, OrdinalVec(SE), color);
    var zsw, znw := DirZone(st, pos, OrdinalVec(SW), color), DirZone(st, pos, OrdinalVec(NW), color);
    assert OrdinalZone(st, pos, color) == zne + zse + zsw + znw;
    forall t | t in zne + zse + zsw + znw
      ensures InBounds(t) && t != pos && !Friendly(st, t, color)
    {
      if t in zne { DirZoneSafe(st, pos, OrdinalVec(NE), color, t); }
      else if t in zse { DirZoneSafe(st, pos, OrdinalVec(SE), color, t); }
      else if t in zsw { DirZoneSafe(st, pos, OrdinalVec(SW), color, t); }
      else { DirZoneSafe(st, pos, OrdinalVec(NW), color, t); }
    }
  }

  /** A square other than the rook's is in its zone iff `rook_move_legal`
      accepts the move for the rook's own colour. */
  lemma RookZoneAgreesWithMoveLegal(st: State, piece: Piece, dest: Square)
    requires Valid(st) && piece.rank == Rook && OnBoard(piece)
    requires InBounds(dest) && dest != piece.pos.value
    ensures dest in RookMovementZone(st, piece) <==>
      RookMoveLegal(st, piece.color, piece.pos.value, dest) == Ok(Legal)
  {
    var pos := piece.pos.value;
    CardinalZoneMembers(st, pos, piece.color, dest);
    if pos.x == dest.x || pos.y == dest.y {
      RookMoveMeaning(st, piece.color, pos, dest);
    }
  }

  /** A square other than the bishop's is in its zone iff
      `bishop_move_legal` accepts the move for the bishop's own colour. */
  lemma BishopZoneAgreesWithMoveLegal(st: State, piece: Piece, dest: Square)
    requires Valid(st) && piece.rank == Bishop && OnBoard(piece)
    requires InBounds(dest) && dest != piece.pos.value
    ensures dest in BishopMovementZone(st, piece) <==>
      BishopMoveLegal(st, piece.color, piece.pos.value, dest) == Ok(Legal)
  {
    var pos := piece.pos.value;
    OrdinalZoneMembers(st, pos, piece.color, dest);
    if Abs(pos.x - dest.x) == Abs(pos.y - dest.y) {
      BishopMoveMeaning(st, piece.color, pos, dest);
    }
  }

  // ---------------------------------------------------------------------
  // A piece alone on the board
  // ---------------------------------------------------------------------

  /** Every square but `pos` is empty. */
  ghost predicate Alone(st: State, pos: Square)
    requires Valid(st)
  {
    forall sq :: InBounds(sq) && sq != pos ==> At(st, sq).None?
  }

  /** Alone on the board, a slider may move to every on-board square of a
      ray, so a direction's share runs to the edge. */
  lemma AloneDirZone(st: State, pos: Square, v: Vec, color: Color)
    requires Valid(st) && InBounds(pos) && IsUnit(v) && Alone(st, pos)
    ensures forall n :: 1 <= n && InBounds(Step(pos, v, n)) ==> SlideOk(st, color, pos, v, n)
    ensures var z := DirZone(st, pos, v, color);
      InBounds(Step(pos, v, |z|)) && !InBounds(Step(pos, v, |z| + 1))
  {
    forall n | 1 <= n && InBounds(Step(pos, v, n))
      ensures SlideOk(st, color, pos, v, n)
    {
      forall j | 1 <= j < n
        ensures InBounds(Step(pos, v, j)) && At(st, Step(pos, v, j)).None?
      {
        RayPrefixOnBoard(pos, v, j, n);
      }
    }
    var z := DirZone(st, pos, v, color);
    DirZoneSpec(st, pos, v, color);
    if |z| > 0 {
      assert z[|z| - 1] == Step(pos, v, |z|);
    }
  }

  /** A lone rook's zone is exactly the squares sharing its file or its
      rank. */
  lemma LoneRookZone(st: State, piece: Piece)
    requires Valid(st) && piece.rank == Rook && OnBoard(piece) && Alone(st, piece.pos.value)
    ensures forall sq :: sq in RookMovementZone(st, piece) <==>
      InBounds(sq) && sq != piece.pos.value && (sq.x == piece.pos.value.x || sq.y == piece.pos.value.y)
  {
    var pos := piece.pos.value;
    CardinalZoneSafe(st, pos, piece.color);
    forall sq | InBounds(sq) && sq != pos && (sq.x == pos.x || sq.y == pos.y)
      ensures sq in RookMovementZone(st, piece)
    {
      CardinalZoneMembers(st, pos, piece.color, sq);
      CardinalDirectionOnRay(pos, sq);
      AloneDirZone(st, pos, CardinalVec(CardinalDirection(pos, sq)), piece.color);
    }
    forall sq | sq in RookMovementZone(st, piece)
      ensures sq.x == pos.x || sq.y == pos.y
    {
      CardinalZoneMembers(st, pos, piece.color, sq);
    }
  }

  /** Those squares are 14: each direction's share runs to the edge. */
  lemma LoneRookZoneSize(st: State, piece: Piece)
    requires Valid(st) && piece.rank == Rook && OnBoard(piece) && Alone(st, piece.pos.value)
    ensures |RookMovementZone(st, piece)| == 14
  {
    var pos := piece.pos.value;
    AloneCardinalLength(st, pos, N, piece.color);
    AloneCardinalLength(st, pos, E, piece.color);
    AloneCardinalLength(st, pos, S, piece.color);
    AloneCardinalLength(st, pos, W, piece.color);
  }

  /** Alone on the board, a compass share holds every square up to the
      edge. */
  lemma AloneCardinalLength(st: State, pos: Square, c: Cardinal, color: Color)
    requires Valid(st) && InBounds(pos) && Alone(st, pos)
    ensures |DirZone(st, pos, CardinalVec(c), color)| ==
      match c
      case N => 8 - pos.y
      case E => 8 - pos.x
      case S => pos.y - 1
      case W => pos.x - 1
  {
    AloneDirZone(st, pos, CardinalVec(c), color);
  }

  /** A lone bishop's zone is exactly the squares on its two diagonals. */
  lemma LoneBishopZone(st: State, piece: Piece)
    requires Valid(st) && piece.rank == Bishop && OnBoard(piece) && Alone(st, piece.pos.value)
    ensures forall sq :: sq in BishopMovementZone(st, piece) <==>
      InBounds(sq) && sq != piece.pos.value && Abs(sq.x - piece.pos.value.x) == Abs(sq.y - piece.pos.value.y)
  {
    var pos := piece.pos.value;
    OrdinalZoneSafe(st, pos, piece.color);
    forall sq | InBounds(sq) && sq != pos && Abs(sq.x - pos.x) == Abs(sq.y - pos.y)
      ensures sq in BishopMovementZone(st, piece)
    {
      OrdinalZoneMembers(st, pos, piece.color, sq);
      OrdinalDirectionOnRay(pos, sq);
      AloneDirZone(st, pos, OrdinalVec(OrdinalDirection(pos, sq)), piece.color);
    }
    forall sq | sq in BishopMovementZone(st, piece)
      ensures Abs(sq.x - pos.x) == Abs(sq.y - pos.y)
    {
      OrdinalZoneMembers(st, pos, piece.color, sq);
    }
  }

  // ---------------------------------------------------------------------
  // Stubs and dispatch
  // ---------------------------------------------------------------------

  /** `pawn_movement_zone`, a stub. */
  function PawnMovementZone(st: State, piece: Piece): seq<Square>
    requires piece.rank == Pawn
  {
    []
  }

  /** `queen_movement_zone`, a stub. */
  function QueenMovementZone(st: State, piece: Piece): seq<Square>
    requires piece.rank == Queen
  {
    []
  }

  /** `knight_movement_zone`, a stub. */
  function KnightMovementZone(st: State, piece: Piece): seq<Square>
    requires piece.rank == Knight
  {
    []
  }

  /** `king_movement_zone`, a stub. */
  function KingMovementZone(st: State, piece: Piece): seq<Square>
    requires piece.rank == King
  {
    []
  }

  /** `get_movement_zone`: dispatches on the rank. Every rank is one of the
      six, so the final `raise` cannot be reached. Whatever the rank, the
      zone holds on-board squares other than the piece's own and none of
      its own colour. */
  function GetMovementZone(st: State, piece: Piece): (z: seq<Square>)
    requires Valid(st)
    requires piece.rank == Rook || piece.rank == Bishop ==> OnBoard(piece)
    ensures forall t :: t in z ==> InBounds(t) && Some(t) != piece.pos && !Friendly(st, t, piece.color)
  {
    match piece.rank
    case Pawn => PawnMovementZone(st, piece)
    case Rook =>
      CardinalZoneSafe(st, piece.pos.value, piece.color);
      RookMovementZone(st, piece)
    case Bishop =>
      OrdinalZoneSafe(st, piece.pos.value, piece.color);
      BishopMovementZone(st, piece)
    case Knight => KnightMovementZone(st, piece)
    case Queen => QueenMovementZone(st, piece)
    case King => KingMovementZone(st, piece)
  }

  /** `get_movement_zone` applied to what `board.get_piece` returns: on a
      blank square that is `None`, and reading its `rank` raises
      `AttributeError`; a piece gets its zone. */
  function GetMovementZoneOf(st: State, piece: Option<Piece>): (r: Result<seq<Square>>)
    requires Valid(st)
    requires piece.Some? && (piece.value.rank == Rook || piece.value.rank == Bishop) ==> OnBoard(piece.value)
    ensures r.Raise? <==> piece.None?
    ensures r.Raise? ==> r.error == AttributeError
    ensures r.Ok? ==> forall t :: t in r.value ==>
      InBounds(t) && Some(t) != piece.value.pos && !Friendly(st, t, piece.value.color)
  {
    match piece
    case None => Raise(AttributeError)
    case Some(p) => Ok(GetMovementZone(st, p))
  }

  /** Asking for the zone of a blank square raises rather than returning an
      empty zone. */
  lemma BlankSquareZoneRaises(st: State, pos: Square)
    requires Valid(st) && InBounds(pos) && At(st, pos).None?
    ensures GetMovementZoneOf(st, PieceAt(st, pos)) == Raise(AttributeError)
  {
  }

  /** As written, pawns, knights, queens and kings never have a zone, even
      where their checkers accept moves. */
  lemma StubZonesEmpty(st: State, piece: Piece)
    requires Valid(st) && piece.rank != Rook && piece.rank != Bishop
    ensures GetMovementZone(st, piece) == []
  {
  }

  /** For a rook or a bishop, the zone `get_movement_zone` returns is
      exactly the set of squares the rank's checker accepts. */
  lemma GetMovementZoneAgreesWithMoveLegal(st: State, piece: Piece, dest: Square)
    requires Valid(st) && (piece.rank == Rook || piece.rank == Bishop) && OnBoard(piece)
    requires InBounds(dest) && dest != piece.pos.value
    ensures piece.rank == Rook ==>
      (dest in GetMovementZone(st, piece) <==> RookMoveLegal(st, piece.color, piece.pos.value, dest) == Ok(Legal))
    ensures piece.rank == Bishop ==>
      (dest in GetMovementZone(st, piece) <==> BishopMoveLegal(st, piece.color, piece.pos.value, dest) == Ok(Legal))
  {
    if piece.rank == Rook {
      RookZoneAgreesWithMoveLegal(st, piece, dest);
    } else {
      BishopZoneAgreesWithMoveLegal(st, piece, dest);
    }
  }
}

=== FILE: piece.dfy ===
/** A chess piece and the derivation of its identity code from the rank and
    the square it was created on (chess/piece.py). */
module Pieces {
  import opened Builtins
  import opened Constants
  import opened GeneralHelpers

  /** A piece: colour, rank, current square (`None` once captured) and the
      name fixed at construction. `str(piece)` is `name`. The owning player
      is the one of the piece's colour; there is no back-reference. */
  datatype Piece = Piece(color: Color, rank: Rank, pos: Option<Square>, name: string)

  /** `algebraic_converter`: the file letter from the table followed by
      `str(rank)`. Only the file is checked (a `KeyError` outside 1..8), so
      off-board ranks still convert. */
  function AlgebraicConverter(pos: Square): (r: Result<string>)
    ensures r.Ok? <==> 1 <= pos.x <= 8
    ensures r.Ok? ==> |r.value| >= 2
  {
    if pos.x in CToA then Ok([CToA[pos.x]] + IntToString(pos.y)) else Raise(KeyError)
  }

  /** On the board, `algebraic_converter` is the coordinate-to-string half
      of `algebraic_uniconverter`: the file letter A..H, then the rank digit. */
  lemma AlgebraicConverterAgrees(pos: Square)
    requires 1 <= pos.x <= 8
    ensures 'A' <= AlgebraicConverter(pos).value[0] <= 'H'
    ensures InBounds(pos) ==> AlgebraicConverter(pos) == CoordToAlgebraic([pos.x, pos.y])
  {
    FileTablesAreInverse();
  }

  /** The rank letter exactly as line 15 computes it: the first character
      of the rank is compared with the whole string 'KNIGHT', which never
      matches, so the 'N' branch is dead. */
  function RankLetterAsWritten(rank: Rank): (ch: char)
    ensures ch == RankName(rank)[0]
  {
    var first := RankName(rank)[0];
    if [first] != "KNIGHT" then first else 'N'
  }

  /** The rank letter the comment on line 17 promises: 'N' for knights and
      the initial of the rank otherwise. It is the letter
      `convert_letter_to_rank` reads back. */
  function RankLetter(rank: Rank): (ch: char)
    ensures ConvertLetterToRank(ch) == Ok(rank)
  {
    if rank == Knight then 'N' else RankName(rank)[0]
  }

  /** As written, a knight is lettered like a king, and reading its letter
      back yields KING. */
  lemma KnightLetteredAsKing()
    ensures RankLetterAsWritten(Knight) == 'K' == RankLetterAsWritten(King)
    ensures ConvertLetterToRank(RankLetterAsWritten(Knight)) == Ok(King)
    ensures RankLetter(Knight) == 'N'
  {
  }

  /** The name `Piece.__init__` builds, as written. */
  function PieceNameAsWritten(rank: Rank, pos: Square): (name: string)
    requires 1 <= pos.x <= 8
  {
    [RankLetterAsWritten(rank)] + "-" + AlgebraicConverter(pos).value
  }

  /** As written, a name is the first character of the rank string, '-',
      then the algebraic start square. */
  lemma PieceNameAsWrittenShape(rank: Rank, pos: Square)
    requires 1 <= pos.x <= 8
    ensures var name := PieceNameAsWritten(rank, pos);
      |name| >= 4 && name[0] == RankName(rank)[0] && name[1] == '-'
      && name[2..] == AlgebraicConverter(pos).value
  {
  }

  /** The intended name: rank letter, '-', then the algebraic start square. */
  function PieceName(rank: Rank, pos: Square): (name: string)
    requires 1 <= pos.x <= 8
    ensures InBounds(pos) ==> |name| == 4 && name[1] == '-'
  {
    [RankLetter(rank)] + "-" + AlgebraicConverter(pos).value
  }

  /** A name reads back: its letter gives the rank and its last two
      characters convert to the start square. */
  lemma PieceNameReadsBack(rank: Rank, pos: Square)
    requires InBounds(pos)
    ensures ConvertLetterToRank(PieceName(rank, pos)[0]) == Ok(rank)
    ensures AlgebraicUniconverter(Text(PieceName(rank, pos)[2..])) == Ok(Coords([pos.x, pos.y]))
  {
    CoordsRoundTrip(pos.x, pos.y);
    AlgebraicConverterAgrees(pos);
    assert PieceName(rank, pos)[2..] == AlgebraicConverter(pos).value;
  }

  /** The two letter rules: the one line 15 implements, which letters a
      knight 'K', and the one the comment on line 17 promises. */
  datatype Naming = AsWritten | Intended

  /** The name a piece created on `pos` gets under the rule `n`. */
  function NameOf(n: Naming, rank: Rank, pos: Square): string
    requires 1 <= pos.x <= 8
  {
    if n == AsWritten then PieceNameAsWritten(rank, pos) else PieceName(rank, pos)
  }

  /** The two rules differ only on knights. */
  lemma NamingsAgreeOffKnights(rank: Rank, pos: Square)
    requires 1 <= pos.x <= 8
    ensures NameOf(AsWritten, rank, pos) == NameOf(Intended, rank, pos) <==> rank != Knight
  {
    if rank == Knight {
      assert NameOf(AsWritten, rank, pos)[0] == 'K' != 'N' == NameOf(Intended, rank, pos)[0];
    }
  }

  /** `Piece(color, rank, pos)`: a missing square raises `TypeError` inside
      `algebraic_converter`, an off-board file raises `KeyError`; otherwise
      the name is derived once from the start square, under the letter rule
      `naming` (`AsWritten` is the constructor of piece.py). */
  function NewPiece(color: Color, rank: Rank, pos: Option<Square>, naming: Naming): (r: Result<Piece>)
    ensures r.Ok? <==> pos.Some? && 1 <= pos.value.x <= 8
    ensures r.Ok? ==> r.value.color == color && r.value.rank == rank && r.value.pos == pos
    ensures r.Ok? ==> |r.value.name| >= 4
    ensures r.Ok? && InBounds(pos.value) ==> |r.value.name| == 4
    ensures r.Ok? ==> r.value.name[1..] == "-" + AlgebraicConverter(pos.value).value
    ensures r.Ok? && naming == Intended ==> ConvertLetterToRank(r.value.name[0]) == Ok(rank)
    ensures r.Ok? && naming == AsWritten ==> r.value.name[0] == RankName(rank)[0]
  {
    if pos.None? then Raise(TypeError)
    else if !(1 <= pos.value.x <= 8) then Raise(KeyError)
    else
      PieceNameAsWrittenShape(rank, pos.value);
      Ok(Piece(color, rank, pos, NameOf(naming, rank, pos.value)))
  }

  /** As written, a white knight created on B1 is named `K-B1`; under the
      intended rule it is `N-B1`. */
  lemma NewKnightOnB1()
    ensures NewPiece(White, Knight, Some(Square(2, 1)), AsWritten).value.name == "K-B1"
    ensures NewPiece(White, Knight, Some(Square(2, 1)), Intended).value.name == "N-B1"
  {
    assert AlgebraicConverter(Square(2, 1)).value == "B1";
  }

  /** Distinct (rank, on-board start square) pairs get distinct names, so a
      name identifies both the rank and the start square. */
  lemma PieceNameInjective(r1: Rank, a: Square, r2: Rank, b: Square)
    requires InBounds(a) && InBounds(b)
    requires PieceName(r1, a) == PieceName(r2, b)
    ensures r1 == r2 && a == b
  {
    PieceNameReadsBack(r1, a);
    PieceNameReadsBack(r2, b);
    var na, nb := PieceName(r1, a), PieceName(r2, b);
    assert na[0] == nb[0];
    assert na[2..] == nb[2..];
    assert Coords([a.x, a.y]) == Coords([b.x, b.y]);
    assert [a.x, a.y][0] == [b.x, b.y][0];
    assert [a.x, a.y][1] == [b.x, b.y][1];
  }

  /** As written the name still pins down the start square; only the rank
      letter is ambiguous. */
  lemma PieceNameAsWrittenFixesSquare(r1: Rank, a: Square, r2: Rank, b: Square)
    requires InBounds(a) && InBounds(b)
    requires PieceNameAsWritten(r1, a) == PieceNameAsWritten(r2, b)
    ensures a == b
  {
    var na, nb := PieceNameAsWritten(r1, a), PieceNameAsWritten(r2, b);
    AlgebraicConverterAgrees(a);
    AlgebraicConverterAgrees(b);
    var ta, tb := AlgebraicConverter(a).value, AlgebraicConverter(b).value;
    assert na[2..] == ta && nb[2..] == tb;
    assert ta[0] == tb[0] && ta[1] == tb[1];
  }

  /** Under either rule a name fixes the start square. */
  lemma NameFixesSquare(n: Naming, r1: Rank, a: Square, r2: Rank, b: Square)
    requires InBounds(a) && InBounds(b)
    requires NameOf(n, r1, a) == NameOf(n, r2, b)
    ensures a == b
  {
    if n == AsWritten {
      PieceNameAsWrittenFixesSquare(r1, a, r2, b);
    } else {
      PieceNameInjective(r1, a, r2, b);
    }
  }

  /** The discrepancy on a board square: as written a knight and a king
      created on the same square share a name, which the intended naming
      keeps apart. */
  lemma KnightAndKingNamesCollideAsWritten(sq: Square)
    requires InBounds(sq)
    ensures PieceNameAsWritten(Knight, sq) == PieceNameAsWritten(King, sq)
    ensures PieceName(Knight, sq) != PieceName(King, sq)
    ensures PieceNameAsWritten(Knight, Square(2, 1)) == "K-B1"
  {
    var n1, n2 := PieceName(Knight, sq), PieceName(King, sq);
    assert n1[0] == 'N' && n2[0] == 'K';
    assert AlgebraicConverter(Square(2, 1)).value == "B1";
  }
}

=== FILE: player.dfy ===
/** The initial piece collection of one player (chess/player.py). */
module Player {
  import opened Builtins
  import opened Constants
  import opened GeneralHelpers
  import opened Pieces

  /** The back-rank order from file 1 to file 8, king on file 4 and queen on
      file 5. */
  const MainRow: seq<Rank> := [Rook, Knight, Bishop, King, Queen, Bishop, Knight, Rook]

  /** The rank of the back-rank piece on file `f`. */
  function MainRank(f: int): Rank
    requires 1 <= f <= 8
  {
    MainRow[f - 1]
  }

  /** The rank of the player's pieces: 1 for white, 8 for black. */
  function MainRowPos(c: Color): int
  {
    if c == White then 1 else 8
  }

  /** The rank of the player's pawns: 2 for white, 7 for black. */
  function PawnRowPos(c: Color): int
  {
    if c == White then 2 else 7
  }

  /** The pawn `collect_pieces` creates on file `f`, named under `n`. */
  function StartPawn(c: Color, f: int, n: Naming): Piece
    requires 1 <= f <= 8
  {
    var sq := Square(f, PawnRowPos(c));
    Piece(c, Pawn, Some(sq), NameOf(n, Pawn, sq))
  }

  /** The back-rank piece `collect_pieces` creates on file `f`, named
      under `n`. */
  function StartMain(c: Color, f: int, n: Naming): Piece
    requires 1 <= f <= 8
  {
    var sq := Square(f, MainRowPos(c));
    Piece(c, MainRank(f), Some(sq), NameOf(n, MainRank(f), sq))
  }

  /** The starting pieces are exactly what `Piece(color, rank, pos)`
      builds for their rank and square, under the same letter rule. */
  lemma StartPiecesAreNewPieces(c: Color, f: int, n: Naming)
    requires 1 <= f <= 8
    ensures NewPiece(c, Pawn, Some(Square(f, PawnRowPos(c))), n) == Ok(StartPawn(c, f, n))
    ensures NewPiece(c, MainRank(f), Some(Square(f, MainRowPos(c))), n) == Ok(StartMain(c, f, n))
  {
  }

  /** `p` is one of the first `k` files' pawn or back-rank piece of colour
      `c`; its file is the file of its square. */
  predicate CollectedBy(c: Color, k: int, n: Naming, p: Piece)
  {
    && p.pos.Some? && 1 <= p.pos.value.x <= k && p.pos.value.x <= 8
    && (p == StartPawn(c, p.pos.value.x, n) || p == StartMain(c, p.pos.value.x, n))
  }

  /** The names of different starting pieces differ under either letter
      rule: a name fixes its start square, and no two starting pieces share
      a square. */
  lemma StartNamesDistinct(c: Color, f: int, g: int, n: Naming)
    requires 1 <= f <= 8 && 1 <= g <= 8
    ensures StartPawn(c, f, n).name != StartMain(c, g, n).name
    ensures f != g ==> StartPawn(c, f, n).name != StartPawn(c, g, n).name
    ensures f != g ==> StartMain(c, f, n).name != StartMain(c, g, n).name
  {
    var pf, pg := Square(f, PawnRowPos(c)), Square(g, PawnRowPos(c));
    var mf, mg := Square(f, MainRowPos(c)), Square(g, MainRowPos(c));
    if NameOf(n, Pawn, pf) == NameOf(n, MainRank(g), mg) {
      NameFixesSquare(n, Pawn, pf, MainRank(g), mg);
    }
    if f != g && NameOf(n, Pawn, pf) == NameOf(n, Pawn, pg) {
      NameFixesSquare(n, Pawn, pf, Pawn, pg);
    }
    if f != g && NameOf(n, MainRank(f), mf) == NameOf(n, MainRank(g), mg) {
      NameFixesSquare(n, MainRank(f), mf, MainRank(g), mg);
    }
  }

  /** The pawns and back-rank pieces by file, as functions, so that the
      dictionary reasoning below sees only that their names differ. */
  function Pawns(c: Color, n: Naming): int -> Piece
  {
    f => if 1 <= f <= 8 then StartPawn(c, f, n) else StartPawn(c, 1, n)
  }

  function Mains(c: Color, n: Naming): int -> Piece
  {
    f => if 1 <= f <= 8 then StartMain(c, f, n) else StartMain(c, 1, n)
  }

  /** No two pieces of a roster share a name. */
  predicate RosterDistinct(pawnOf: int -> Piece, mainOf: int -> Piece)
  {
    forall f, g :: 1 <= f <= 8 && 1 <= g <= 8 ==>
      && pawnOf(f).name != mainOf(g).name
      && (f != g ==> pawnOf(f).name != pawnOf(g).name && mainOf(f).name != mainOf(g).name)
  }

  /** The starting roster has sixteen different names under either rule. */
  lemma StartRosterDistinct(c: Color, n: Naming)
    ensures RosterDistinct(Pawns(c, n), Mains(c, n))
  {
    forall f, g | 1 <= f <= 8 && 1 <= g <= 8
      ensures Pawns(c, n)(f).name != Mains(c, n)(g).name
      ensures f != g ==> Pawns(c, n)(f).name != Pawns(c, n)(g).name && Mains(c, n)(f).name != Mains(c, n)(g).name
    {
      StartNamesDistinct(c, f, g, n);
    }
  }

  /** `p` is the pawn or back-rank piece of one of the first `k` files. */
  predicate InRoster(pawnOf: int -> Piece, mainOf: int -> Piece, k: int, p: Piece)
  {
    exists f :: 1 <= f <= k && (p == pawnOf(f) || p == mainOf(f))
  }

  /** `pieces` is what `collect_pieces` holds after the first `k` files:
      those files' pawns and back-rank pieces, each under its own name. */
  predicate Collected(pawnOf: int -> Piece, mainOf: int -> Piece, k: int, pieces: map<string, Piece>)
    requires 0 <= k <= 8
  {
    && |pieces| == 2 * k
    && (forall f :: 1 <= f <= k ==> pawnOf(f).name in pieces && pieces[pawnOf(f).name] == pawnOf(f))
    && (forall f :: 1 <= f <= k ==> mainOf(f).name in pieces && pieces[mainOf(f).name] == mainOf(f))
    && (forall name :: name in pieces ==> pieces[name].name == name && InRoster(pawnOf, mainOf, k, pieces[name]))
  }

  /** No entry after `i` files carries the name of a piece of file `i + 1`. */
  lemma NotCollectedYet(pawnOf: int -> Piece, mainOf: int -> Piece, i: int, pieces: map<string, Piece>, name: string)
    requires 0 <= i < 8 && RosterDistinct(pawnOf, mainOf) && Collected(pawnOf, mainOf, i, pieces)
    requires name in pieces
    ensures name != pawnOf(i + 1).name && name != mainOf(i + 1).name
  {
    var p := pieces[name];
    var f :| 1 <= f <= i && (p == pawnOf(f) || p == mainOf(f));
    assert p.name == name;
  }

  /** One iteration of the loop adds two fresh names and keeps every
      earlier entry. */
  lemma CollectStep(pawnOf: int -> Piece, mainOf: int -> Piece, i: int, pieces: map<string, Piece>)
    requires 0 <= i < 8 && RosterDistinct(pawnOf, mainOf) && Collected(pawnOf, mainOf, i, pieces)
    ensures Collected(pawnOf, mainOf, i + 1, pieces[pawnOf(i + 1).name := pawnOf(i + 1)][mainOf(i + 1).name := mainOf(i + 1)])
  {
    var pawn, main := pawnOf(i + 1), mainOf(i + 1);
    if pawn.name in pieces {
      NotCollectedYet(pawnOf, mainOf, i, pieces, pawn.name);
    }
    if main.name in pieces {
      NotCollectedYet(pawnOf, mainOf, i, pieces, main.name);
    }
    assert pawn.name != main.name;
    StepEntries(pawnOf, mainOf, i, pieces);
    StepKeys(pawnOf, mainOf, i, pieces);
  }

  /** Storing two pieces under other names keeps an entry. */
  lemma KeepEntry(m: map<string, Piece>, k: string, v: Piece, a: Piece, b: Piece)
    requires k in m && m[k] == v && k != a.name && k != b.name
    ensures k in m[a.name := a][b.name := b] && m[a.name := a][b.name := b][k] == v
  {
  }

  /** After an iteration every file up to `i + 1` has both its entries. */
  lemma StepEntries(pawnOf: int -> Piece, mainOf: int -> Piece, i: int, pieces: map<string, Piece>)
    requires 0 <= i < 8 && RosterDistinct(pawnOf, mainOf) && Collected(pawnOf, mainOf, i, pieces)
    ensures var next := pieces[pawnOf(i + 1).name := pawnOf(i + 1)][mainOf(i + 1).name := mainOf(i + 1)];
      && (forall f :: 1 <= f <= i + 1 ==> pawnOf(f).name in next && next[pawnOf(f).name] == pawnOf(f))
      && (forall f :: 1 <= f <= i + 1 ==> mainOf(f).name in next && next[mainOf(f).name] == mainOf(f))
  {
    var pawn, main := pawnOf(i + 1), mainOf(i + 1);
    var next := pieces[pawn.name := pawn][main.name := main];
    forall f | 1 <= f <= i + 1
      ensures pawnOf(f).name in next && next[pawnOf(f).name] == pawnOf(f)
    {
      assert pawnOf(f).name != main.name;
      if f <= i {
        assert pawnOf(f).name != pawn.name;
        KeepEntry(pieces, pawnOf(f).name, pawnOf(f), pawn, main);
      }
    }
    forall f | 1 <= f <= i + 1
      ensures mainOf(f).name in next && next[mainOf(f).name] == mainOf(f)
    {
      if f <= i {
        assert mainOf(f).name != pawn.name && mainOf(f).name != main.name;
        KeepEntry(pieces, mainOf(f).name, mainOf(f), pawn, main);
      }
    }
  }

  /** After an iteration every entry is a roster piece under its own name. */
  lemma StepKeys(pawnOf: int -> Piece, mainOf: int -> Piece, i: int, pieces: map<string, Piece>)
    requires 0 <= i < 8 && Collected(pawnOf, mainOf, i, pieces)
    ensures var next := pieces[pawnOf(i + 1).name := pawnOf(i + 1)][mainOf(i + 1).name := mainOf(i + 1)];
      forall name :: name in next ==> next[name].name == name && InRoster(pawnOf, mainOf, i + 1, next[name])
  {
    var pawn, main := pawnOf(i + 1), mainOf(i + 1);
    var next := pieces[pawn.name := pawn][main.name := main];
    forall name | name in next
      ensures next[name].name == name && InRoster(pawnOf, mainOf, i + 1, next[name])
    {
      if name == main.name {
        assert next[name] == mainOf(i + 1);
      } else if name == pawn.name {
        assert next[name] == pawnOf(i + 1);
      } else {
        assert next[name] == pieces[name];
        var f :| 1 <= f <= i && (pieces[name] == pawnOf(f) || pieces[name] == mainOf(f));
      }
    }
  }

  /** The loop of `collect_pieces` over any roster with distinct names: file
      by file, the pawn and then the back-rank piece are stored under their
      names. */
  method InsertRoster(pawnOf: int -> Piece, mainOf: int -> Piece) returns (pieces: map<string, Piece>)
    requires RosterDistinct(pawnOf, mainOf)
    ensures Collected(pawnOf, mainOf, 8, pieces)
  {
    pieces := map[];
    var i := 0;
    while i < 8
      invariant 0 <= i <= 8
      invariant Collected(pawnOf, mainOf, i, pieces)
    {
      CollectStep(pawnOf, mainOf, i, pieces);
      var pawn := pawnOf(i + 1);
      pieces := pieces[pawn.name := pawn];
      var main := mainOf(i + 1);
      pieces := pieces[main.name := main];
      i := i + 1;
    }
  }

  /** Every entry of the initial roster is a starting piece of its colour,
      on its own file. */
  lemma RosterIsCollected(c: Color, n: Naming, p: Piece)
    requires InRoster(Pawns(c, n), Mains(c, n), 8, p)
    ensures p.color == c && CollectedBy(c, 8, n, p)
  {
    var f :| 1 <= f <= 8 && (p == Pawns(c, n)(f) || p == Mains(c, n)(f));
    assert p.pos.value.x == f;
  }

  /** Every starting piece stands on the board, and it is a pawn iff it
      stands on the pawn row. */
  lemma StartPiecesPlaced(color: Color, n: Naming, p: Piece)
    requires CollectedBy(color, 8, n, p)
    ensures p.pos.Some? && InBounds(p.pos.value)
    ensures p.rank == Pawn <==> p.pos.value.y == PawnRowPos(color)
  {
    assert MainRank(p.pos.value.x) != Pawn;
  }

  /** `collect_pieces`: for each file one pawn on the pawn row and one piece
      of the back-rank order on the main row, each keyed by its own name.
      No two names collide under either letter rule, so the dictionary ends
      with 16 entries; `CollectPieces(color, AsWritten)` is the method of
      player.py, whose knight keys begin with 'K'. */
  method CollectPieces(color: Color, n: Naming) returns (pieces: map<string, Piece>)
    ensures |pieces| == 16
    ensures forall f :: 1 <= f <= 8 ==>
      StartPawn(color, f, n).name in pieces && pieces[StartPawn(color, f, n).name] == StartPawn(color, f, n)
    ensures forall f :: 1 <= f <= 8 ==>
      StartMain(color, f, n).name in pieces && pieces[StartMain(color, f, n).name] == StartMain(color, f, n)
    ensures forall name :: name in pieces ==>
      pieces[name].name == name && pieces[name].color == color && CollectedBy(color, 8, n, pieces[name])
  {
    StartRosterDistinct(color, n);
    pieces := InsertRoster(Pawns(color, n), Mains(color, n));
    StartEntries(color, n, pieces);
    StartKeys(color, n, pieces);
  }

  /** The filled start roster holds every starting piece under its name. */
  lemma StartEntries(color: Color, n: Naming, pieces: map<string, Piece>)
    requires Collected(Pawns(color, n), Mains(color, n), 8, pieces)
    ensures forall f :: 1 <= f <= 8 ==>
      StartPawn(color, f, n).name in pieces && pieces[StartPawn(color, f, n).name] == StartPawn(color, f, n)
    ensures forall f :: 1 <= f <= 8 ==>
      StartMain(color, f, n).name in pieces && pieces[StartMain(color, f, n).name] == StartMain(color, f, n)
  {
    forall f | 1 <= f <= 8
      ensures StartPawn(color, f, n).name in pieces && pieces[StartPawn(color, f, n).name] == StartPawn(color, f, n)
      ensures StartMain(color, f, n).name in pieces && pieces[StartMain(color, f, n).name] == StartMain(color, f, n)
    {
      assert Pawns(color, n)(f) == StartPawn(color, f, n);
      assert Mains(color, n)(f) == StartMain(color, f, n);
    }
  }

  /** Every entry of the filled start roster is a starting piece of the
      player's colour. */
  lemma StartKeys(color: Color, n: Naming, pieces: map<string, Piece>)
    requires Collected(Pawns(color, n), Mains(color, n), 8, pieces)
    ensures forall name :: name in pieces ==>
      pieces[name].name == name && pieces[name].color == color && CollectedBy(color, 8, n, pieces[name])
  {
    forall name | name in pieces
      ensures pieces[name].name == name && pieces[name].color == color && CollectedBy(color, 8, n, pieces[name])
    {
      RosterIsCollected(color, n, pieces[name]);
    }
  }

  /** The knight keys of the initial collection: 'K-B1', 'K-G1', 'K-B8'
      and 'K-G8' as written, 'N-...' under the intended rule. */
  lemma KnightKeys(c: Color)
    ensures StartMain(c, 2, AsWritten).name == ['K', '-', 'B', DigitChar(MainRowPos(c))]
    ensures StartMain(c, 7, AsWritten).name == ['K', '-', 'G', DigitChar(MainRowPos(c))]
    ensures StartMain(c, 2, Intended).name == ['N', '-', 'B', DigitChar(MainRowPos(c))]
    ensures StartMain(c, 7, Intended).name == ['N', '-', 'G', DigitChar(MainRowPos(c))]
  {
    var y := MainRowPos(c);
    assert AlgebraicConverter(Square(2, y)).value == ['B', DigitChar(y)];
    assert AlgebraicConverter(Square(7, y)).value == ['G', DigitChar(y)];
  }
}

=== FILE: state_helpers.dfy ===
/** Queen promotion of a pawn that reached its last rank
    (chess/helpers/state_helpers.py). The piece's glyph is presentation and
    is not modelled. */
module StateHelpers {
  import opened Constants
  import opened GeneralHelpers
  import opened Pieces

  /** The rank a pawn of the player of colour `c` promotes on. */
  function EndRank(c: Color): int
  {
    if c == White then 8 else 1
  }

  /** `pawn_promotion`: a pawn that moved to `dest` on the mover's end rank
      becomes a queen. The end rank is chosen by the player's colour. */
  function PawnPromotion(playerColor: Color, dest: Square, piece: Piece): (r: Piece)
    ensures r.color == piece.color && r.pos == piece.pos && r.name == piece.name
    ensures r.rank == Queen || r == piece
    ensures r != piece <==> piece.rank == Pawn && dest.y == EndRank(playerColor)
  {
    if piece.rank == Pawn && dest.y == EndRank(playerColor) then piece.(rank := Queen) else piece
  }

  /** Promoting twice is promoting once. */
  lemma PawnPromotionIdempotent(playerColor: Color, dest: Square, piece: Piece)
    ensures PawnPromotion(playerColor, dest, PawnPromotion(playerColor, dest, piece))
         == PawnPromotion(playerColor, dest, piece)
  {
  }

  /** Only white pawns reaching rank 8 and black pawns reaching rank 1
      promote; nothing that is not a pawn ever changes. */
  lemma PromotionByColour(dest: Square, piece: Piece)
    ensures PawnPromotion(White, dest, piece).rank == Queen && piece.rank == Pawn <==> piece.rank == Pawn && dest.y == 8
    ensures PawnPromotion(Black, dest, piece).rank == Queen && piece.rank == Pawn <==> piece.rank == Pawn && dest.y == 1
    ensures piece.rank != Pawn ==> PawnPromotion(White, dest, piece) == piece == PawnPromotion(Black, dest, piece)
  {
  }
}

=== FILE: tables.dfy ===
/** The constant tables of the engine (chess/misc/tables.py): the capture
    ordering index of each rank, two material scales, and the
    piece-square tables normalised for white. */
module Tables {
  import opened Constants

  /** `RANK_VALUE_MAP`: the index of each rank, used to order captures. */
  const RankValueMap: map<Rank, int> :=
    map[Pawn := 0, Knight := 1, Bishop := 2, Rook := 3, Queen := 4, King := 5]

  /** `NORMAL_VALUE`: the usual material count, with the king worth 0. */
  const NormalValue: map<Rank, int> :=
    map[Pawn := 1, Knight := 3, Bishop := 3, Rook := 5, Queen := 9, King := 0]

  /** `VALUE`: material in centipawns, with the king worth 20000. */
  const CentipawnValue: map<Rank, int> :=
    map[Pawn := 100, Knight := 320, Bishop := 330, Rook := 500, Queen := 900, King := 20000]

  /** The ranks in capture-ordering order. */
  const RankOrder: seq<Rank> := [Pawn, Knight, Bishop, Rook, Queen, King]

  /** Every rank has an index, the indices are 0..5 in the order pawn,
      knight, bishop, rook, queen, king, and no two ranks share one. */
  lemma RankValueMapIsOrder()
    ensures forall r: Rank :: r in RankValueMap && 0 <= RankValueMap[r] < 6
    ensures forall i :: 0 <= i < 6 ==> RankValueMap[RankOrder[i]] == i
    ensures forall r1: Rank, r2: Rank :: RankValueMap[r1] == RankValueMap[r2] ==> r1 == r2
  {
    forall r: Rank
      ensures r in RankValueMap && 0 <= RankValueMap[r] < 6
    {
      match r
      case Pawn => case Knight => case Bishop => case Rook => case Queen => case King =>
    }
    forall r1: Rank, r2: Rank | RankValueMap[r1] == RankValueMap[r2]
      ensures r1 == r2
    {
      match r1
      case Pawn => case Knight => case Bishop => case Rook => case Queen => case King =>
    }
  }

  /** Both scales rate every rank; the king is worth nothing on the normal
      scale and more than every other rank on the centipawn scale, which
      grows strictly along the capture ordering. */
  lemma ValueScales()
    ensures forall r: Rank :: r in NormalValue && r in CentipawnValue
    ensures NormalValue[King] == 0 && CentipawnValue[King] == 20000
    ensures forall r: Rank :: r != King ==> NormalValue[r] > 0 && CentipawnValue[r] < CentipawnValue[King]
    ensures forall i, j :: 0 <= i < j < 6 ==> CentipawnValue[RankOrder[i]] < CentipawnValue[RankOrder[j]]
  {
    forall r: Rank
      ensures r in NormalValue && r in CentipawnValue
      ensures r != King ==> NormalValue[r] > 0 && CentipawnValue[r] < CentipawnValue[King]
    {
      match r
      case Pawn => case Knight => case Bishop => case Rook => case Queen => case King =>
    }
  }

  /** An 8 by 8 table. */
  predicate Square8(t: seq<seq<int>>)
  {
    |t| == 8 && forall row :: 0 <= row < 8 ==> |t[row]| == 8
  }

  /** The keys of `PENALTY`: the five ranks other than the king, and the
      middle-game and end-game king tables. */
  datatype TableKey = RankTable(rank: Rank) | KingMid | KingEnd

  const PawnTable: seq<seq<int>> := [
    [0, 0, 0, 0, 0, 0, 0, 0],
    [50, 50, 50, 50, 50, 50, 50, 50],
    [10, 10, 20, 30, 30, 20, 10, 10],
    [5, 5, 10, 25, 25, 10, 5, 5],
    [0, 0, 0, 20, 20, 0, 0, 0],
    [5, -5, -10, 0, 0, -10, -5, 5],
    [5, 10, 10, -20, -20, 10, 10, 5],
    [0, 0, 0, 0, 0, 0, 0, 0]]

  const KnightTable: seq<seq<int>> := [
    [-50, -40, -30, -30, -30, -30, -40, -50],
    [-40, -20, 0, 0, 0, 0, -20, -40],
    [-30, 0, 10, 15, 15, 10, 0, -30],
    [-30, 5, 15, 20, 20, 15, 5, -30],
    [-30, 0, 15, 20, 20, 15, 0, -30],
    [-30, 5, 10, 15, 15, 10, 5, -30],
    [-40, -20, 0, 5, 5, 0, -20, -40],
    [-50, -40, -30, -30, -30, -30, -40, -50]]

  const BishopTable: seq<seq<int>> := [
    [-20, -10, -10, -10, -10, -10, -10, -20],
    [-10, 0, 0, 0, 0, 0, 0, -10],
    [-10, 0, 5, 10, 10, 5, 0, -10],
    [-10, 5, 5, 10, 10, 5, 5, -10],
    [-10, 0, 10, 10, 10, 10, 0, -10],
    [-10, 10, 10, 10, 10, 10, 10, -10],
    [-10, 5, 0, 0, 0, 0, 5, -10],
    [-20, -10, -10, -10, -10, -10, -10, -20]]

  const RookTable: seq<seq<int>> := [
    [0, 0, 0, 0, 0, 0, 0, 0],
    [5, 10, 10, 10, 10, 10, 10, 5],
    [-5, 0, 0, 0, 0, 0, 0, -5],
    [-5, 0, 0, 0, 0, 0, 0, -5],
    [-5, 0, 0, 0, 0, 0, 0, -5],
    [-5, 0, 0, 0, 0, 0, 0, -5],
    [-5, 0, 0, 0, 0, 0, 0, -5],
    [0, 0, 0, 5, 5, 0, 0, 0]]

  const QueenTable: seq<seq<int>> := [
    [-20, -10, -10, -5, -5, -10, -10, -20],
    [-10, 0, 0, 0, 0, 0, 0, -10],
    [-10, 0, 5, 5, 5, 5, 0, -10],
    [-5, 0, 5, 5, 5, 5, 0, -5],
    [0, 0, 5, 5, 5, 5, 0, -5],
    [-10, 5, 5, 5, 5, 5, 0, -10],
    [-10, 0, 5, 0, 0, 0, 0, -10],
    [-20, -10, -10, -5, -5, -10, -10, -20]]

  const KingMidTable: seq<seq<int>> := [
    [-30, -40, -40, -50, -50, -40, -40, -30],
    [-30, -40, -40, -50, -50, -40, -40, -30],
    [-30, -40, -40, -50, -50, -40, -40, -30],
    [-30, -40, -40, -50, -50, -40, -40, -30],
    [-20, -30, -30, -40, -40, -30, -30, -20],
    [-10, -20, -20, -20, -20, -20, -20, -10],
    [20, 20, 0, 0, 0, 0, 20, 20],
    [20, 30, 10, 0, 0, 10, 30, 20]]

  const KingEndTable: seq<seq<int>> := [
    [-50, -40, -30, -20, -20, -30, -40, -50],
    [-30, -20, -10, 0, 0, -10, -20, -30],
    [-30, -10, 20, 30, 30, 20, -10, -30],
    [-30, -10, 30, 40, 40, 30, -10, -30],
    [-30, -10, 30, 40, 40, 30, -10, -30],
    [-30, -10, 20, 30, 30, 20, -10, -30],
    [-30, -30, 0, 0, 0, 0, -30, -30],
    [-50, -30, -30, -30, -30, -30, -30, -50]]

  /** `PENALTY`: the piece-square table of each key. */
  const Penalty: map<TableKey, seq<seq<int>>> := map[
    RankTable(Pawn) := PawnTable, RankTable(Knight) := KnightTable,
    RankTable(Bishop) := BishopTable, RankTable(Rook) := RookTable,
    RankTable(Queen) := QueenTable, KingMid := KingMidTable, KingEnd := KingEndTable]

  /** `PENALTY` has a table for every rank but the king, plus the two king
      tables, and every table is 8 by 8 (the module-level check only looks
      at the first row). */
  lemma PenaltyTablesAreSquare()
    ensures forall k :: k in Penalty <==> k != RankTable(King)
    ensures forall k :: k in Penalty ==> Square8(Penalty[k])
  {
    forall k: TableKey
      ensures k in Penalty <==> k != RankTable(King)
    {
      match k
      case RankTable(r) =>
        match r {
          case Pawn => case Knight => case Bishop => case Rook => case Queen => case King =>
        }
      case KingMid => case KingEnd =>
    }
    assert Square8(PawnTable) && Square8(KnightTable) && Square8(BishopTable) && Square8(RookTable);
    assert Square8(QueenTable) && Square8(KingMidTable) && Square8(KingEndTable);
  }
}

=== FILE: turn.dfy ===
/** The record of the previous turn: a castle or a move, with the flags
    later turns consult (chess/turn.py). */
module Turn {
  import opened Builtins
  import opened Constants
  import opened GeneralHelpers
  import opened Pieces

  /** An attribute that is only annotated in `__init__` (Python raises
      `AttributeError` on reading it) or one that has been assigned. */
  datatype Field<+T> = Unset | Assigned(value: T)

  /** The attributes of a `Turn` object. `pieceTwoLeaped` is the attribute
      `log_castle` writes, which `__init__` never declares. */
  datatype TurnLog = TurnLog(
    moveType: Field<MoveType>,
    movedPiece: Option<Piece>,
    movedPiecePos: Option<Square>,
    movedPieceDest: Option<Square>,
    capturedPiece: Option<Piece>,
    capturedPiecePos: Field<Option<Square>>,
    castleSide: Option<CastleSide>,
    castleKingCode: Option<string>,
    castleRookCode: Option<string>,
    pawnPromoted: bool,
    piecesFirstMove: Field<bool>,
    codeOfPieceThatTwoLeaped: Field<Option<string>>,
    pieceTwoLeaped: Field<bool>,
    turnColor: Field<Color>,
    prevPlayersCheck: Field<seq<bool>>,
    isPseudomove: Field<bool>)

  /** `Turn()`: the attributes with defaults hold them (`None`, and `False`
      for the promotion flag), the annotated-only ones are unset, and so is
      the two-leap flag `__init__` never mentions. */
  function NewTurn(): (t: TurnLog)
    ensures t.movedPiece == None && t.movedPiecePos == None && t.movedPieceDest == None
    ensures t.capturedPiece == None && t.castleSide == None
    ensures t.castleKingCode == None && t.castleRookCode == None && !t.pawnPromoted
    ensures t.moveType == Unset && t.capturedPiecePos == Unset && t.piecesFirstMove == Unset
    ensures t.codeOfPieceThatTwoLeaped == Unset && t.pieceTwoLeaped == Unset
    ensures t.turnColor == Unset && t.prevPlayersCheck == Unset && t.isPseudomove == Unset
  {
    TurnLog(Unset, None, None, None, None, Unset, None, None, None, false,
            Unset, Unset, Unset, Unset, Unset, Unset)
  }

  /** The asserts of `log_castle`: two four-character codes of a king and a
      rook and a check snapshot for both players. The side and colour
      asserts hold by typing. */
  predicate CastleLoggable(kingCode: string, rookCode: string, prevPlayersCheck: seq<bool>)
  {
    |kingCode| == 4 && |rookCode| == 4 && kingCode[0] == 'K' && rookCode[0] == 'R'
    && |prevPlayersCheck| == 2
  }

  /** `log_castle`: records a castle, its side and both codes; the pieces
      had not moved before and it is not a pseudo-move. */
  function LogCastle(t: TurnLog, side: CastleSide, kingCode: string, rookCode: string,
                     turnColor: Color, prevPlayersCheck: seq<bool>): (r: TurnLog)
    requires CastleLoggable(kingCode, rookCode, prevPlayersCheck)
    ensures r.moveType == Assigned(CastleEntry) && r.castleSide == Some(side)
    ensures r.castleKingCode == Some(kingCode) && r.castleRookCode == Some(rookCode)
    ensures r.piecesFirstMove == Assigned(true) && r.pieceTwoLeaped == Assigned(false)
    ensures r.turnColor == Assigned(turnColor) && r.prevPlayersCheck == Assigned(prevPlayersCheck)
    ensures r.isPseudomove == Assigned(false)
    ensures r.codeOfPieceThatTwoLeaped == t.codeOfPieceThatTwoLeaped
    ensures r.movedPiece == t.movedPiece && r.capturedPiece == t.capturedPiece && r.pawnPromoted == t.pawnPromoted
    ensures r.movedPiecePos == t.movedPiecePos && r.movedPieceDest == t.movedPieceDest
    ensures r.capturedPiecePos == t.capturedPiecePos
  {
    t.(moveType := Assigned(CastleEntry), castleSide := Some(side),
       castleKingCode := Some(kingCode), castleRookCode := Some(rookCode),
       piecesFirstMove := Assigned(true), pieceTwoLeaped := Assigned(false),
       turnColor := Assigned(turnColor), prevPlayersCheck := Assigned(prevPlayersCheck),
       isPseudomove := Assigned(false))
  }

  /** A castle logged on a fresh record leaves the two-leap code unset:
      reading it raises, where a move entry would give `None`. */
  lemma CastleLeavesTwoLeapCodeUnset(side: CastleSide, kingCode: string, rookCode: string,
                                     turnColor: Color, prevPlayersCheck: seq<bool>)
    requires CastleLoggable(kingCode, rookCode, prevPlayersCheck)
    ensures LogCastle(NewTurn(), side, kingCode, rookCode, turnColor, prevPlayersCheck).codeOfPieceThatTwoLeaped == Unset
    ensures LogCastle(NewTurn(), side, kingCode, rookCode, turnColor, prevPlayersCheck).movedPiece == None
  {
  }

  /** `log_move`: records a move with its arguments stored verbatim; the
      two-leap code is the moved piece's name exactly when it two-leaped.
      The pairing assert on the captured piece compares `type(...)` with
      `None`, which never fails, so a capture and its square are not
      required to come together. */
  function LogMove(t: TurnLog, movedPiece: Piece, movedPiecePos: Square, movedPieceDest: Square,
                   pawnPromoted: bool, pieceFirstMove: bool, pieceTwoLeaped: bool,
                   turnColor: Color, prevPlayersCheck: seq<bool>, isPseudomove: bool,
                   capturedPiece: Option<Piece>, capturedPiecePos: Option<Square>): (r: TurnLog)
    requires |prevPlayersCheck| == 2
    ensures r.moveType == Assigned(MoveEntry)
    ensures r.movedPiece == Some(movedPiece) && r.movedPiecePos == Some(movedPiecePos)
    ensures r.movedPieceDest == Some(movedPieceDest)
    ensures r.capturedPiece == capturedPiece && r.capturedPiecePos == Assigned(capturedPiecePos)
    ensures r.pawnPromoted == pawnPromoted && r.piecesFirstMove == Assigned(pieceFirstMove)
    ensures r.codeOfPieceThatTwoLeaped.Assigned?
    ensures r.codeOfPieceThatTwoLeaped.value.Some? <==> pieceTwoLeaped
    ensures pieceTwoLeaped ==> r.codeOfPieceThatTwoLeaped.value == Some(movedPiece.name)
    ensures r.turnColor == Assigned(turnColor) && r.prevPlayersCheck == Assigned(prevPlayersCheck)
    ensures r.isPseudomove == Assigned(isPseudomove)
    ensures r.castleSide == t.castleSide && r.castleKingCode == t.castleKingCode
    ensures r.castleRookCode == t.castleRookCode && r.pieceTwoLeaped == t.pieceTwoLeaped
  {
    t.(moveType := Assigned(MoveEntry), movedPiece := Some(movedPiece),
       movedPiecePos := Some(movedPiecePos), movedPieceDest := Some(movedPieceDest),
       capturedPiece := capturedPiece, capturedPiecePos := Assigned(capturedPiecePos),
       pawnPromoted := pawnPromoted, piecesFirstMove := Assigned(pieceFirstMove),
       codeOfPieceThatTwoLeaped := Assigned(if pieceTwoLeaped then Some(movedPiece.name) else None),
       turnColor := Assigned(turnColor), prevPlayersCheck := Assigned(prevPlayersCheck),
       isPseudomove := Assigned(isPseudomove))
  }

  /** Logging a move on a record that held a castle overwrites every move
      attribute but leaves the castle side and codes in place, so a reused
      record reports both. */
  lemma MoveAfterCastleKeepsCastleCodes(t: TurnLog, side: CastleSide, kingCode: string, rookCode: string,
                                        c: Color, check: seq<bool>, p: Piece, a: Square, b: Square)
    requires CastleLoggable(kingCode, rookCode, check)
    ensures var r := LogMove(LogCastle(t, side, kingCode, rookCode, c, check), p, a, b,
                             false, false, false, c, check, false, None, None);
      && r.moveType == Assigned(MoveEntry)
      && r.castleSide == Some(side) && r.castleKingCode == Some(kingCode)
      && r.codeOfPieceThatTwoLeaped == Assigned(None)
  {
  }

  /** A capture may be logged without its square: the pairing check lets
      it through. */
  lemma CaptureWithoutSquareAccepted(t: TurnLog, p: Piece, q: Piece, a: Square, b: Square, c: Color)
    ensures var r := LogMove(t, p, a, b, false, false, false, c, [false, false], false, Some(q), None);
      r.capturedPiece == Some(q) && r.capturedPiecePos == Assigned(None)
  {
  }
}
